=== FILE: README.md ===
# coros-podcast-sync: the episode lifecycle and storage reconciliation, in Dafny

coros-podcast-sync is a small server. It follows podcast RSS feeds, downloads
episodes, converts them to MP3, and copies a per-podcast selection onto a Coros
watch that is mounted over USB. This project models its service layer as pure
functions over immutable values, and proves properties of them:

- **Store.** The SQLite store is a `Db` of three tables held as sequences in
  table order: podcasts, episodes and sync history.
- **Disks.** The local disk is a map from path to size in bytes. The watch's
  music folder is a map from file name to size.
- **Outside world as parameters.** HTTP, feedparser, ffmpeg, `statvfs` and
  `Path.resolve` become parameters. So do the directory enumerations
  (`glob`, `rglob`, `iterdir`) and the paths whose `unlink` raises. A
  precondition says that each enumeration lists each file of its directory
  exactly once; it does not fix their order.

The modules follow the services:

- `Model`: the rows, lookup and write-back, and byte sums over file maps.
- `Text`, `Paths`, `Sorting`: the Python string operations, `pathlib`, and the
  SQLAlchemy query shapes (`filter`, `order_by`, `limit`) the services rely on.
- `Filenames`: how a downloaded file is named.
- `Download`: `DownloadService`.
- `Feed`: `PodcastService`.
- `Converter`: `AudioConverter`.
- `Device`: `DeviceDetector`.
- `Storage`: `StorageService`.
- `Sync`: `SyncService`.
- `AutoDownload`: the scheduled tasks of `auto_download.py`.

## Model

| member | source | states |
|---|---|---|
| Model.FindEpisode | backend/app/services/download_service.py:42 | `query(Episode).filter(id == …).first()`: a found row is in the table with that id; None means no row has it; under unique ids it is the row with that id |
| Model.FindPodcast | backend/app/services/download_service.py:61 | The podcast lookup: a found row has the id; None means no podcast has it |
| Model.Store | backend/app/services/download_service.py:106-110 | Committing a changed row rewrites exactly the rows with its id and keeps every other row in place |
| Model.FindStore | backend/app/services/download_service.py:106-110 | After a row is written back, looking up its id finds the new row |
| Model.FindStoreOther | backend/app/services/download_service.py:106-110 | Writing one row back does not change what any other id looks up |
| Model.Delete | backend/app/services/storage_service.py:134 | `db.delete(episode)`: the rows left are exactly the old rows with a different id |
| Model.NextEpisodeId | backend/app/services/podcast_service.py:193-199 | The id an inserted row gets is positive and above every id in use |
| Model.NextPodcastId | backend/app/services/podcast_service.py:107-109 | The id a new podcast gets is positive and above every podcast id in use |
| Model.NextRecordId | backend/app/services/sync_service.py:90-91 | The id a new sync_history row gets is positive and above every id in use |
| Model.Unlink | backend/app/services/download_service.py:151-155 | `if path.exists(): path.unlink()`: the file goes exactly when it exists and its unlink does not raise; otherwise the disk is unchanged |
| Model.Only | backend/app/services/storage_service.py:244-245 | The files of a map that pass a test, with their sizes |
| Model.SumRemove | backend/app/services/storage_service.py:288-314 | Removing any one file takes exactly its size off the byte total, whatever the order of summation |
| Model.SumUpdate | backend/app/services/sync_service.py:132 | Writing a size under a path replaces that path's old size in the total |
| Text.Lower | backend/app/services/download_service.py:203 | `str.lower` on ASCII letters: same length, each character folded |
| Text.RemoveChars | backend/app/services/download_service.py:181-183 | `name.replace(char, '')` for each invalid character: none of them is left, and a string without them is unchanged |
| Text.RemoveCharsConcat | backend/app/services/download_service.py:181-183 | Removal works piece by piece: removing from `x + y` is removing from `x` followed by removing from `y` |
| Text.RemoveCharsOne | backend/app/services/download_service.py:181-183 | A single bad character is removed and a single other character is kept |
| Text.Strip | backend/app/services/download_service.py:186 | `strip('. ')`: neither end of the result is a stripped character, and a string whose ends are not stripped is unchanged |
| Text.StripIsSlice | backend/app/services/download_service.py:186 | What `strip` keeps is a middle slice of the input, and everything it cuts from either end is a stripped character |
| Text.StripPadded | backend/app/services/download_service.py:186 | Stripping padding of dropped characters around a middle that starts and ends with a kept character gives back exactly the middle |
| Text.Split | backend/app/services/download_service.py:196 | `str.split(sep)`: at least one piece, none holds the separator, and joining the pieces gives the input back |
| Text.SplitJoin | backend/app/services/podcast_service.py:168 | Round trip: splitting a join of separator-free pieces gives the pieces back |
| Text.Words | backend/app/services/download_service.py:189 | `s.split()`: non-empty blank-free words, and none exactly when the string is all blanks |
| Text.WordsOfJoin | backend/app/services/download_service.py:189 | Round trip: the words of `' '.join(ws)` are `ws` |
| Text.JoinOfWords | backend/app/services/download_service.py:189 | Round trip the other way: a tidy string is the single-space join of its words |
| Text.Collapse | backend/app/services/download_service.py:189 | `' '.join(s.split())` is tidy: no blank at either end and no two blanks in a row. It is empty exactly when the input is all blanks |
| Text.CollapseAvoids | backend/app/services/download_service.py:189 | Collapsing brings in no character other than the space |
| Text.CollapseTidy | backend/app/services/download_service.py:189 | Collapsing is the identity on a tidy string |
| Text.ShowNat | backend/app/services/podcast_service.py:170-174 | `str(n)` is a non-empty run of digits without a colon |
| Text.ParseInt | backend/app/services/podcast_service.py:170-174 | `int(s)` gives a number only when the string holds a digit; otherwise it is the ValueError path |
| Text.ParseRejects | backend/app/services/podcast_service.py:170-176 | A string holding a character that is not a digit, an underscore, a blank or a sign gives no number: the ValueError path |
| Text.ParseDigits | backend/app/services/podcast_service.py:174 | `int()` of a plain run of digits is its decimal value |
| Text.ParsePadded | backend/app/services/podcast_service.py:170-174 | `int()` of a run of digits with an optional `+` or `-` and blank padding on both sides is the signed decimal value |
| Text.ParseStripped | backend/app/services/podcast_service.py:170-174 | `int()` of a string that strips to a sign and a run of digits is their signed decimal value |
| Text.ParseShowNat | backend/app/services/podcast_service.py:174 | Round trip: `int(str(n)) == n` |
| Paths.Join | backend/app/services/download_service.py:67 | `Path(a) / b` ends with `b`, and an empty `b` adds nothing |
| Paths.Name | backend/app/services/sync_service.py:117 | `Path(p).name` is empty or a plain component, and holds no character the path lacks |
| Paths.NameOfJoin | backend/app/services/sync_service.py:117 | The name of `dir / n` is `n` for a plain component `n` |
| Paths.Suffix | backend/app/services/download_service.py:197 | `.suffix` is empty, or a dot and a dot-free tail that ends the name |
| Paths.Stem | backend/app/services/audio_converter.py:95 | `.stem` followed by `.suffix` is the name; only an empty name has an empty stem |
| Paths.SuffixOfStemPlus | backend/app/services/audio_converter.py:95 | `stem + ".mp3"` has suffix `.mp3` and stem `stem` |
| Paths.UnderJoin | backend/app/services/download_service.py:67 | `dir / n` lies below `dir` |
| Sorting.Filter | backend/app/services/sync_service.py:41-44 | `filter(...)`: exactly the rows that pass, in table order |
| Sorting.Count | backend/app/services/sync_service.py:274-281 | `filter(...).count()` is at most the table size, and counts exactly the passing rows |
| Sorting.Limit | backend/app/services/sync_service.py:45 | SQL `LIMIT n`: a prefix of length `n`; a negative limit keeps everything |
| Sorting.SortBy | backend/app/services/sync_service.py:45 | `order_by(key)` gives a sorted permutation of the rows |
| Sorting.LimitIsTop | backend/app/services/sync_service.py:45 | `order_by(key).limit(n)`: a row left out never has a smaller key than a row that was kept |
| Sorting.Top | backend/app/services/download_service.py:293-299 | `order_by(key).limit(n)`: sorted, a sub-multiset of the rows, of length `min(n, size)`, or every row when `n` is negative |
| Sorting.TopIsBest | backend/app/services/download_service.py:293-299 | A row left out of `Top` never has a smaller key than a row in it |
| Sorting.TopDistinct | backend/app/services/download_service.py:293-299 | `Top` keeps a unique column unique |
| Sorting.TopMap | backend/app/services/sync_service.py:41-45 | `Top` commutes with a projection that keeps the sort key |
| Filenames.Sanitize | backend/app/services/download_service.py:178-191 | `_sanitize_filename`: the result holds none of `<>:"/\|?*` and is tidy (no blank at either end, no run of blanks) |
| Filenames.SanitizeKeeps | backend/app/services/download_service.py:178-191 | Sanitising is the identity on a clean, tidy name without dots at its ends |
| Filenames.SanitizeLeadingDot | backend/app/services/download_service.py:185-189 | The strip runs before blanks are collapsed, so a sanitised name can start with a dot (`"\t.x"` gives `".x"`) |
| Filenames.UrlPath | backend/app/services/download_service.py:196 | `url.split('?')[0]` is a `?`-free prefix of the URL |
| Filenames.GetExtension | backend/app/services/download_service.py:193-203 | `_get_extension` is a dot and at least one more character, with no `/` and no `?` |
| Filenames.ExtensionIgnoresQuery | backend/app/services/download_service.py:196 | The query string after the first `?` plays no part in the extension |
| Filenames.ExtensionOfFile | backend/app/services/download_service.py:197-203 | The URL of a file `dir/stem.ext` gives the extension `.ext`, lower-cased |
| Filenames.RawExtension | backend/app/services/download_service.py:193-201 | The suffix of the last path component; `.mp3` exactly when that component has no suffix |
| Filenames.ExtensionDefault | backend/app/services/download_service.py:199-201 | A file `dir/stem` whose name has no dot gets the default `.mp3` |
| Filenames.GenerateFilename | backend/app/services/download_service.py:159-176 | `podcast + " - " + episode + ext` with sanitised titles, where only a name over 200 characters has its episode part cut to its first 100 characters; the result is one path component |
| Filenames.FilenameBounded | backend/app/services/download_service.py:171-174 | The 200-character bound holds when the podcast name and extension leave room for 100 episode characters |
| Filenames.FilenameUnbounded | backend/app/services/download_service.py:171-174 | The bound is not guaranteed: a 200-character podcast title gives a name over 200 characters |
| Download.HeaderSize | backend/app/services/download_service.py:78 | `int(headers.get('content-length', 0))`: 0 without the header, a number only when the header holds a digit |
| Download.HeaderOfNumber | backend/app/services/download_service.py:78 | A header that spells a number gives that number |
| Download.TargetPath | backend/app/services/download_service.py:65-67 | The file is written under the storage directory, and its name is `_generate_filename` |
| Download.Receive | backend/app/services/download_service.py:73-104 | The body arrives whole exactly when the transfer completes and the header parses, and then the file holds its size; no other file changes |
| Download.Finish | backend/app/services/download_service.py:106-140 | After a successful transfer the row is `downloaded` at 100% with `local_path` set. `converted_path` becomes `local_path` when the file is not a convertible format, the new MP3 when ffmpeg is installed and the run encodes, and is left as it was when the conversion fails. Only the conversion output can change on disk |
| Download.Fail | backend/app/services/download_service.py:142-157 | A transfer error leaves the row `failed` at 0% and returns nothing; the partial file is removed unless its unlink raises |
| Download.Attempt | backend/app/services/download_service.py:60-157 | One attempt succeeds exactly when the transfer completes with a readable header. On success the row is `downloaded`, at 100%, with the path, the file and the header size, and `converted_path` follows the rule of lines 123-134 (the download itself, the new MP3, or unchanged after a failed conversion). On failure it is `failed` and the partial file is gone |
| Download.Put | backend/app/services/download_service.py:110 | Committing one row keeps the ids in place and every other row untouched |
| Download.Fetch | backend/app/services/download_service.py:54-157 | Downloading a row rewrites only that row, and a returned path names a file on disk |
| Download.DownloadEpisode | backend/app/services/download_service.py:27-157 | `download_episode`: an unknown id returns None and changes nothing; only the requested row is rewritten; a returned path is on disk |
| Download.OrphanReports | backend/app/services/download_service.py:61-63 | A row whose podcast is gone ends `failed` and no path comes back |
| Download.AttemptReports | backend/app/services/download_service.py:60-157 | A row whose podcast exists ends as the attempt left it |
| Download.DownloadSettles | backend/app/services/download_service.py:47-157 | A download of an existing row leaves it `downloaded` or `failed`. It is `downloaded` exactly when a path comes back, and that path is its `local_path` and on disk |
| Download.DownloadKeepsInvariants | backend/app/services/download_service.py:106-140 | Downloading keeps ids unique and never leaves a converted path without its download |
| Download.DownloadIdempotent | backend/app/services/download_service.py:47-52 | A second download of a row that came back with a path returns the same path and changes nothing |
| Download.DownloadPlacement | backend/app/services/download_service.py:65-67 | A freshly fetched file is returned exactly when the transfer completes, is named by `_generate_filename` and lies in the storage directory |
| Download.RunAll | backend/app/services/download_service.py:303-309 | The batch loop returns only ids it was asked for |
| Download.DownloadStepLocal | backend/app/services/download_service.py:27-157 | `download_episode` rewrites only the row it is asked for |
| Download.DownloadStepSettles | backend/app/services/download_service.py:27-157 | `download_episode` leaves the row it is asked for `downloaded` or `failed`, and `downloaded` exactly when it returns a path |
| Download.RunAllConfined | backend/app/services/download_service.py:303-309 | A batch rewrites only the requested rows |
| Download.HeadAccounted | backend/app/services/download_service.py:303-309 | The rest of a batch never touches the first row's outcome |
| Download.TailAccounted | backend/app/services/download_service.py:303-309 | A later id is accounted for when the rest of the batch accounts for it |
| Download.RunAllSettles | backend/app/services/download_service.py:303-309 | Unless an error escapes, every requested row ends `downloaded` or `failed`, and the returned ids are exactly those that ended `downloaded` |
| Download.Selected | backend/app/services/download_service.py:292-301 | The pending rows of the podcast, newest `pub_date` first (NULL last); exactly min(`limit`, pending count) of them for a positive limit, all of them without one |
| Download.SelectionIsNewest | backend/app/services/download_service.py:296-299 | A pending row left out is never newer than a selected one |
| Download.SelectionDistinct | backend/app/services/download_service.py:292-301 | The selected ids are distinct |
| Download.DownloadPodcastEpisodes | backend/app/services/download_service.py:277-309 | `download_podcast_episodes` returns only selected ids and rewrites only selected rows |
| Download.DownloadPodcastConfined | backend/app/services/download_service.py:292-301 | Only pending rows of the podcast are touched |
| Download.BatchConfined | backend/app/services/download_service.py:303-309 | Downloading a list of ids rewrites only their rows |
| Download.NotSelected | backend/app/services/download_service.py:293-296 | A row that is not pending for the podcast is not selected |
| Download.DownloadPodcastSettles | backend/app/services/download_service.py:303-309 | Unless an error escapes, every selected row ends `downloaded` or `failed`, and those returned are exactly the `downloaded` ones |
| Download.SelectionFound | backend/app/services/download_service.py:301-305 | Every selected id names a row of the table |
| Download.QueueDownload | backend/app/services/download_service.py:205-231 | `queue_download` returns true exactly when the id was not active; afterwards it is active and no other id changes |
| Download.TaskDone | backend/app/services/download_service.py:224-228 | The done callback removes the id and only that id from the registry |
| Download.CancelDownload | backend/app/services/download_service.py:233-257 | `cancel_download` returns true exactly for an active id, and then puts the row back to `pending` at 0%. Otherwise nothing changes |
| Download.DownloadStatus | backend/app/services/download_service.py:259-275 | `get_download_status`: `not_found` exactly for an unknown id, else the row's status and progress, and `is_downloading` exactly when the id is active |
| Download.QueueProtocol | backend/app/services/download_service.py:215-228 | Queueing twice starts one task; once it is done the id can be queued again |
| Download.CancelThenStatus | backend/app/services/download_service.py:243-272 | Right after a cancel the row reads `pending` at 0%, still downloading until the task's done callback runs |
| Download.DeleteEpisodeFile | backend/app/services/download_service.py:311-349 | `delete_episode_file`: false for a missing row or one without `local_path`. For a found row with a `local_path` it returns true exactly when neither unlink raises: the download is absent or its unlink goes through, and the converted file, if named and still on disk, is removable. A false return commits nothing, and only that row is rewritten |
| Download.DeleteClears | backend/app/services/download_service.py:325-345 | After a successful delete neither file is on disk and the row is `pending` with neither path |
| Download.DeleteKeepsInvariants | backend/app/services/download_service.py:311-349 | Deleting keeps ids unique and never leaves a converted path without its download |
| Download.DeleteThenRefetch | backend/app/services/download_service.py:47-57 | A deleted episode is downloaded afresh rather than returned from disk |
| Feed.GuidOf | backend/app/services/podcast_service.py:134-137 | The identifier is the first non-empty of `id`, `guid`, `link`; none exactly when all three are empty or missing, so the entry is skipped |
| Feed.Link | backend/app/services/podcast_service.py:149 | The link is `href` when that is non-empty, else `url`; none exactly when neither is non-empty |
| Feed.AudioUrl | backend/app/services/podcast_service.py:144-154 | The link of the first enclosure whose type contains "audio"; none without such an enclosure |
| Feed.Fields | backend/app/services/podcast_service.py:170-172 | `int()` of each colon-separated field, one per field |
| Feed.SplitThree | backend/app/services/podcast_service.py:167-169 | A value `a:b:c` has a colon and splits into its three fields |
| Feed.SplitTwo | backend/app/services/podcast_service.py:167-171 | A value `a:b` has a colon and splits into its two fields |
| Feed.FieldsOfNumbers | backend/app/services/podcast_service.py:170-172 | Fields that spell numbers read back as those numbers |
| Feed.DurationOfClock | backend/app/services/podcast_service.py:169-170 | Three runs of decimal digits `H:M:S`, zero-padded or not (`01:02:03`), give H·3600 + M·60 + S |
| Feed.DurationOfMinutes | backend/app/services/podcast_service.py:171-172 | Two runs of decimal digits `M:S`, zero-padded or not, give M·60 + S |
| Feed.DurationOfSeconds | backend/app/services/podcast_service.py:173-174 | A run of decimal digits, zero-padded or not, gives its decimal value |
| Feed.DurationRejectsLongClock | backend/app/services/podcast_service.py:167-176 | Four or more colon-separated fields give no duration, whatever they hold |
| Feed.DurationRejectsPlain | backend/app/services/podcast_service.py:173-176 | A value without a colon that holds a character `int()` refuses gives no duration |
| Feed.DurationRejectsField | backend/app/services/podcast_service.py:167-176 | A two- or three-field value with a field holding a character `int()` refuses (`1a:20`) gives no duration |
| Feed.ParseDuration | backend/app/services/podcast_service.py:161-176 | A duration is read from a value without a colon, or from two or three colon-separated fields; four or more fields give none |
| Feed.NewEpisodes | backend/app/services/podcast_service.py:132-194 | The new rows are fresh (`pending`, 0%, unsynced, no size or paths), numbered from the next id, and have identifiers the store does not hold |
| Feed.NewEpisodesAdmitted | backend/app/services/podcast_service.py:132-194 | The rows added are exactly the admissible entries in feed order, each built field by field from its entry |
| Feed.Checked | backend/app/services/podcast_service.py:197 | Only the fetched podcast changes, and only its `last_checked` |
| Feed.FetchEpisodes | backend/app/services/podcast_service.py:117-207 | An unknown podcast raises before the network. An unreachable feed rolls back and raises. For a parsed feed the fetch commits exactly when the rows it would add have distinct identifiers, and otherwise raises the integrity error. A commit appends exactly those rows and stamps `last_checked` |
| Feed.FetchKeepsIds | backend/app/services/podcast_service.py:193-199 | A committed fetch keeps episode ids unique |
| Feed.FetchKeepsGuids | backend/app/services/podcast_service.py:139-142 | A committed fetch keeps identifiers unique |
| Feed.FetchStoresAdmissible | backend/app/services/podcast_service.py:132-199 | Every admissible entry of a committed feed is stored afterwards |
| Feed.RefetchAddsNothing | backend/app/services/podcast_service.py:139-142 | Fetching the same feed again after a commit adds no rows |
| Feed.RepeatedItemRollsBack | backend/app/services/podcast_service.py:139-142 | Two usable entries with one identifier are both added, because autoflush is off. The commit then fails and the whole fetch rolls back |
| Feed.CreatePodcast | backend/app/services/podcast_service.py:78-115 | `create_podcast` refuses a known feed URL before any feed access, and an invalid feed before storing. Otherwise it commits the podcast, then fetches its episodes. It returns the podcast exactly when that fetch commits, and the fetched rows are then in the table; a failed fetch raises and leaves the episodes untouched |
| Feed.CreateKeepsKeys | backend/app/services/podcast_service.py:80-86 | Creating a podcast keeps feed URLs and podcast ids unique |
| Feed.RecreateRefused | backend/app/services/podcast_service.py:80-86 | Creating the same URL again is refused, even when the first create raised after its commit |
| Feed.CreateLeavesPodcastOnFailedFetch | backend/app/services/podcast_service.py:107-112 | The podcast row is committed before the first fetch, so a failing fetch leaves a podcast without episodes |
| Feed.DeletePodcast | backend/app/services/podcast_service.py:236-247 | `delete_podcast` raises exactly for an unknown id; otherwise the podcast and its episodes go and nothing else changes |
| Feed.DeleteKeepsOwned | backend/app/services/podcast_service.py:242-244 | The cascade leaves no episode without its podcast |
| Feed.DeleteThenFetch | backend/app/services/podcast_service.py:119-121 | Fetching a deleted podcast raises as unknown |
| Feed.FetchKeepsOwned | backend/app/services/podcast_service.py:179-199 | A committed fetch keeps every episode attached to a stored podcast |
| Converter.IsConversionNeeded | backend/app/services/audio_converter.py:35-65 | True exactly for an existing file whose lower-cased suffix is one of `.m4a .aac .ogg .opus .flac .wav .wma`; never for `.mp3` |
| Converter.OutputIsMp3 | backend/app/services/audio_converter.py:93-96 | The default output is `stem + ".mp3"`, an `.mp3` file |
| Converter.OutputNotInput | backend/app/services/audio_converter.py:93-96 | A file that needs converting is never its own output |
| Converter.NamedWhenConvertible | backend/app/services/audio_converter.py:49-62 | A convertible path has a non-empty name |
| Converter.ConvertToMp3 | backend/app/services/audio_converter.py:84-145 | `convert_to_mp3`: a missing input or ffmpeg gives None and leaves the disk alone. Success writes the target. Failure removes the partial target unless its unlink raises |
| Converter.ConvertInto | backend/app/services/audio_converter.py:233-246 | Never returns the input. The result is present exactly when ffmpeg is installed and the run encodes, and then it is the target, on disk with the encoded size. The original survives a failure; after a success it is gone unless kept (or its unlink raises) |
| Converter.ConvertEpisodeAudio | backend/app/services/audio_converter.py:209-246 | `convert_episode_audio`: the input unchanged when no conversion is needed; otherwise a result exactly when ffmpeg is installed and the run encodes, and that result is the stem plus `.mp3` in the converted directory, on disk with the encoded size; with `keep_original` nothing but the output changes |
| Converter.ConvertedIsFinal | backend/app/services/audio_converter.py:228-231 | A converted file is left alone the next time round |
| Converter.ResultNeedsNoConversion | backend/app/services/audio_converter.py:228-246 | Whatever path `convert_episode_audio` returns never needs converting: either it was not convertible, or it is an `.mp3` |
| Device.FirstValid | backend/app/services/device_detector.py:84-87 | The scanning loops return the first valid candidate, and None exactly when none is valid |
| Device.DetectMacos | backend/app/services/device_detector.py:76-91 | `_detect_macos` is the first valid entry of /Volumes, nothing when /Volumes is missing or unlistable, and the uncaught NotADirectoryError exactly when /Volumes exists but is not a directory |
| Device.WindowsIsFirstDrive | backend/app/services/device_detector.py:93-107 | `_detect_windows` is the first valid drive in alphabetical order |
| Device.DetectWindows | backend/app/services/device_detector.py:93-107 | `_detect_windows` is the first valid drive root from A:/ to Z:/, and a result is a valid watch path |
| Device.ScanIsFirstListed | backend/app/services/device_detector.py:109-131 | `_detect_linux` finds the first valid entry of the base listings before the first base that is a file, skipping missing and unlistable bases; if none is found and such a base exists, its NotADirectoryError escapes |
| Device.ScanWithoutFiles | backend/app/services/device_detector.py:109-131 | When no base is a file, the Linux scan never raises and is the first valid entry of all the listings |
| Device.DetectLinux | backend/app/services/device_detector.py:109-131 | `_detect_linux` is the first valid candidate in the listings of the bases before the first base that is a file. Failing that, it is that base's NotADirectoryError, or None when no base is a file |
| Device.GetWatchMountPoint | backend/app/services/device_detector.py:31-74 | A result is a valid watch path, and a valid configured path wins. Otherwise the result is the scan for the operating system: /Volumes on macOS, the drives on Windows, the Linux bases on Linux, None on any other system. An error is raised only on macOS or Linux, and only when a scanned directory is a file |
| Device.ConnectedIffMounted | backend/app/services/device_detector.py:22-29 | Connected exactly when a mount point is found, because a valid mount point has a music directory; the check raises exactly when detection raises |
| Device.IsWatchConnected | backend/app/services/device_detector.py:22-29 | `is_watch_connected` raises exactly what detection raises; otherwise it holds exactly when a mount point is found |
| Device.MusicFolderIffConnected | backend/app/services/device_detector.py:133-145 | There is a music folder exactly when the watch is connected, and it is the mount point's; both raise together |
| Device.GetWatchMusicFolder | backend/app/services/device_detector.py:133-145 | `get_watch_music_folder` raises exactly when detection raises. Otherwise there is a folder exactly when a mount point is found, and it is the mount point's music folder, which is writable |
| Device.Percent | backend/app/services/device_detector.py:171 | 0 for a zero total, otherwise between 0 and 100 |
| Device.GetWatchStorageInfo | backend/app/services/device_detector.py:147-186 | Raises exactly when detecting the mount point raises (that call is outside the `try`); None without a mount point or when `statvfs` raises; otherwise total = frsize·blocks, free = frsize·bavail, used + free = total |
| Device.VfsBounds | backend/app/services/device_detector.py:163-165 | With `bavail <= blocks` the free bytes lie between 0 and the total |
| Storage.Drop | backend/app/services/storage_service.py:293-300 | One file's size counts exactly when its unlink goes through, and the byte total drops by what is reported |
| Storage.DeleteEpisodeFiles | backend/app/services/storage_service.py:281-314 | `_delete_episode_files` returns exactly the bytes that left the disk. Only the row's own files can go. A row with no file on disk frees 0 |
| Storage.FreedIsUsage | backend/app/services/storage_service.py:281-314 | What it frees is at most the local size plus a distinct converted size, and exactly that when no unlink raises |
| Storage.Visit | backend/app/services/storage_service.py:131-136 | One iteration deletes the row exactly when forced or when bytes were freed. The row's non-empty files whose unlink does not raise are gone, and the byte accounting holds |
| Storage.Loop | backend/app/services/storage_service.py:185-187 | The loop visits every candidate, or stops early only once enough has been freed |
| Storage.Reclaim | backend/app/services/storage_service.py:131-136 | The cleanup loop reports exactly the bytes that left the disk and deletes at most one row per visit |
| Storage.ReclaimShrinks | backend/app/services/storage_service.py:131-136 | Rows only disappear |
| Storage.ReclaimSpares | backend/app/services/storage_service.py:131-136 | A row survives unless a visited candidate shares its id |
| Storage.ReclaimClears | backend/app/services/storage_service.py:213-217 | When every visited row is deleted, none with a visited id is left |
| Storage.ReclaimFiles | backend/app/services/storage_service.py:131-136 | A file goes only when a visited candidate names it and its unlink goes through; the rest keep their sizes |
| Storage.ReclaimKeepsFileless | backend/app/services/storage_service.py:132-133 | A row with no file on disk survives a loop that deletes only rows that freed bytes |
| Storage.ReclaimMinimal | backend/app/services/storage_service.py:185-187 | The loop does not stop early: every shorter run had freed less than needed |
| Storage.ReclaimDeletes | backend/app/services/storage_service.py:131-136 | When no two candidates name the same file, every visited candidate whose files free some bytes is deleted |
| Storage.ReclaimUnlinks | backend/app/services/storage_service.py:131-136 | Every non-empty file a visited candidate names is gone afterwards unless its unlink raises |
| Storage.CleanupOldEpisodes | backend/app/services/storage_service.py:102-141 | `cleanup_old_episodes` reports exactly the bytes freed and deletes at most the old rows; surviving files keep their sizes, and a file that goes was named by an old row and its unlink did not raise |
| Storage.AgeDeletesFreeing | backend/app/services/storage_service.py:121-136 | When ids are unique and no two rows name the same file, an old row whose files free some bytes is deleted |
| Storage.AgeUnlinksOld | backend/app/services/storage_service.py:131-133 | Every non-empty file an old row names is gone afterwards unless its unlink raises |
| Storage.AgeSparesRecent | backend/app/services/storage_service.py:119-124 | A row created after the cutoff, or synced while synced rows are kept, survives |
| Storage.AgeKeepsFileless | backend/app/services/storage_service.py:131-136 | An old row whose files are already gone is kept |
| Storage.QuotaCandidates | backend/app/services/storage_service.py:171-179 | Rows with a download path, unsynced when synced rows are kept, oldest first |
| Storage.CleanupByStorageLimit | backend/app/services/storage_service.py:143-199 | Under the limit nothing happens. Over it, the loop stops only once ten times the bytes freed reach ten times the usage minus nine times the limit, or when the candidates run out. The bytes are what left the disk |
| Storage.QuotaDeletesFreeing | backend/app/services/storage_service.py:185-194 | When ids are unique and no two rows name the same file, every candidate the loop reached whose files free some bytes is deleted |
| Storage.QuotaUnlinksVisited | backend/app/services/storage_service.py:185-189 | Every non-empty file of a candidate the loop reached is gone afterwards unless its unlink raises |
| Storage.QuotaMinimal | backend/app/services/storage_service.py:185-187 | Over the limit, no shorter run had freed enough |
| Storage.QuotaOldestFirst | backend/app/services/storage_service.py:176-177 | When a row is deleted, every candidate created strictly earlier was visited |
| Storage.CleanupFailedDownloads | backend/app/services/storage_service.py:201-222 | Every `failed` row is deleted and counted, whatever its files freed; no `failed` row is left |
| Storage.FailedSparesOthers | backend/app/services/storage_service.py:208 | Every row that has not failed survives |
| Storage.Referenced | backend/app/services/storage_service.py:232-238 | Exactly the resolved paths some row names |
| Storage.ScanOne | backend/app/services/storage_service.py:245-251 | One listed file is unlinked exactly when it is an orphan; an unlink that raises stops the scan |
| Storage.ScanFiles | backend/app/services/storage_service.py:244-251 | One directory scan removes only listed orphans and counts them with their bytes |
| Storage.ScanLeavesNoOrphans | backend/app/services/storage_service.py:244-251 | A scan that runs to the end leaves no orphan among the files it listed |
| Storage.CleanupOrphanedFiles | backend/app/services/storage_service.py:224-265 | The count and bytes are exactly what left the disk; an error names a file whose unlink raised |
| Storage.OrphansOnly | backend/app/services/storage_service.py:244-261 | A removed file lay below one of the two directories, and no row references it once resolved |
| Storage.OrphansAllGone | backend/app/services/storage_service.py:244-261 | On a clean run every orphan below either directory is gone |
| Storage.OrphansIdempotent | backend/app/services/storage_service.py:224-265 | A clean orphan scan leaves nothing for a second scan |
| Storage.NothingToScan | backend/app/services/storage_service.py:244-251 | A scan over referenced files changes nothing |
| Storage.ReclaimFreesUsage | backend/app/services/storage_service.py:75-84 | Deleting every row of a list whose rows own their files frees exactly the bytes the breakdown counts for them |
| Storage.Usage | backend/app/services/storage_service.py:68-96 | One breakdown row names its podcast; `episode_count` is the number of its rows whose download is on disk, `synced_count` the number of its synced rows, and `total_bytes` the bytes of their downloads plus distinct converted files on disk |
| Storage.StorageByPodcast | backend/app/services/storage_service.py:63-100 | One usage row per podcast, a permutation of the per-podcast rows, sorted by total bytes descending |
| Storage.BreakdownMatchesCleanup | backend/app/services/storage_service.py:63-100 | A podcast whose rows own their files frees, when all its rows are deleted, exactly the total the breakdown shows |
| Storage.SumListedMap | backend/app/services/storage_service.py:273-278 | Summing over a duplicate-free listing that covers the files gives their total, whatever the order |
| Storage.SizeTotal | backend/app/services/storage_service.py:273-278 | The running total over the whole listing is the total of the readable files below the directory |
| Storage.DirectorySize | backend/app/services/storage_service.py:267-279 | `_get_directory_size` is the total of the files below the directory that can be stat'ed: 0 for a missing directory |
| Storage.UsedPercent | backend/app/services/storage_service.py:40 | Never negative, at most 100 when used ≤ total, 0 for an unused disk |
| Storage.GetLocalStorageInfo | backend/app/services/storage_service.py:25-61 | Every figure is 0 when `disk_usage` raises; otherwise the podcast total is the two directory sizes added |
| Sync.Latest | backend/app/services/sync_service.py:41-45 | One podcast's downloaded, converted rows, newest first, at most `episode_limit` |
| Sync.DesiredFrom | backend/app/services/sync_service.py:39-47 | Every desired row is a stored, downloaded, converted row |
| Sync.EpisodesToSync | backend/app/services/sync_service.py:24-49 | `get_episodes_to_sync` holds only stored, downloaded, converted rows |
| Sync.GroupFrom | backend/app/services/sync_service.py:39-47 | The rows of one podcast in the concatenation are exactly that podcast's group |
| Sync.DesiredGroup | backend/app/services/sync_service.py:24-49 | The rows of podcast `p` in the desired set are exactly its top `episode_limit` syncable rows by `pub_date` descending |
| Sync.DesiredIsNewest | backend/app/services/sync_service.py:41-45 | A syncable row left out is no newer than any row of the same podcast in the set |
| Sync.DesiredPlain | backend/app/services/sync_service.py:41-45 | Selecting the desired set commutes with clearing the sync columns |
| Sync.SyncOnlyDesired | backend/app/services/sync_service.py:41-45 | Changing only the sync columns changes neither which rows are desired nor their order |
| Sync.Touch | backend/app/services/sync_service.py:124-126 | The row becomes synced; its `sync_date` is set only if it was not synced yet; nothing else changes |
| Sync.Mark | backend/app/services/sync_service.py:135-136 | The row becomes synced as of now; nothing else changes |
| Sync.CopyOne | backend/app/services/sync_service.py:106-145 | One episode: exactly one progress call. A copy is counted with its bytes exactly when the converted file exists, is not yet on the watch by name and size, and the copy does not raise. The only watch file written is the episode's name. A file already there is only restamped |
| Sync.Converge | backend/app/services/sync_service.py:105-145 | The copy pass changes only sync columns, never unmarks a row, and adds at most one copy per desired episode |
| Sync.Ticks | backend/app/services/sync_service.py:108-109 | The progress calls are `(i+1, total, title)` for each desired episode |
| Sync.ConvergeTicks | backend/app/services/sync_service.py:105-109 | The callback sees `(i+1, total, title)` for every desired episode, skipped or not |
| Sync.ConvergeWrites | backend/app/services/sync_service.py:117-132 | The copy pass only adds files, and every file it writes is a desired episode's converted file |
| Sync.ConvergeStamps | backend/app/services/sync_service.py:119-139 | Without copy errors every desired episode whose file exists ends marked synced |
| Sync.ConvergeCopies | backend/app/services/sync_service.py:119-139 | Without copy errors, and with no two desired files sharing a name but not a size, every desired file that exists ends on the watch |
| Sync.ConvergeQuiet | backend/app/services/sync_service.py:119-128 | A pass over episodes all on the watch by name and size copies nothing and leaves the folder alone |
| Sync.FirstMatch | backend/app/services/sync_service.py:225-227 | `.first()` finds the first matching row in table order |
| Sync.Unmark | backend/app/services/sync_service.py:225-231 | Only the first matching row changes, to not synced with no `sync_date` |
| Sync.Evict | backend/app/services/sync_service.py:212-237 | A listed file goes exactly when it is not kept and its unlink does not raise, and it is counted with its size. Only sync columns change in the store |
| Sync.EvictSparesKept | backend/app/services/sync_service.py:206-231 | With exact name matching a row whose converted file's name is kept is never touched |
| Sync.SuffixUnsyncsKept | backend/app/services/sync_service.py:224-231 | The `LIKE '%name'` match can unmark a row whose own file is still on the watch |
| Sync.SuffixClash | backend/app/services/sync_service.py:226 | `/c/ab.mp3` ends with `b.mp3` but is named `ab.mp3` |
| Sync.Keep | backend/app/services/sync_service.py:206 | Exactly the names of the desired set's converted paths |
| Sync.SyncToWatch | backend/app/services/sync_service.py:51-188 | A detection error escapes before any history row. No watch or no music folder: `success=false` with zero counts, no history row and nothing changed. Otherwise one history row is opened and closed. Only sync columns change |
| Sync.Run | backend/app/services/sync_service.py:84-172 | A run appends one history row and closes it `success`, with its counts and the copied plus removed bytes |
| Sync.SyncTicks | backend/app/services/sync_service.py:105-109 | The progress calls of a run cover the desired set in order |
| Sync.EvictCleans | backend/app/services/sync_service.py:212-237 | Without unlink errors the `.mp3` files left are kept ones, and every kept or non-`.mp3` file stays with its size |
| Sync.SyncReconciles | backend/app/services/sync_service.py:51-245 | A run without I/O errors leaves every desired existing file on the watch and only desired names among its `.mp3` files |
| Sync.KeptStaySynced | backend/app/services/sync_service.py:119-139 | With exact name matching, a run without copy errors leaves every desired row whose file exists marked synced |
| Sync.QuietRun | backend/app/services/sync_service.py:119-128 | A run on an already reconciled watch copies nothing, removes nothing and leaves the folder alone |
| Sync.EvictNothing | backend/app/services/sync_service.py:215-217 | An evict pass over a folder whose `.mp3` files are all kept removes nothing |
| Sync.RerunIsQuiet | backend/app/services/sync_service.py:119-128 | A second run straight after a run without I/O errors copies nothing and removes nothing |
| Sync.NameClashRecopies | backend/app/services/sync_service.py:117-132 | Two desired files sharing a name but not a size are copied over each other on every run |
| Sync.GetSyncStats | backend/app/services/sync_service.py:267-290 | Raises exactly when detection raises. Otherwise `total_episodes` is the number of downloaded rows with a converted file, `synced_episodes` the number of rows marked synced, pending is their difference as written, and `watch_connected` holds exactly when a mount point is found |
| Sync.PendingGoesNegative | backend/app/services/sync_service.py:279-283 | As written, deleting the files of the only episode, a synced one, takes the pending count from 0 to -1 |
| Sync.PendingSync | backend/app/services/sync_service.py:274-283 | The intended pending count, converted episodes not yet synced, is never negative and at most the converted count |
| Sync.PendingAgrees | backend/app/services/sync_service.py:283 | Where every synced row is converted, the intended count equals the difference the code computes |
| Sync.GetSyncHistory | backend/app/services/sync_service.py:247-259 | Newest runs first, taken from the table, at most `limit` of them (SQLite: all for a negative limit) |
| Sync.HistoryIsNewest | backend/app/services/sync_service.py:257-259 | A run left off the page is no newer than any run on it |
| AutoDownload.Queued | backend/app/tasks/auto_download.py:54-58 | The podcast's pending rows, newest first; exactly min(`episode_limit`, pending count) of them for a non-negative limit, all for a negative one |
| AutoDownload.QueueAgreesWithBatch | backend/app/tasks/auto_download.py:55-58 | The task picks the same rows as `download_podcast_episodes` with the podcast's limit, except that limit 0 picks none here |
| AutoDownload.QueueIsNewest | backend/app/tasks/auto_download.py:58 | A pending row left out is never newer than a queued one |
| AutoDownload.QueueDistinct | backend/app/tasks/auto_download.py:55-58 | The queued ids are distinct |
| AutoDownload.NotQueued | backend/app/tasks/auto_download.py:55-57 | A row not pending for the podcast is never queued |
| AutoDownload.Forgive | backend/app/tasks/auto_download.py:72-74 | An escaping error counts as a download that returned nothing, and changes nothing else |
| AutoDownload.TolerantLocal | backend/app/tasks/auto_download.py:61-74 | Forgiving errors does not widen what a step rewrites |
| AutoDownload.TolerantSettles | backend/app/tasks/auto_download.py:61-74 | A step that settles its row still does when its errors are forgiven |
| AutoDownload.TolerantRunsThrough | backend/app/tasks/auto_download.py:61-74 | A failure on one episode does not stop the rest |
| AutoDownload.ProcessPodcast | backend/app/tasks/auto_download.py:44-78 | A refresh that raises skips the podcast with nothing changed; otherwise its queue is downloaded on the refreshed store |
| AutoDownload.ProcessSettlesQueue | backend/app/tasks/auto_download.py:61-70 | Every queued row ends `downloaded` or `failed`, and the count is exactly the rows that ended `downloaded` |
| AutoDownload.QueueConfined | backend/app/tasks/auto_download.py:61-74 | Downloading a queue rewrites only the podcast's pending rows |
| AutoDownload.FetchConfines | backend/app/tasks/auto_download.py:48 | A refresh only appends rows |
| AutoDownload.ProcessConfined | backend/app/tasks/auto_download.py:43-78 | One podcast's turn keeps ids unique and rewrites only its own pending rows |
| AutoDownload.ProcessAllConfined | backend/app/tasks/auto_download.py:43-78 | Over all podcasts the table grows only by the refreshed rows, and every row not pending for a processed podcast stays as it was |
| AutoDownload.ProcessAll | backend/app/tasks/auto_download.py:43-78 | Each podcast in turn; no podcasts leave everything as it was, and every row added is pending and belongs to one of the processed podcasts |
| AutoDownload.AutoDownloadTask | backend/app/tasks/auto_download.py:15-89 | Every row the task adds is pending and belongs to a podcast with auto-download on. With no such podcast the task changes nothing and reports nothing |
| AutoDownload.AutoDownloadOnlyPending | backend/app/tasks/auto_download.py:29-58 | Rows of podcasts with auto-download off, and rows that are not pending, are never touched |
| AutoDownload.RefreshOne | backend/app/tasks/auto_download.py:107-117 | A refresh appends fresh rows of the refreshed podcast and leaves the history alone; one that raises changes nothing |
| AutoDownload.RefreshAll | backend/app/tasks/auto_download.py:107-117 | Every row the refreshes add is pending and belongs to one of the refreshed podcasts |
| AutoDownload.RefreshAppends | backend/app/tasks/auto_download.py:92-124 | After `check_for_new_episodes` the table is the old one followed by the rows counted as new |
| AutoDownload.RefreshKeepsInvariants | backend/app/tasks/auto_download.py:92-124 | Refreshing keeps ids and identifiers unique and every episode attached to a stored podcast |
| AutoDownload.CheckForNewEpisodes | backend/app/tasks/auto_download.py:92-124 | `check_for_new_episodes` only appends rows, leaves the history alone, and every row it adds is pending and belongs to a stored podcast |

## Left out

- Float arithmetic and rounding. The megabyte figures and `round(..., 2)` are left out. The quota rule is compared in integer bytes: ten times the bytes freed against ten times the usage minus nine times the limit. `current` is the byte total of both directories rather than its rounded MB value.
- Storage.Reclaim: its own contract covers the byte accounting and the visit bounds. That a visited row freeing bytes is deleted is stated separately, by Storage.ReclaimDeletes under disjoint files, and file removal by Storage.ReclaimUnlinks.
- Windows path semantics (drive letters inside `Join`, backslashes, case-insensitive names) are not modelled. Paths follow POSIX `pathlib` rules, and on Windows only the drive-root candidates of detection appear.
- Storage.UsedPercent: a real-valued ratio, not IEEE floating point.
- Device.Percent: likewise a real-valued ratio, not IEEE floating point.
- The HTTP transfer is one outcome per episode id. Timeouts, chunked streaming, the progress callback of the download loop and its 10% commits are left out, because they are I/O.
- ffmpeg is an oracle outcome per input path. `check_ffmpeg_installed` is a boolean, and `get_audio_info` is left out: it is a foreign probe.
- `delete_original_after_conversion` appears only as the unlink it performs.
- feedparser and the network are one `Response` per feed URL. Only the fields `fetch_episodes` reads are modelled.
- The `description` and `image_url` columns are left out. They are copied into the row, and no rule of the core reads them.
- One fetch sees one feed snapshot, and a whole task run uses one `now`.
- `update_podcast`, `get_podcast`, `get_all_podcasts` and the episode-count getters are left out: they are plain reads and writes with no rule.
- `get_synced_episodes` and `get_watch_info` are left out for the same reason.
- `mkdir` calls, `Path.resolve` (a parameter `canon`) and path normalisation (`..`, repeated separators) are left out, because they depend on the host filesystem.
- Races between `exists()` and `stat()` or `unlink()`, asyncio task scheduling, and concurrent sync and cleanup are left out. The registry of running downloads is a set of ids.
- The order of directory listings and of equal-key SQL rows is not fixed. Listings are parameters, and `order_by` is a stable sort, one of the orders SQLite may return.
- Sync.Evict: `LIKE '%name'` is modelled as a plain suffix test. SQL wildcards (`_`, `%`) in a file name, and SQLite's case-insensitive ASCII `LIKE`, are left out.
- Partial copies to the watch are left out: a `copy2` that raises leaves the folder unchanged.
- The outer `except` of both scheduled tasks is left out. It only logs, and the model's per-podcast and per-episode handlers already continue.
- The error text of a failed commit is the fixed string `Conflict` rather than SQLAlchemy's message.
- Text.Lower: only ASCII `A`-`Z` are folded. Python's `str.lower` also folds every other cased Unicode letter and can change the length (`'İ'.lower()` is two code points), so for such file extensions the generated filename differs.
- Text.ParseInt: non-ASCII decimal digits, which Python's `int()` accepts, are not modelled. Of the strings `int()` refuses, a lemma covers those holding a character other than a digit, underscore, blank or sign (Text.ParseRejects). A misplaced sign, a doubled or edge underscore, or an inner blank (`1-2`, `1__2`, `1 2`) also gives None by the definition, but no lemma states it.
- Sync.SyncReconciles: stated only when no two desired episodes have converted files with the same name but different sizes (`NamesAgree`). Sync.NameClashRecopies shows what happens otherwise.
- Sync.RerunIsQuiet: stated under the same `NamesAgree` condition, for the same reason.
- Feed.DeletePodcast: the cascade removes rows only. Files on disk stay, and the model says so by leaving the disk out of the operation.
- The Pydantic range of `episode_limit` (1..100) is not assumed. The model handles any integer the way SQLite's `LIMIT` does.
- The API routers, WebSocket broadcast, scheduler, configuration and session management are left out: they are adapter layers.

## Findings

| source | as written | input that shows it | evidently intended | confidence | as-written member | corrected member |
|---|---|---|---|---|---|---|
| backend/app/services/sync_service.py:224-231 | The row to unmark is found with `converted_path LIKE '%<name>'` | A stale watch file `b.mp3` is removed while a desired episode's `/c/ab.mp3` is on the watch: that episode is marked not synced although its file stays | Unmark only the row whose converted file's name is exactly the removed name | not executed | Sync.SuffixUnsyncsKept | Sync.EvictSparesKept |
| backend/app/services/sync_service.py:279-283 | `pending_sync = total_episodes - synced_episodes` counts synced rows of any status | One downloaded, converted, synced episode whose files are deleted with `delete_episode_file`: total 0, synced 1, pending -1 | Count the converted episodes that are not synced | not executed | Sync.PendingGoesNegative | Sync.PendingSync |

=== FILE: autodownload.dfy ===
/**
 * The scheduled tasks of backend/app/tasks/auto_download.py: refresh
 * every auto-download podcast's feed and download its newest pending
 * episodes, and refresh every podcast's feed without downloading. An
 * error for one podcast or one episode is logged and the loop goes on.
 */
module AutoDownload {

  import opened Model
  import opened Sorting
  import opened Download
  import opened Feed

  function Id(e: Episode): int {
    e.id
  }

  /** Lines 55-58: the podcast's pending rows, newest first, `limit(episode_limit)`. */
  function Queued(db: Db, p: Podcast): (sel: seq<Episode>)
    ensures forall k :: 0 <= k < |sel| ==> sel[k] in db.episodes && PendingOf(p.id, sel[k])
    ensures SortedBy(sel, PubKey)
    ensures p.episodeLimit >= 0 ==> |sel| <= p.episodeLimit
    ensures p.episodeLimit >= 0 ==>
      |sel| == (if p.episodeLimit < Count(db.episodes, IsPending(p.id)) then p.episodeLimit else Count(db.episodes, IsPending(p.id)))
    ensures p.episodeLimit < 0 ==> |sel| == Count(db.episodes, IsPending(p.id))
  {
    var sel := Top(Filter(db.episodes, IsPending(p.id)), PubKey, p.episodeLimit);
    FromFilter(sel, db.episodes, IsPending(p.id));
    sel
  }

  /** The ids the task downloads for `p`, in order. */
  function Queue(db: Db, p: Podcast): seq<int> {
    Map(Id, Queued(db, p))
  }

  /**
   * The task asks for the same rows as `download_podcast_episodes` with
   * the podcast's own limit, except that a limit of 0 selects nothing
   * here and everything there.
   */
  lemma QueueAgreesWithBatch(db: Db, p: Podcast)
    ensures p.episodeLimit != 0 ==> Queued(db, p) == Selected(db, p.id, Some(p.episodeLimit))
    ensures p.episodeLimit == 0 ==> Queued(db, p) == []
  {
  }

  /** A pending row of the podcast that is left out is never newer than one that is queued. */
  lemma QueueIsNewest(db: Db, p: Podcast, picked: Episode, skipped: Episode)
    requires picked in Queued(db, p)
    requires skipped in db.episodes && PendingOf(p.id, skipped) && skipped !in Queued(db, p)
    ensures PubKey(picked) <= PubKey(skipped)
  {
    assert IsPending(p.id)(skipped);
    TopIsBest(Filter(db.episodes, IsPending(p.id)), PubKey, p.episodeLimit, picked, skipped);
  }

  /** The queued ids are distinct when the table's are. */
  lemma QueueDistinct(db: Db, p: Podcast)
    requires UniqueIds(db.episodes)
    ensures Distinct(Queue(db, p))
  {
    assert DistinctBy(db.episodes, Id);
    FilterDistinct(db.episodes, IsPending(p.id), Id);
    TopDistinct(Filter(db.episodes, IsPending(p.id)), PubKey, p.episodeLimit, Id);
    var sel := Queued(db, p);
    var ids := Queue(db, p);
    forall i, j | 0 <= i < j < |ids| ensures ids[i] != ids[j] {
      assert ids[i] == Id(sel[i]) && ids[j] == Id(sel[j]);
    }
  }

  /** A row that is not pending for the podcast is never queued for it. */
  lemma NotQueued(db: Db, p: Podcast, i: int)
    requires UniqueIds(db.episodes)
    requires 0 <= i < |db.episodes| && !PendingOf(p.id, db.episodes[i])
    ensures Absent(Queue(db, p), db.episodes[i].id)
  {
    var sel := Queued(db, p);
    var ids := Queue(db, p);
    forall k | 0 <= k < |ids| ensures ids[k] != db.episodes[i].id {
      assert ids[k] == sel[k].id;
      var j :| 0 <= j < |db.episodes| && db.episodes[j] == sel[k];
      assert j != i;
    }
  }

  // ---------------------------------------------------------------------
  // Downloads that do not stop at an error

  /** Lines 72-74: an escaping error counts as a download that returned nothing. */
  function Forgive(o: Outcome): (r: Outcome)
    ensures r.db == o.db && r.fs == o.fs && r.result.Ok?
    ensures o.result.Ok? ==> r == o
    ensures r.result.value.Some? <==> o.result.Ok? && o.result.value.Some?
  {
    if o.result.Err? then Outcome(o.db, o.fs, Ok(None)) else o
  }

  /** Lines 61-74: `download_episode` inside `try`/`except ... continue`. */
  function Tolerant(step: Step): Step {
    (d: Db, f: FileMap, id: int) => Forgive(step(d, f, id))
  }

  /** Forgiving an error does not widen what a step rewrites. */
  lemma TolerantLocal(step: Step)
    requires Local(step)
    ensures Local(Tolerant(step))
  {
    forall d: Db, f: FileMap, id: int ensures Confined(d, Tolerant(step)(d, f, id).db, [id]) {
      assert Tolerant(step)(d, f, id) == Forgive(step(d, f, id));
      assert Confined(d, step(d, f, id).db, [id]);
    }
  }

  /** A step that settles its row still settles it when its errors are forgiven. */
  lemma TolerantSettles(step: Step)
    requires Settles(step)
    ensures Settles(Tolerant(step))
  {
    forall d: Db, f: FileMap, id: int ensures SettlesOne(d, Tolerant(step)(d, f, id), id) {
      assert Tolerant(step)(d, f, id) == Forgive(step(d, f, id));
      assert SettlesOne(d, step(d, f, id), id);
    }
  }

  /** With errors forgiven, a batch always runs to the end. */
  lemma {:induction false} TolerantRunsThrough(db: Db, fs: FileMap, step: Step, ids: seq<int>)
    ensures RunAll(db, fs, Tolerant(step), ids).crash.None?
    decreases |ids|
  {
    if ids != [] {
      var o := Tolerant(step)(db, fs, ids[0]);
      assert o == Forgive(step(db, fs, ids[0]));
      TolerantRunsThrough(o.db, o.fs, step, ids[1..]);
    }
  }

  // ---------------------------------------------------------------------
  // auto_download_task

  /** What the task leaves: store and disk, the rows its refreshes added, and the ids that came back with a path. */
  datatype Tally = Tally(db: Db, fs: FileMap, added: seq<Episode>, done: seq<int>)

  /** Lines 44-78 for one podcast: refresh its feed; if that raises, skip the podcast; else download its queue. */
  function ProcessPodcast(db: Db, fs: FileMap, resp: Response, now: int, step: Step, p: Podcast): (t: Tally)
    ensures FetchEpisodes(db, p.id, resp, now).Err? ==> t == Tally(db, fs, [], [])
    ensures FetchEpisodes(db, p.id, resp, now).Ok? ==>
      var f := FetchEpisodes(db, p.id, resp, now).value;
      t.added == f.added && forall j :: 0 <= j < |t.done| ==> !Absent(Queue(f.db, p), t.done[j])
  {
    match FetchEpisodes(db, p.id, resp, now)
    case Err(_) => Tally(db, fs, [], [])
    case Ok(f) =>
      var b := RunAll(f.db, fs, Tolerant(step), Queue(f.db, p));
      Tally(b.db, b.fs, f.added, b.done)
  }

  /**
   * Once its feed is refreshed, every queued row of the podcast ends
   * `downloaded` or `failed`, even when some downloads raise, and the
   * ids counted are exactly the queued rows that ended `downloaded`.
   */
  lemma ProcessSettlesQueue(db: Db, fs: FileMap, resp: Response, now: int, step: Step, p: Podcast)
    requires Local(step) && Settles(step) && UniqueIds(db.episodes)
    requires FetchEpisodes(db, p.id, resp, now).Ok?
    ensures var f := FetchEpisodes(db, p.id, resp, now).value; var t := ProcessPodcast(db, fs, resp, now, step, p);
      var ids := Queue(f.db, p);
      forall k :: 0 <= k < |ids| ==> Settled(t.db.episodes, ids[k]) && Accounted(f.db.episodes, t.db.episodes, t.done, ids[k])
  {
    var f := FetchEpisodes(db, p.id, resp, now).value;
    var ids := Queue(f.db, p);
    FetchKeepsIds(db, p.id, resp, now);
    QueueDistinct(f.db, p);
    TolerantLocal(step);
    TolerantSettles(step);
    TolerantRunsThrough(f.db, fs, step, ids);
    RunAllSettles(f.db, fs, Tolerant(step), ids);
    var sel := Queued(f.db, p);
    forall k | 0 <= k < |ids| ensures FindEpisode(f.db.episodes, ids[k]).Some? {
      assert ids[k] == sel[k].id && sel[k] in f.db.episodes;
    }
  }

  /** What one podcast's turn may change: rows are appended, and only the podcast's pending rows are rewritten. */
  ghost predicate Confines(before: Db, after: Db, p: Podcast) {
    && |before.episodes| <= |after.episodes|
    && (forall i :: 0 <= i < |before.episodes| ==> after.episodes[i].id == before.episodes[i].id)
    && (forall i :: 0 <= i < |before.episodes| && !PendingOf(p.id, before.episodes[i]) ==> after.episodes[i] == before.episodes[i])
  }

  lemma ConfinesTrans(a: Db, b: Db, c: Db, p: Podcast)
    requires Confines(a, b, p) && Confines(b, c, p)
    ensures Confines(a, c, p)
  {
    forall i | 0 <= i < |a.episodes| && !PendingOf(p.id, a.episodes[i]) ensures c.episodes[i] == a.episodes[i] {
      assert b.episodes[i] == a.episodes[i];
    }
  }

  /** Downloading a podcast's queue rewrites only its pending rows and keeps ids unique. */
  lemma QueueConfined(db: Db, fs: FileMap, step: Step, p: Podcast)
    requires Local(step) && UniqueIds(db.episodes)
    ensures var b := RunAll(db, fs, Tolerant(step), Queue(db, p));
      Confines(db, b.db, p) && UniqueIds(b.db.episodes) && |b.db.episodes| == |db.episodes|
  {
    var ids := Queue(db, p);
    var b := RunAll(db, fs, Tolerant(step), ids);
    TolerantLocal(step);
    RunAllConfined(db, fs, Tolerant(step), ids);
    forall i | 0 <= i < |db.episodes| && !PendingOf(p.id, db.episodes[i]) ensures b.db.episodes[i] == db.episodes[i] {
      NotQueued(db, p, i);
    }
    forall i, j | 0 <= i < j < |b.db.episodes| ensures b.db.episodes[i].id != b.db.episodes[j].id {
      assert b.db.episodes[i].id == db.episodes[i].id && b.db.episodes[j].id == db.episodes[j].id;
    }
  }

  /** A refresh only appends rows. */
  lemma FetchConfines(db: Db, p: Podcast, resp: Response, now: int)
    requires FetchEpisodes(db, p.id, resp, now).Ok?
    ensures Confines(db, FetchEpisodes(db, p.id, resp, now).value.db, p)
  {
    var f := FetchEpisodes(db, p.id, resp, now).value;
    forall i | 0 <= i < |db.episodes| ensures f.db.episodes[i] == db.episodes[i] {
    }
  }

  /** One podcast's turn keeps ids unique and rewrites nothing but its own pending rows. */
  lemma ProcessConfined(db: Db, fs: FileMap, resp: Response, now: int, step: Step, p: Podcast)
    requires Local(step) && UniqueIds(db.episodes)
    ensures var t := ProcessPodcast(db, fs, resp, now, step, p);
      Confines(db, t.db, p) && UniqueIds(t.db.episodes) && |t.db.episodes| == |db.episodes| + |t.added|
  {
    if FetchEpisodes(db, p.id, resp, now).Ok? {
      var f := FetchEpisodes(db, p.id, resp, now).value;
      FetchKeepsIds(db, p.id, resp, now);
      FetchConfines(db, p, resp, now);
      QueueConfined(f.db, fs, step, p);
      ConfinesTrans(db, f.db, RunAll(f.db, fs, Tolerant(step), Queue(f.db, p)).db, p);
    }
  }

  /** Lines 43-78: each podcast in turn, summing what the turns add and download. */
  function ProcessAll(db: Db, fs: FileMap, feeds: string -> Response, now: int, step: Step, ps: seq<Podcast>): (t: Tally)
    ensures ps == [] ==> t == Tally(db, fs, [], [])
    ensures forall k :: 0 <= k < |t.added| ==>
      t.added[k].status == Pending && exists j :: 0 <= j < |ps| && t.added[k].podcastId == ps[j].id
    decreases |ps|
  {
    if ps == [] then Tally(db, fs, [], [])
    else
      var one := ProcessPodcast(db, fs, feeds(ps[0].rssUrl), now, step, ps[0]);
      var rest := ProcessAll(one.db, one.fs, feeds, now, step, ps[1..]);
      var added := one.added + rest.added;
      assert forall k :: 0 <= k < |added| ==>
        added[k].status == Pending && exists j :: 0 <= j < |ps| && added[k].podcastId == ps[j].id
      by {
        forall k | 0 <= k < |added|
          ensures added[k].status == Pending && exists j :: 0 <= j < |ps| && added[k].podcastId == ps[j].id
        {
          if k < |one.added| {
            assert added[k].podcastId == ps[0].id;
          } else {
            assert added[k] == rest.added[k - |one.added|];
            var j :| 0 <= j < |ps[1..]| && added[k].podcastId == ps[1..][j].id;
            assert ps[1..][j] == ps[j + 1];
          }
        }
      }
      Tally(rest.db, rest.fs, added, one.done + rest.done)
  }

  /** The task may rewrite a row only while it is pending for one of the podcasts processed. */
  predicate Reachable(ps: seq<Podcast>, e: Episode) {
    exists k :: 0 <= k < |ps| && PendingOf(ps[k].id, e)
  }

  /**
   * Over all podcasts: the table only grows by the rows the refreshes
   * added, ids stay unique, and a row that is not pending for one of the
   * processed podcasts is left exactly as it was.
   */
  lemma {:induction false} ProcessAllConfined(db: Db, fs: FileMap, feeds: string -> Response, now: int, step: Step, ps: seq<Podcast>)
    requires Local(step) && UniqueIds(db.episodes)
    ensures var t := ProcessAll(db, fs, feeds, now, step, ps);
      && UniqueIds(t.db.episodes)
      && |t.db.episodes| == |db.episodes| + |t.added|
      && forall i :: 0 <= i < |db.episodes| && !Reachable(ps, db.episodes[i]) ==> t.db.episodes[i] == db.episodes[i]
    decreases |ps|
  {
    if ps != [] {
      var one := ProcessPodcast(db, fs, feeds(ps[0].rssUrl), now, step, ps[0]);
      ProcessConfined(db, fs, feeds(ps[0].rssUrl), now, step, ps[0]);
      ProcessAllConfined(one.db, one.fs, feeds, now, step, ps[1..]);
      var t := ProcessAll(db, fs, feeds, now, step, ps);
      forall i | 0 <= i < |db.episodes| && !Reachable(ps, db.episodes[i]) ensures t.db.episodes[i] == db.episodes[i] {
        var e := db.episodes[i];
        assert !PendingOf(ps[0].id, e);
        assert one.db.episodes[i] == e;
      }
    }
  }

  function AutoOn(): Podcast -> bool {
    (p: Podcast) => p.autoDownload
  }

  /**
   * `auto_download_task`: the podcasts with auto-download on, in table
   * order. `total_refreshed` is the number of rows added and
   * `total_downloaded` the number of ids that came back with a path.
   */
  function AutoDownloadTask(db: Db, fs: FileMap, feeds: string -> Response, now: int, step: Step): (t: Tally)
    ensures forall k :: 0 <= k < |t.added| ==>
      t.added[k].status == Pending && exists q :: q in db.podcasts && q.autoDownload && q.id == t.added[k].podcastId
    ensures (forall q :: q in db.podcasts ==> !q.autoDownload) ==> t == Tally(db, fs, [], [])
  {
    var ps := Filter(db.podcasts, AutoOn());
    assert forall j :: 0 <= j < |ps| ==> ps[j] in db.podcasts && ps[j].autoDownload by {
      forall j | 0 <= j < |ps| ensures ps[j] in db.podcasts && ps[j].autoDownload {
        assert ps[j] in ps;
      }
    }
    assert (forall q :: q in db.podcasts ==> !q.autoDownload) ==> ps == [] by {
      if (forall q :: q in db.podcasts ==> !q.autoDownload) {
        FilterNone(db.podcasts, AutoOn());
      }
    }
    ProcessAll(db, fs, feeds, now, step, ps)
  }

  /** Rows of podcasts with auto-download off, and rows that are not pending, are never touched. */
  lemma AutoDownloadOnlyPending(db: Db, fs: FileMap, feeds: string -> Response, now: int, step: Step, i: nat)
    requires Local(step) && UniqueIds(db.episodes)
    requires i < |db.episodes|
    requires db.episodes[i].status != Pending || forall q :: q in db.podcasts && q.id == db.episodes[i].podcastId ==> !q.autoDownload
    ensures var t := AutoDownloadTask(db, fs, feeds, now, step);
      i < |t.db.episodes| && t.db.episodes[i] == db.episodes[i]
  {
    var ps := Filter(db.podcasts, AutoOn());
    ProcessAllConfined(db, fs, feeds, now, step, ps);
    assert !Reachable(ps, db.episodes[i]) by {
      forall k | 0 <= k < |ps| ensures !PendingOf(ps[k].id, db.episodes[i]) {
        assert ps[k] in ps;
      }
    }
  }

  // ---------------------------------------------------------------------
  // check_for_new_episodes

  /** Lines 108-117 for one podcast: a refresh that raises adds nothing and changes nothing. */
  function RefreshOne(db: Db, p: Podcast, resp: Response, now: int): (r: Fetched)
    ensures forall k :: 0 <= k < |r.added| ==> Fresh(r.added[k], p.id)
    ensures r.db.episodes == db.episodes + r.added
    ensures r.db.history == db.history
    ensures |r.db.podcasts| == |db.podcasts|
  {
    match FetchEpisodes(db, p.id, resp, now)
    case Err(_) =>
      assert db.episodes + [] == db.episodes;
      Fetched(db, [])
    case Ok(f) => f
  }

  /** Lines 107-117: refresh each podcast's feed in turn, skipping those that raise. */
  function RefreshAll(db: Db, feeds: string -> Response, now: int, ps: seq<Podcast>): (r: Fetched)
    ensures forall k :: 0 <= k < |r.added| ==>
      r.added[k].status == Pending && exists j :: 0 <= j < |ps| && r.added[k].podcastId == ps[j].id
    decreases |ps|
  {
    if ps == [] then Fetched(db, [])
    else
      var d := RefreshOne(db, ps[0], feeds(ps[0].rssUrl), now);
      var rest := RefreshAll(d.db, feeds, now, ps[1..]);
      var added := d.added + rest.added;
      assert forall k :: 0 <= k < |added| ==>
        added[k].status == Pending && exists j :: 0 <= j < |ps| && added[k].podcastId == ps[j].id
      by {
        forall k | 0 <= k < |added|
          ensures added[k].status == Pending && exists j :: 0 <= j < |ps| && added[k].podcastId == ps[j].id
        {
          if k < |d.added| {
            assert added[k].podcastId == ps[0].id;
          } else {
            assert added[k] == rest.added[k - |d.added|];
            var j :| 0 <= j < |ps[1..]| && added[k].podcastId == ps[1..][j].id;
            assert ps[1..][j] == ps[j + 1];
          }
        }
      }
      Fetched(rest.db, added)
  }

  /** Refreshing only appends rows: the table afterwards is the old one followed by the rows counted as new. */
  lemma {:induction false} RefreshAppends(db: Db, feeds: string -> Response, now: int, ps: seq<Podcast>)
    ensures var r := RefreshAll(db, feeds, now, ps);
      r.db.episodes == db.episodes + r.added && r.db.history == db.history && |r.db.podcasts| == |db.podcasts|
    decreases |ps|
  {
    if ps == [] {
      assert db.episodes + [] == db.episodes;
    } else {
      var d := RefreshOne(db, ps[0], feeds(ps[0].rssUrl), now);
      RefreshAppends(d.db, feeds, now, ps[1..]);
      var rest := RefreshAll(d.db, feeds, now, ps[1..]);
      RefreshUnfolds(db, feeds, now, ps);
      AppendAssoc(db.episodes, d.added, rest.added);
    }
  }

  /** One step of `RefreshAll`: the first podcast, then the rest on the table it left. */
  lemma RefreshUnfolds(db: Db, feeds: string -> Response, now: int, ps: seq<Podcast>)
    requires ps != []
    ensures var d := RefreshOne(db, ps[0], feeds(ps[0].rssUrl), now);
      var rest := RefreshAll(d.db, feeds, now, ps[1..]);
      RefreshAll(db, feeds, now, ps) == Fetched(rest.db, d.added + rest.added)
  {
  }

  /** `check_for_new_episodes`: every podcast, in table order; the total is the number of rows added. */
  function CheckForNewEpisodes(db: Db, feeds: string -> Response, now: int): (r: Fetched)
    ensures r.db.episodes == db.episodes + r.added && r.db.history == db.history
    ensures forall k :: 0 <= k < |r.added| ==>
      r.added[k].status == Pending && exists j :: 0 <= j < |db.podcasts| && r.added[k].podcastId == db.podcasts[j].id
  {
    RefreshAppends(db, feeds, now, db.podcasts);
    RefreshAll(db, feeds, now, db.podcasts)
  }

  /** Refreshing keeps ids and identifiers unique and every episode attached to a stored podcast. */
  lemma {:induction false} RefreshKeepsInvariants(db: Db, feeds: string -> Response, now: int, ps: seq<Podcast>)
    requires UniqueIds(db.episodes) && DistinctGuids(db.episodes) && Owned(db)
    ensures var r := RefreshAll(db, feeds, now, ps);
      UniqueIds(r.db.episodes) && DistinctGuids(r.db.episodes) && Owned(r.db)
    decreases |ps|
  {
    if ps != [] {
      var resp := feeds(ps[0].rssUrl);
      FetchKeepsIds(db, ps[0].id, resp, now);
      FetchKeepsGuids(db, ps[0].id, resp, now);
      FetchKeepsOwned(db, ps[0].id, resp, now);
      RefreshKeepsInvariants(RefreshOne(db, ps[0], resp, now).db, feeds, now, ps[1..]);
    }
  }
}

=== FILE: converter.dfy ===
/**
 * The transcoder's decisions (backend/app/services/audio_converter.py):
 * which files need converting, where the MP3 goes, and which path the
 * caller gets back. The ffmpeg run itself is an oracle outcome.
 */
module Converter {

  import opened Model
  import opened Text
  import opened Paths

  /** The formats `is_conversion_needed` hands to ffmpeg. */
  const Convertible: set<string> := {".m4a", ".aac", ".ogg", ".opus", ".flac", ".wav", ".wma"}

  /** What one ffmpeg run did: an MP3 of some size, or an error after writing `partial` bytes (if any). */
  datatype Encode = Encoded(size: nat) | EncodeFailed(partial: Option<nat>)

  /** `file_path.suffix.lower()` */
  function Extension(p: Path): string {
    Lower(Suffix(Name(p)))
  }

  /** `is_conversion_needed`: only an existing file with one of the convertible extensions. */
  function IsConversionNeeded(fs: FileMap, p: Path): (r: bool)
    ensures r <==> p in fs && Extension(p) in Convertible
    ensures Extension(p) == ".mp3" ==> !r
  {
    if p !in fs then false
    else
      var ext := Extension(p);
      if ext == ".mp3" then false
      else ext in Convertible
  }

  /** The default output of `convert_to_mp3`: the input's stem plus `.mp3`, in the converted directory. */
  function OutputPath(convertedDir: Path, input: Path): Path {
    Join(convertedDir, Stem(Name(input)) + ".mp3")
  }

  /** The facts about the literal `.mp3` the proofs below use. */
  lemma Mp3Facts()
    ensures var m := ".mp3"; |m| == 4 && m[0] == '.' && Free(m[1..], '.') && Free(m, '/')
    ensures Lower(".mp3") == ".mp3"
  {
    var m := ".mp3";
    assert m[0] == '.' && m[1] == 'm' && m[2] == 'p' && m[3] == '3';
    var l := Lower(m);
    assert l[0] == '.' && l[1] == 'm' && l[2] == 'p' && l[3] == '3';
  }

  /** A stem and a `/`-free tail make a plain name. */
  lemma PlainStemPlus(stem: string, tail: string)
    requires stem != "" && Free(stem, '/') && Free(tail, '/')
    requires tail != "" && tail[0] == '.'
    ensures PlainName(stem + tail)
  {
    var n := stem + tail;
    forall k | 0 <= k < |n| ensures n[k] != '/' {
      if k < |stem| { assert n[k] == stem[k]; } else { assert n[k] == tail[k - |stem|]; }
    }
    assert n[|stem|] == '.';
  }

  lemma ConvertibleLong(x: string)
    requires x in Convertible
    ensures |x| >= 4
  {
  }

  /** An empty name has an empty extension, which is not a convertible one. */
  lemma NamedWhenConvertible(p: Path)
    requires Extension(p) in Convertible
    ensures Name(p) != ""
  {
    ConvertibleLong(Extension(p));
    assert |Suffix(Name(p))| == |Extension(p)|;
  }

  /** The output of a conversion is an `.mp3` whose name is the input's stem. */
  lemma OutputIsMp3(convertedDir: Path, input: Path)
    requires Name(input) != ""
    ensures Name(OutputPath(convertedDir, input)) == Stem(Name(input)) + ".mp3"
    ensures Extension(OutputPath(convertedDir, input)) == ".mp3"
  {
    var stem := Stem(Name(input));
    Mp3Facts();
    PlainStemPlus(stem, ".mp3");
    NameOfJoin(convertedDir, stem + ".mp3");
    SuffixOfStemPlus(stem, ".mp3");
  }

  /** A file that needs converting is never its own output, so the original survives the conversion. */
  lemma OutputNotInput(fs: FileMap, convertedDir: Path, input: Path)
    requires IsConversionNeeded(fs, input)
    ensures OutputPath(convertedDir, input) != input
  {
    NamedWhenConvertible(input);
    OutputIsMp3(convertedDir, input);
  }

  /**
   * `convert_to_mp3` into `target` (the caller passes `OutputPath` when it
   * names no output). A missing input or a missing ffmpeg gives None
   * without touching the disk; a failed run removes whatever sits at the
   * target unless the unlink fails.
   */
  function ConvertToMp3(fs: FileMap, stuck: set<Path>, input: Path, target: Path,
                        installed: bool, run: Encode): (res: (FileMap, Option<Path>))
    ensures var (fs', out) := res;
      && (out.Some? <==> input in fs && installed && run.Encoded?)
      && (out.Some? ==> out.value == target && fs' == fs[target := run.size])
      && (out.None? && (input !in fs || !installed) ==> fs' == fs)
      && (out.None? ==> fs' - {target} == fs - {target})
      && (out.None? && input in fs && installed && target !in stuck ==> target !in fs')
  {
    if input !in fs || !installed then (fs, None)
    else
      match run
      case Encoded(size) => (fs[target := size], Some(target))
      case EncodeFailed(partial) =>
        var written := if partial.Some? then fs[target := partial.value] else fs;
        (Unlink(written, stuck, target).0, None)
  }

  /** Lines 233-246 for a file that needs converting into `target`: drop the original after a success unless it is kept. */
  function ConvertInto(fs: FileMap, stuck: set<Path>, input: Path, target: Path, keepOriginal: bool,
                       installed: bool, run: Encode): (res: (FileMap, Option<Path>))
    requires input in fs && target != input
    ensures var (fs', out) := res;
      && out != Some(input)
      && (out.Some? <==> installed && run.Encoded?)
      && (out.Some? ==> out.value == target && target in fs' && run.Encoded? && fs'[target] == run.size)
      && (out.None? ==> input in fs')
      && (out.Some? ==> out.value in fs' && (input in fs' <==> keepOriginal || input in stuck))
      && (keepOriginal ==> fs' - {target} == fs - {target})
  {
    var (fs1, out) := ConvertToMp3(fs, stuck, input, target, installed, run);
    if out.Some? && !keepOriginal then
      (Unlink(fs1, stuck, input).0, out)
    else (fs1, out)
  }

  /**
   * `convert_episode_audio`: the input itself when no conversion is
   * needed, the new MP3 when ffmpeg succeeds, None when it fails.
   */
  function ConvertEpisodeAudio(fs: FileMap, stuck: set<Path>, input: Path, keepOriginal: bool,
                               convertedDir: Path, installed: bool, run: Encode): (res: (FileMap, Option<Path>))
    ensures var (fs', out) := res;
      && (!IsConversionNeeded(fs, input) ==> res == (fs, Some(input)))
      && (IsConversionNeeded(fs, input) ==> out != Some(input))
      && (IsConversionNeeded(fs, input) ==> (out.Some? <==> installed && run.Encoded?))
      && (IsConversionNeeded(fs, input) && out.Some? ==>
            out.value == OutputPath(convertedDir, input) && out.value in fs' && run.Encoded? && fs'[out.value] == run.size)
      && (IsConversionNeeded(fs, input) && out.None? ==> input in fs')
      && (out.Some? && out.value != input ==> out.value in fs' && (input in fs' <==> keepOriginal || input in stuck))
      && (keepOriginal ==> fs' - {OutputPath(convertedDir, input)} == fs - {OutputPath(convertedDir, input)})
  {
    if !IsConversionNeeded(fs, input) then (fs, Some(input))
    else
      OutputNotInput(fs, convertedDir, input);
      ConvertInto(fs, stuck, input, OutputPath(convertedDir, input), keepOriginal, installed, run)
  }

  /** A converted file is left alone the next time round: the result is its own path and the disk is unchanged. */
  lemma ConvertedIsFinal(fs: FileMap, stuck: set<Path>, input: Path, keepOriginal: bool,
                         convertedDir: Path, installed: bool, run: Encode, run2: Encode)
    requires IsConversionNeeded(fs, input)
    requires ConvertEpisodeAudio(fs, stuck, input, keepOriginal, convertedDir, installed, run).1.Some?
    ensures var (fs', out) := ConvertEpisodeAudio(fs, stuck, input, keepOriginal, convertedDir, installed, run);
      ConvertEpisodeAudio(fs', stuck, out.value, keepOriginal, convertedDir, installed, run2) == (fs', out)
  {
    OutputNotInput(fs, convertedDir, input);
    NamedWhenConvertible(input);
    OutputIsMp3(convertedDir, input);
  }
  /** Whatever path a conversion hands back, converting it again would be a no-op: it never needs converting. */
  lemma {:induction false} ResultNeedsNoConversion(fs: FileMap, stuck: set<Path>, input: Path, keepOriginal: bool,
                                                   convertedDir: Path, installed: bool, run: Encode)
    requires ConvertEpisodeAudio(fs, stuck, input, keepOriginal, convertedDir, installed, run).1.Some?
    ensures var (fs', out) := ConvertEpisodeAudio(fs, stuck, input, keepOriginal, convertedDir, installed, run);
      !IsConversionNeeded(fs', out.value)
  {
    if IsConversionNeeded(fs, input) {
      NamedWhenConvertible(input);
      OutputIsMp3(convertedDir, input);
    }
  }
}

=== FILE: device.dfy ===
/**
 * Locating the watch (backend/app/services/device_detector.py): which
 * mount points qualify, the order they are tried in on each operating
 * system, and the storage figures reported for the one found. The host
 * is a snapshot: what exists, what is a directory, where a probe file
 * can be written, and what each directory lists.
 */
module Device {

  import opened Model
  import opened Paths

  /** The parts of the host the detector looks at. */
  datatype Host = Host(
    os: string,                    // platform.system()
    user: Option<string>,          // $USER
    dirs: set<Path>,               // paths that exist and are directories
    others: set<Path>,             // paths that exist and are not directories
    writable: set<Path>,           // directories where `.coros_test` can be created and removed
    children: Path -> seq<Path>,   // what `iterdir` yields, in order
    unlistable: set<Path>,         // directories whose `iterdir` raises PermissionError
    vfs: Path -> Option<Vfs>)      // `os.statvfs`, None when it raises

  /** The fields of `os.statvfs` the detector uses. */
  datatype Vfs = Vfs(frsize: nat, blocks: nat, bavail: nat)

  /** `settings.watch_mount_path` and `settings.music_folder_name`. */
  datatype Config = Config(mountPath: Option<string>, musicFolder: string)

  predicate Exists(h: Host, p: Path) {
    p in h.dirs || p in h.others
  }

  function MusicFolder(c: Config, p: Path): Path {
    Join(p, c.musicFolder)
  }

  /**
   * `_is_valid_watch_path`: a directory holding a music directory in
   * which a probe file can be written and removed.
   */
  predicate IsValidWatchPath(h: Host, c: Config, p: Path) {
    p in h.dirs && MusicFolder(c, p) in h.dirs && MusicFolder(c, p) in h.writable
  }

  /** `_is_valid_watch_path` as a test on candidates. */
  function Valid(h: Host, c: Config): Path -> bool {
    p => IsValidWatchPath(h, c, p)
  }

  /** The candidate at `k` is valid and none before it is. */
  predicate FirstAt(valid: Path -> bool, candidates: seq<Path>, k: nat)
    requires k < |candidates|
  {
    valid(candidates[k]) && forall j :: 0 <= j < k ==> !valid(candidates[j])
  }

  /** The first valid path of `candidates`, as the scanning loops return it. */
  function FirstValid(valid: Path -> bool, candidates: seq<Path>): (r: Option<Path>)
    ensures r.None? <==> forall k :: 0 <= k < |candidates| ==> !valid(candidates[k])
    ensures r.Some? ==> exists k :: 0 <= k < |candidates| && candidates[k] == r.value && FirstAt(valid, candidates, k)
  {
    if candidates == [] then None
    else if valid(candidates[0]) then assert FirstAt(valid, candidates, 0); Some(candidates[0])
    else
      var tail := candidates[1..];
      var r := FirstValid(valid, tail);
      assert forall k :: 1 <= k < |candidates| ==> candidates[k] == tail[k - 1];
      assert r.Some? ==> exists k :: 0 <= k < |candidates| && candidates[k] == r.value && FirstAt(valid, candidates, k) by {
        if r.Some? {
          var k :| 0 <= k < |tail| && tail[k] == r.value && FirstAt(valid, tail, k);
          assert FirstAt(valid, candidates, k + 1);
        }
      }
      r
  }

  /**
   * `iterdir` on a path that exists but is not a directory raises
   * NotADirectoryError, which the scanning loops do not catch (they only
   * catch PermissionError).
   */
  predicate NotDir(h: Host, base: Path) {
    base !in h.dirs && base in h.others
  }

  /** The text of that NotADirectoryError. */
  function NotADirectory(p: Path): string {
    "[Errno 20] Not a directory: '" + p + "'"
  }

  /** The candidates below one scanned directory: none when it is missing, not a directory, or cannot be listed. */
  function Listed(h: Host, base: Path): seq<Path> {
    if base in h.dirs && base !in h.unlistable then h.children(base) else []
  }

  /**
   * `_detect_macos`: the first valid entry of /Volumes; nothing when
   * /Volumes is missing or unlistable; the NotADirectoryError when it is
   * a file.
   */
  function DetectMacos(h: Host, c: Config): (r: Result<Option<Path>>)
    ensures r.Err? <==> NotDir(h, "/Volumes")
    ensures r.Err? ==> r.error == NotADirectory("/Volumes")
    ensures r.Ok? ==> r.value == FirstValid(Valid(h, c), Listed(h, "/Volumes"))
    ensures r.Ok? && r.value.Some? ==> r.value.value in h.children("/Volumes") && IsValidWatchPath(h, c, r.value.value)
  {
    if !Exists(h, "/Volumes") then Ok(None)
    else if "/Volumes" !in h.dirs then Err(NotADirectory("/Volumes"))
    else if "/Volumes" in h.unlistable then Ok(None)
    else Ok(FirstValid(Valid(h, c), h.children("/Volumes")))
  }

  /** `Path(f"{letter}:/")` for the letter with index `i`. */
  function Drive(i: nat): Path
    requires i < 26
  {
    [(65 + i) as char, ':', '/']
  }

  /** The drive roots A:/ to Z:/, in that order. */
  function Drives(): (ds: seq<Path>)
    ensures |ds| == 26
    ensures forall i :: 0 <= i < 26 ==> ds[i] == Drive(i)
  {
    seq(26, i requires 0 <= i < 26 => Drive(i))
  }

  /** `_detect_windows`: the first drive letter that exists and is valid. */
  function DetectWindows(h: Host, c: Config): (r: Option<Path>)
    ensures r == FirstValid(Valid(h, c), Drives())
    ensures r.Some? ==> IsValidWatchPath(h, c, r.value)
  {
    WindowsIsFirstDrive(h, c, 0);
    assert Drives()[0..] == Drives();
    WindowsFrom(h, c, 0)
  }

  /** Lines 96-105 from letter `i` on. */
  function WindowsFrom(h: Host, c: Config, i: nat): (r: Option<Path>)
    requires i <= 26
    decreases 26 - i
  {
    if i == 26 then None
    else if !Exists(h, Drive(i)) then WindowsFrom(h, c, i + 1)
    else if IsValidWatchPath(h, c, Drive(i)) then Some(Drive(i))
    else WindowsFrom(h, c, i + 1)
  }

  /** The Windows loop is the first valid drive in alphabetical order. */
  lemma {:induction false} WindowsIsFirstDrive(h: Host, c: Config, i: nat)
    requires i <= 26
    ensures WindowsFrom(h, c, i) == FirstValid(Valid(h, c), Drives()[i..])
    decreases 26 - i
  {
    if i < 26 {
      WindowsIsFirstDrive(h, c, i + 1);
      assert Drives()[i..][0] == Drive(i);
      assert Drives()[i..][1..] == Drives()[i + 1..];
    }
  }

  /** Lines 112-116: /media/$USER, /run/media/$USER, /mnt, with $USER empty when unset. */
  function LinuxBases(h: Host): seq<Path> {
    var user := if h.user.Some? then h.user.value else "";
    [Join("/media", user), Join("/run/media", user), "/mnt"]
  }

  /**
   * Lines 118-131 over `bases`: scan each in turn, skipping missing and
   * unlistable ones; a base that is a file raises out of the loop.
   */
  function ScanBases(h: Host, c: Config, bases: seq<Path>): (r: Result<Option<Path>>)
    decreases |bases|
  {
    if bases == [] then Ok(None)
    else
      var b := bases[0];
      if !Exists(h, b) then ScanBases(h, c, bases[1..])
      else if b !in h.dirs then Err(NotADirectory(b))
      else if b in h.unlistable then ScanBases(h, c, bases[1..])
      else
        match FirstValid(Valid(h, c), h.children(b))
        case Some(d) => Ok(Some(d))
        case None => ScanBases(h, c, bases[1..])
  }

  /** The index of the first base that is a file, `|bases|` when there is none. */
  function FirstNotDir(h: Host, bases: seq<Path>): (k: nat)
    ensures k <= |bases|
    ensures k < |bases| ==> NotDir(h, bases[k])
    ensures forall j :: 0 <= j < k ==> !NotDir(h, bases[j])
    decreases |bases|
  {
    if bases == [] then 0
    else if NotDir(h, bases[0]) then 0
    else
      var k := FirstNotDir(h, bases[1..]);
      assert forall j :: 1 <= j < k + 1 ==> bases[j] == bases[1..][j - 1];
      k + 1
  }

  /** Every candidate the scan of `bases` can see, in scanning order. */
  function AllListed(h: Host, bases: seq<Path>): seq<Path>
    decreases |bases|
  {
    if bases == [] then [] else Listed(h, bases[0]) + AllListed(h, bases[1..])
  }

  lemma {:induction false} FirstValidConcat(h: Host, c: Config, a: seq<Path>, b: seq<Path>)
    ensures FirstValid(Valid(h, c), a + b) == if FirstValid(Valid(h, c), a).Some? then FirstValid(Valid(h, c), a) else FirstValid(Valid(h, c), b)
    decreases |a|
  {
    if a != [] {
      assert (a + b)[0] == a[0];
      assert (a + b)[1..] == a[1..] + b;
      FirstValidConcat(h, c, a[1..], b);
    } else {
      assert a + b == b;
    }
  }

  /**
   * Scanning directory by directory finds the first valid candidate of
   * the listings before the first base that is a file; when there is none
   * and such a base exists, its NotADirectoryError escapes.
   */
  lemma {:induction false} ScanIsFirstListed(h: Host, c: Config, bases: seq<Path>)
    ensures var k := FirstNotDir(h, bases);
      var f := FirstValid(Valid(h, c), AllListed(h, bases[..k]));
      ScanBases(h, c, bases) == if f.Some? || k == |bases| then Ok(f) else Err(NotADirectory(bases[k]))
    decreases |bases|
  {
    if bases != [] && !NotDir(h, bases[0]) {
      var rest := bases[1..];
      var k := FirstNotDir(h, bases);
      ScanIsFirstListed(h, c, rest);
      assert bases[..k][0] == bases[0];
      assert bases[..k][1..] == rest[..k - 1];
      FirstValidConcat(h, c, Listed(h, bases[0]), AllListed(h, rest[..k - 1]));
      if k < |bases| {
        assert bases[k] == rest[k - 1];
      }
    }
  }

  /** Without a base that is a file, the scan is the first valid candidate of all the listings. */
  lemma ScanWithoutFiles(h: Host, c: Config, bases: seq<Path>)
    requires forall j :: 0 <= j < |bases| ==> !NotDir(h, bases[j])
    ensures ScanBases(h, c, bases) == Ok(FirstValid(Valid(h, c), AllListed(h, bases)))
  {
    ScanIsFirstListed(h, c, bases);
    var k := FirstNotDir(h, bases);
    assert k == |bases|;
    assert bases[..k] == bases;
  }

  /** `_detect_linux` */
  function DetectLinux(h: Host, c: Config): (r: Result<Option<Path>>)
    ensures var bases := LinuxBases(h);
      var k := FirstNotDir(h, bases);
      var f := FirstValid(Valid(h, c), AllListed(h, bases[..k]));
      r == if f.Some? || k == 3 then Ok(f) else Err(NotADirectory(bases[k]))
  {
    ScanIsFirstListed(h, c, LinuxBases(h));
    ScanBases(h, c, LinuxBases(h))
  }

  /**
   * `get_watch_mount_point`: a truthy configured path that is valid wins;
   * otherwise the scan for the operating system; None on any other system.
   */
  function GetWatchMountPoint(h: Host, c: Config): (r: Result<Option<Path>>)
    ensures r.Ok? && r.value.Some? ==> IsValidWatchPath(h, c, r.value.value)
    ensures Truthy(c.mountPath) && IsValidWatchPath(h, c, c.mountPath.value) ==> r == Ok(c.mountPath)
    ensures !(Truthy(c.mountPath) && IsValidWatchPath(h, c, c.mountPath.value)) && h.os == "Darwin" ==> r == DetectMacos(h, c)
    ensures !(Truthy(c.mountPath) && IsValidWatchPath(h, c, c.mountPath.value)) && h.os == "Windows" ==> r == Ok(DetectWindows(h, c))
    ensures !(Truthy(c.mountPath) && IsValidWatchPath(h, c, c.mountPath.value)) && h.os == "Linux" ==> r == DetectLinux(h, c)
    ensures !(Truthy(c.mountPath) && IsValidWatchPath(h, c, c.mountPath.value)) && h.os !in {"Darwin", "Windows", "Linux"} ==> r == Ok(None)
    ensures r.Err? ==> h.os in {"Darwin", "Linux"}
    ensures r.Err? && h.os == "Darwin" ==> NotDir(h, "/Volumes")
    ensures r.Err? && h.os == "Linux" ==> exists j :: 0 <= j < 3 && NotDir(h, LinuxBases(h)[j])
  {
    if Truthy(c.mountPath) && IsValidWatchPath(h, c, c.mountPath.value) then Ok(c.mountPath)
    else if h.os == "Darwin" then DetectMacos(h, c)
    else if h.os == "Windows" then Ok(DetectWindows(h, c))
    else if h.os == "Linux" then DetectLinux(h, c)
    else Ok(None)
  }

  /** `is_watch_connected` */
  function IsWatchConnected(h: Host, c: Config): (r: Result<bool>)
    ensures r.Err? <==> GetWatchMountPoint(h, c).Err?
    ensures r.Err? ==> r.error == GetWatchMountPoint(h, c).error
    ensures r.Ok? ==> (r.value <==> GetWatchMountPoint(h, c).value.Some?)
  {
    var wp := GetWatchMountPoint(h, c);
    if wp.Err? then Err(wp.error)
    else if wp.value.Some? && Exists(h, wp.value.value) then
      var music := MusicFolder(c, wp.value.value);
      Ok(Exists(h, music) && music in h.dirs)
    else Ok(false)
  }

  /** The watch counts as connected exactly when a mount point is found; detection raising makes the check raise. */
  lemma ConnectedIffMounted(h: Host, c: Config)
    ensures IsWatchConnected(h, c).Err? <==> GetWatchMountPoint(h, c).Err?
    ensures IsWatchConnected(h, c) == Ok(true) <==> GetWatchMountPoint(h, c).Ok? && GetWatchMountPoint(h, c).value.Some?
  {
  }

  /** `get_watch_music_folder` */
  function GetWatchMusicFolder(h: Host, c: Config): (r: Result<Option<Path>>)
    ensures r.Err? <==> GetWatchMountPoint(h, c).Err?
    ensures r.Ok? ==> (r.value.Some? <==> GetWatchMountPoint(h, c).value.Some?)
    ensures r.Ok? && r.value.Some? ==>
      r.value.value == MusicFolder(c, GetWatchMountPoint(h, c).value.value) && r.value.value in h.writable
  {
    var wp := GetWatchMountPoint(h, c);
    if wp.Err? then Err(wp.error)
    else if wp.value.Some? && Exists(h, MusicFolder(c, wp.value.value)) then Ok(Some(MusicFolder(c, wp.value.value)))
    else Ok(None)
  }

  /** A music folder was found on the watch. */
  predicate HasMusicFolder(h: Host, c: Config) {
    GetWatchMusicFolder(h, c).Ok? && GetWatchMusicFolder(h, c).value.Some?
  }

  /** There is a music folder exactly when the watch is connected, and it is the mount point's. */
  lemma MusicFolderIffConnected(h: Host, c: Config)
    ensures GetWatchMusicFolder(h, c).Err? <==> IsWatchConnected(h, c).Err?
    ensures HasMusicFolder(h, c) <==> IsWatchConnected(h, c) == Ok(true)
    ensures HasMusicFolder(h, c) ==>
      GetWatchMusicFolder(h, c).value.value == MusicFolder(c, GetWatchMountPoint(h, c).value.value)
      && GetWatchMusicFolder(h, c).value.value in h.writable
  {
  }

  /** What `get_watch_storage_info` reports, in bytes (the rounded megabyte figures are left out). */
  datatype WatchStorage = WatchStorage(totalBytes: int, freeBytes: int, usedBytes: int, usedPercent: real, mountPoint: Path)

  /** Line 171 */
  function Percent(used: int, total: int): (pct: real)
    ensures total <= 0 ==> pct == 0.0
    ensures total > 0 && 0 <= used <= total ==> 0.0 <= pct <= 100.0
  {
    if total > 0 then
      assert 0 <= used <= total ==> (used as real) / (total as real) <= 1.0;
      (used as real) / (total as real) * 100.0
    else 0.0
  }

  /**
   * `get_watch_storage_info`: None without a mount point or when `statvfs`
   * raises; an error raised while detecting the mount point (outside the
   * `try`) escapes.
   */
  function GetWatchStorageInfo(h: Host, c: Config): (r: Result<Option<WatchStorage>>)
    ensures r.Err? <==> GetWatchMountPoint(h, c).Err?
    ensures r.Ok? ==> var wp := GetWatchMountPoint(h, c).value;
      (r.value.Some? <==> wp.Some? && h.vfs(wp.value).Some?)
    ensures r.Ok? && r.value.Some? ==> var s := r.value.value;
      && s.mountPoint == GetWatchMountPoint(h, c).value.value
      && s.usedBytes + s.freeBytes == s.totalBytes
      && h.vfs(s.mountPoint).Some?
      && var v := h.vfs(s.mountPoint).value;
      s.totalBytes == v.frsize * v.blocks && s.freeBytes == v.frsize * v.bavail
      && (v.bavail <= v.blocks ==> 0 <= s.usedBytes <= s.totalBytes && 0.0 <= s.usedPercent <= 100.0)
  {
    match GetWatchMountPoint(h, c)
    case Err(e) => Err(e)
    case Ok(None) => Ok(None)
    case Ok(Some(wp)) =>
      match h.vfs(wp)
      case None => Ok(None)
      case Some(v) =>
        var total := v.frsize * v.blocks;
        var free := v.frsize * v.bavail;
        var used := total - free;
        VfsBounds(v);
        Ok(Some(WatchStorage(total, free, used, Percent(used, total), wp)))
  }

  /** With no more blocks available than there are, the free bytes lie between 0 and the total. */
  lemma VfsBounds(v: Vfs)
    ensures v.bavail <= v.blocks ==> 0 <= v.frsize * v.bavail <= v.frsize * v.blocks
  {
    if v.bavail <= v.blocks {
      MulMono(v.frsize, v.bavail, v.blocks);
    }
  }

  lemma MulMono(a: nat, b: nat, c: nat)
    requires b <= c
    ensures 0 <= a * b <= a * c
  {
  }
}

=== FILE: download.dfy ===
/**
 * The download manager (backend/app/services/download_service.py): one
 * episode's download and the row it leaves behind, the batch download of
 * a podcast's pending episodes, the registry of running downloads, and
 * deleting a downloaded file.
 */
module Download {

  import opened Model
  import opened Text
  import opened Paths
  import opened Sorting
  import opened Filenames
  import opened Converter

  /** What the HTTP stream for one episode did. */
  datatype Transfer =
    | Refused                                               // connection error or an error status
    | Broken(contentLength: Option<string>, received: nat)  // the body stopped after `received` bytes
    | Complete(contentLength: Option<string>, size: nat)

  /** Everything outside the database a download depends on. */
  datatype Env = Env(
    storageDir: Path,
    convertedDir: Path,
    ffmpeg: bool,
    transfer: int -> Transfer,  // by episode id
    encode: Path -> Encode,     // by input file
    stuck: set<Path>)           // files whose unlink raises

  /** `int(response.headers.get('content-length', 0))`, None when `int` raises. */
  function HeaderSize(h: Option<string>): (r: Option<int>)
    ensures h.None? ==> r == Some(0)
    ensures h.Some? && r.Some? ==> exists k :: 0 <= k < |h.value| && IsDigit(h.value[k])
  {
    match h
    case None => Some(0)
    case Some(s) => ParseInt(s)
  }

  /** A header that spells a number gives that number. */
  lemma HeaderOfNumber(n: nat)
    ensures HeaderSize(Some(ShowNat(n))) == Some(n)
  {
    ParseShowNat(n);
  }

  /** The size header of a transfer that got as far as reading it. */
  function Header(t: Transfer): Option<int> {
    if t.Refused? then None else HeaderSize(t.contentLength)
  }

  /** `settings.local_storage_path / _generate_filename(podcast, episode)` */
  function TargetPath(env: Env, p: Podcast, e: Episode): (path: Path)
    ensures Name(path) == GenerateFilename(p.title, e.title, e.audioUrl)
    ensures env.storageDir != "" ==> Under(path, env.storageDir)
    ensures path != ""
  {
    var f := GenerateFilename(p.title, e.title, e.audioUrl);
    PlacedIn(env.storageDir, f);
    Join(env.storageDir, f)
  }

  /** A plain file name joined to a directory stays that file, inside that directory. */
  lemma PlacedIn(dir: Path, f: string)
    requires PlainName(f)
    ensures Name(Join(dir, f)) == f
    ensures dir != "" ==> Under(Join(dir, f), dir)
  {
    NameOfJoin(dir, f);
    if dir != "" {
      UnderJoin(dir, f);
    }
  }

  /**
   * The stream into `path`: the disk afterwards and whether the body
   * arrived whole. The file is only opened once the header has parsed.
   */
  function Receive(fs: FileMap, path: Path, t: Transfer): (r: (FileMap, bool))
    ensures r.1 <==> t.Complete? && Header(t).Some?
    ensures r.1 ==> r.0 == fs[path := t.size]
    ensures r.0 - {path} == fs - {path}
    ensures Header(t).None? ==> r.0 == fs
  {
    match t
    case Refused => (fs, false)
    case Broken(h, n) => if HeaderSize(h).None? then (fs, false) else (fs[path := n], false)
    case Complete(h, n) => if HeaderSize(h).None? then (fs, false) else (fs[path := n], true)
  }

  /** Lines 106-140: mark the row downloaded, then convert, keeping the original. */
  function Finish(e: Episode, path: Path, fs: FileMap, env: Env, size: Option<int>): (r: (Episode, FileMap))
    requires path in fs
    ensures var (e', fs') := r;
      && e' == e.(status := Downloaded, progress := 100, localPath := Some(path), fileSize := size, convertedPath := e'.convertedPath)
      && path in fs'
      && (e'.convertedPath == e.convertedPath || (e'.convertedPath.Some? && e'.convertedPath.value in fs'))
      && fs' - {OutputPath(env.convertedDir, path)} == fs - {OutputPath(env.convertedDir, path)}
      && (Extension(path) !in Convertible ==> e'.convertedPath == Some(path))
      && (Extension(path) in Convertible && env.ffmpeg && env.encode(path).Encoded? ==>
            e'.convertedPath == Some(OutputPath(env.convertedDir, path)))
      && (Extension(path) in Convertible && !(env.ffmpeg && env.encode(path).Encoded?) ==>
            e'.convertedPath == e.convertedPath)
  {
    var done := e.(status := Downloaded, progress := 100, localPath := Some(path), fileSize := size);
    var (fs', c) := ConvertEpisodeAudio(fs, env.stuck, path, true, env.convertedDir, env.ffmpeg, env.encode(path));
    if c.Some? then (done.(convertedPath := c), fs') else (done, fs')
  }

  /** The row after the `except` branch: `failed`, progress 0, the file size as far as it was read. */
  function MarkFailed(e: Episode, size: Option<int>): Episode {
    e.(status := Failed, progress := 0, fileSize := size)
  }

  /** One attempt's result: the row, the disk, and whether the file arrived. */
  datatype Attempted = Attempted(episode: Episode, fs: FileMap, ok: bool)

  /** The `except` branch: mark the row failed and remove the partial file. */
  function Fail(e: Episode, path: Path, fs: FileMap, env: Env, size: Option<int>): (r: Attempted)
    ensures !r.ok
    ensures r.episode == MarkFailed(e, if size.Some? then size else e.fileSize)
    ensures path !in env.stuck ==> path !in r.fs
    ensures r.fs - {path} == fs - {path}
  {
    Attempted(MarkFailed(e, if size.Some? then size else e.fileSize), Unlink(fs, env.stuck, path).0, false)
  }

  /** Lines 60-157 once the podcast is known: fetch into `path`; convert on success, clean up on failure. */
  function Attempt(e: Episode, path: Path, fs: FileMap, env: Env): (r: Attempted)
    ensures r.episode.id == e.id
    ensures r.ok <==> env.transfer(e.id).Complete? && Header(env.transfer(e.id)).Some?
    ensures r.ok ==> r.episode.status == Downloaded && r.episode.progress == 100 && r.episode.localPath == Some(path)
    ensures r.ok ==> path in r.fs && r.episode.fileSize == Header(env.transfer(e.id))
    ensures r.ok ==> r.episode.convertedPath == e.convertedPath || (r.episode.convertedPath.Some? && r.episode.convertedPath.value in r.fs)
    ensures r.ok && Extension(path) !in Convertible ==> r.episode.convertedPath == Some(path)
    ensures r.ok && Extension(path) in Convertible && env.ffmpeg && env.encode(path).Encoded? ==>
      r.episode.convertedPath == Some(OutputPath(env.convertedDir, path))
    ensures r.ok && Extension(path) in Convertible && !(env.ffmpeg && env.encode(path).Encoded?) ==>
      r.episode.convertedPath == e.convertedPath
    ensures !r.ok ==> r.episode == MarkFailed(e, if Header(env.transfer(e.id)).Some? then Header(env.transfer(e.id)) else e.fileSize)
    ensures !r.ok && path !in env.stuck ==> path !in r.fs
    ensures !r.ok ==> r.fs - {path} == fs - {path}
  {
    var t := env.transfer(e.id);
    var (fs1, ok) := Receive(fs, path, t);
    if ok then
      var (e', fs') := Finish(e, path, fs1, env, Header(t));
      Attempted(e', fs', true)
    else
      Fail(e, path, fs1, env, Header(t))
  }

  /**
   * What `download_episode` returns: a path, None, or the error it raises
   * (an `UnboundLocalError` escapes the `except` branch when the podcast
   * is missing and no earlier `local_path` was bound).
   */
  datatype Outcome = Outcome(db: Db, fs: FileMap, result: Result<Option<Path>>)

  /** A row that is already downloaded and whose file is still on disk is left alone. */
  predicate OnDisk(e: Episode, fs: FileMap) {
    e.status == Downloaded && Truthy(e.localPath) && e.localPath.value in fs
  }

  /** The episodes table after writing back one row: same ids, other rows untouched. */
  function Put(db: Db, e: Episode): (r: Db)
    ensures r.podcasts == db.podcasts && r.history == db.history
    ensures |r.episodes| == |db.episodes|
    ensures forall i :: 0 <= i < |db.episodes| ==> r.episodes[i].id == db.episodes[i].id
    ensures forall i :: 0 <= i < |db.episodes| && db.episodes[i].id != e.id ==> r.episodes[i] == db.episodes[i]
  {
    db.(episodes := Store(db.episodes, e))
  }

  /** Lines 54-157 for a row `e` that is not on disk yet. */
  function Fetch(db: Db, fs: FileMap, env: Env, e: Episode): (o: Outcome)
    ensures o.db.podcasts == db.podcasts && o.db.history == db.history
    ensures |o.db.episodes| == |db.episodes|
    ensures forall i :: 0 <= i < |db.episodes| ==> o.db.episodes[i].id == db.episodes[i].id
    ensures forall i :: 0 <= i < |db.episodes| && db.episodes[i].id != e.id ==> o.db.episodes[i] == db.episodes[i]
    ensures o.result.Ok? && o.result.value.Some? ==> o.result.value.value in o.fs
  {
    match FindPodcast(db.podcasts, e.podcastId)
    case None =>
      var db' := Put(db, MarkFailed(e, e.fileSize));
      if e.status == Downloaded && Truthy(e.localPath) then Outcome(db', fs, Ok(None))
      else Outcome(db', fs, Err("local variable 'local_path' referenced before assignment"))
    case Some(p) =>
      var path := TargetPath(env, p, e);
      var r := Attempt(e, path, fs, env);
      Outcome(Put(db, r.episode), r.fs, Ok(if r.ok then Some(path) else None))
  }

  /** `download_episode` */
  function DownloadEpisode(db: Db, fs: FileMap, env: Env, id: int): (o: Outcome)
    ensures o.db.podcasts == db.podcasts && o.db.history == db.history
    ensures |o.db.episodes| == |db.episodes|
    ensures forall i :: 0 <= i < |db.episodes| ==> o.db.episodes[i].id == db.episodes[i].id
    ensures forall i :: 0 <= i < |db.episodes| && db.episodes[i].id != id ==> o.db.episodes[i] == db.episodes[i]
    ensures FindEpisode(db.episodes, id).None? ==> o == Outcome(db, fs, Ok(None))
    ensures o.result.Ok? && o.result.value.Some? ==> o.result.value.value in o.fs
  {
    match FindEpisode(db.episodes, id)
    case None => Outcome(db, fs, Ok(None))
    case Some(e) =>
      if OnDisk(e, fs) then Outcome(db, fs, Ok(e.localPath))
      else Fetch(db, fs, env, e)
  }

  /** Where a download leaves the row: the result says whether it ends `downloaded` or `failed`. */
  predicate Settled(eps: seq<Episode>, id: int) {
    match FindEpisode(eps, id)
    case None => false
    case Some(e) => e.status == Downloaded || e.status == Failed
  }

  /**
   * What a download reports about the row it settled: `downloaded`, with
   * the file on disk, exactly when a path comes back; `failed` otherwise.
   */
  ghost predicate Reports(o: Outcome, id: int) {
    var after := FindEpisode(o.db.episodes, id);
    && Settled(o.db.episodes, id)
    && (o.result.Ok? && o.result.value.Some? <==> after.value.status == Downloaded)
    && (o.result.Ok? && o.result.value.Some? ==>
          o.result.value == after.value.localPath && Truthy(after.value.localPath) && after.value.localPath.value in o.fs)
  }

  /** A row whose podcast is gone is marked failed and no path comes back. */
  lemma OrphanReports(db: Db, fs: FileMap, env: Env, e: Episode)
    requires FindEpisode(db.episodes, e.id).Some? && FindPodcast(db.podcasts, e.podcastId).None?
    ensures Reports(Fetch(db, fs, env, e), e.id)
  {
    var o := Fetch(db, fs, env, e);
    var row := MarkFailed(e, e.fileSize);
    assert o.db.episodes == Store(db.episodes, row);
    assert o.result.Err? || o.result == Ok(None);
    FindStore(db.episodes, row);
  }

  /** A row whose podcast exists ends as the attempt left it. */
  lemma AttemptReports(db: Db, fs: FileMap, env: Env, e: Episode, p: Podcast)
    requires FindEpisode(db.episodes, e.id).Some? && FindPodcast(db.podcasts, e.podcastId) == Some(p)
    ensures Reports(Fetch(db, fs, env, e), e.id)
  {
    var path := TargetPath(env, p, e);
    var r := Attempt(e, path, fs, env);
    assert Fetch(db, fs, env, e) == Outcome(Put(db, r.episode), r.fs, Ok(if r.ok then Some(path) else None));
    FindStore(db.episodes, r.episode);
  }

  /**
   * A download of an existing row settles it: `downloaded`, with the file
   * on disk, exactly when a path comes back; `failed` otherwise.
   */
  lemma DownloadSettles(db: Db, fs: FileMap, env: Env, id: int)
    requires FindEpisode(db.episodes, id).Some?
    ensures var o := DownloadEpisode(db, fs, env, id); var after := FindEpisode(o.db.episodes, id);
      && Settled(o.db.episodes, id)
      && (o.result.Ok? && o.result.value.Some? <==> after.value.status == Downloaded)
      && (o.result.Ok? && o.result.value.Some? ==>
            o.result.value == after.value.localPath && Truthy(after.value.localPath) && after.value.localPath.value in o.fs)
  {
    var e := FindEpisode(db.episodes, id).value;
    var o := DownloadEpisode(db, fs, env, id);
    if !OnDisk(e, fs) {
      assert o == Fetch(db, fs, env, e);
      match FindPodcast(db.podcasts, e.podcastId)
      case None =>
        OrphanReports(db, fs, env, e);
      case Some(p) =>
        AttemptReports(db, fs, env, e, p);
    }
    assert Reports(o, id);
  }

  /** An attempt into a non-empty path never leaves a converted path without its download. */
  lemma AttemptConsistent(e: Episode, path: Path, fs: FileMap, env: Env)
    requires path != "" && (Truthy(e.convertedPath) ==> Truthy(e.localPath))
    ensures var r := Attempt(e, path, fs, env);
      Truthy(r.episode.convertedPath) ==> Truthy(r.episode.localPath)
  {
  }

  /** Writing back a consistent row leaves every row with that id consistent. */
  lemma StoreConsistent(eps: seq<Episode>, e: Episode)
    requires Truthy(e.convertedPath) ==> Truthy(e.localPath)
    ensures var eps' := Store(eps, e);
      forall i :: 0 <= i < |eps'| && eps'[i].id == e.id ==> Truthy(eps'[i].convertedPath) ==> Truthy(eps'[i].localPath)
  {
    var eps' := Store(eps, e);
    forall i | 0 <= i < |eps'| && eps'[i].id == e.id
      ensures Truthy(eps'[i].convertedPath) ==> Truthy(eps'[i].localPath)
    {
      assert eps'[i] == e;
    }
  }

  /** The row `Fetch` writes names a converted file only alongside its download, when `e` did. */
  lemma FetchConsistent(db: Db, fs: FileMap, env: Env, e: Episode)
    requires Truthy(e.convertedPath) ==> Truthy(e.localPath)
    ensures var eps' := Fetch(db, fs, env, e).db.episodes;
      forall i :: 0 <= i < |eps'| && eps'[i].id == e.id ==> Truthy(eps'[i].convertedPath) ==> Truthy(eps'[i].localPath)
  {
    match FindPodcast(db.podcasts, e.podcastId)
    case None =>
      var row := MarkFailed(e, e.fileSize);
      assert Fetch(db, fs, env, e).db.episodes == Store(db.episodes, row);
      StoreConsistent(db.episodes, row);
    case Some(p) =>
      var path := TargetPath(env, p, e);
      var row := Attempt(e, path, fs, env).episode;
      assert Fetch(db, fs, env, e).db.episodes == Store(db.episodes, row);
      AttemptConsistent(e, path, fs, env);
      StoreConsistent(db.episodes, row);
  }

  /** Downloading keeps ids unique and never leaves a converted path without its download. */
  lemma DownloadKeepsInvariants(db: Db, fs: FileMap, env: Env, id: int)
    requires UniqueIds(db.episodes) && PathsConsistent(db.episodes)
    ensures var o := DownloadEpisode(db, fs, env, id);
      UniqueIds(o.db.episodes) && PathsConsistent(o.db.episodes)
  {
    var eps := db.episodes;
    if FindEpisode(eps, id).Some? {
      var e := FindEpisode(eps, id).value;
      var i0 :| 0 <= i0 < |eps| && eps[i0] == e;
      assert Truthy(e.convertedPath) ==> Truthy(e.localPath);
      if !OnDisk(e, fs) {
        FetchConsistent(db, fs, env, e);
      }
    }
  }

  /** A second download of a row that came back with a path returns the same path and changes nothing. */
  lemma DownloadIdempotent(db: Db, fs: FileMap, env: Env, env2: Env, id: int)
    requires FindEpisode(db.episodes, id).Some?
    requires var o := DownloadEpisode(db, fs, env, id); o.result.Ok? && o.result.value.Some?
    ensures var o := DownloadEpisode(db, fs, env, id);
      DownloadEpisode(o.db, o.fs, env2, id) == o
  {
    DownloadSettles(db, fs, env, id);
  }

  /** A freshly fetched file is named by `_generate_filename` and lies in the storage directory. */
  lemma DownloadPlacement(db: Db, fs: FileMap, env: Env, id: int, e: Episode, p: Podcast)
    requires FindEpisode(db.episodes, id) == Some(e) && !OnDisk(e, fs)
    requires FindPodcast(db.podcasts, e.podcastId) == Some(p)
    requires env.storageDir != ""
    ensures var o := DownloadEpisode(db, fs, env, id);
      o.result.Ok? && (o.result.value.Some? <==> env.transfer(id).Complete? && Header(env.transfer(id)).Some?)
    ensures var o := DownloadEpisode(db, fs, env, id);
      o.result.value.Some? ==>
        && Name(o.result.value.value) == GenerateFilename(p.title, e.title, e.audioUrl)
        && Under(o.result.value.value, env.storageDir)
  {
  }

  /** What `download_podcast_episodes` leaves: store, disk, the ids it returns, and the error that cut it short. */
  datatype Batch = Batch(db: Db, fs: FileMap, done: seq<int>, crash: Option<string>)

  /** One call of `download_episode`, as a value the batch loop can be run with. */
  type Step = (Db, FileMap, int) -> Outcome

  function DownloadStep(env: Env): Step {
    (d: Db, f: FileMap, id: int) => DownloadEpisode(d, f, env, id)
  }

  /** Lines 303-309: run `step` on each id in turn, collecting the ids that came back with a path; an escaping error ends the loop. */
  function RunAll(db: Db, fs: FileMap, step: Step, ids: seq<int>): (b: Batch)
    ensures forall j :: 0 <= j < |b.done| ==> !Absent(ids, b.done[j])
    decreases |ids|
  {
    if ids == [] then Batch(db, fs, [], None)
    else
      var o := step(db, fs, ids[0]);
      if o.result.Err? then Batch(o.db, o.fs, [], Some(o.result.error))
      else
        var rest := RunAll(o.db, o.fs, step, ids[1..]);
        assert forall j :: 0 <= j < |rest.done| ==> !Absent(ids, rest.done[j]) by {
          forall j | 0 <= j < |rest.done| ensures !Absent(ids, rest.done[j]) {
            var k :| 0 <= k < |ids[1..]| && ids[1..][k] == rest.done[j];
            assert ids[k + 1] == rest.done[j];
          }
        }
        Batch(rest.db, rest.fs, (if o.result.value.Some? then [ids[0]] else []) + rest.done, rest.crash)
  }

  /** `after` differs from `before` at most in the rows whose id is listed in `changed`, and every row keeps its id. */
  ghost predicate Confined(before: Db, after: Db, changed: seq<int>) {
    && after.podcasts == before.podcasts && after.history == before.history
    && |after.episodes| == |before.episodes|
    && (forall i :: 0 <= i < |before.episodes| ==> after.episodes[i].id == before.episodes[i].id)
    && (forall i :: 0 <= i < |before.episodes| && Absent(changed, before.episodes[i].id) ==> after.episodes[i] == before.episodes[i])
  }

  /** A step only rewrites the row of the id it is given. */
  ghost predicate Local(step: Step) {
    forall d: Db, f: FileMap, id: int {:trigger step(d, f, id)} :: Confined(d, step(d, f, id).db, [id])
  }

  /** A step on an existing row leaves it `downloaded` (and returns a path) or `failed`; on a missing one it returns None. */
  ghost predicate SettlesOne(d: Db, o: Outcome, id: int) {
    && (FindEpisode(d.episodes, id).None? ==> o.result == Ok(None))
    && (FindEpisode(d.episodes, id).Some? ==>
          Settled(o.db.episodes, id) && (o.result.Ok? && o.result.value.Some? <==> FindEpisode(o.db.episodes, id).value.status == Downloaded))
  }

  ghost predicate Settles(step: Step) {
    forall d: Db, f: FileMap, id: int {:trigger step(d, f, id)} :: SettlesOne(d, step(d, f, id), id)
  }

  /** `download_episode` only rewrites the row it is asked for. */
  lemma DownloadStepLocal(env: Env)
    ensures Local(DownloadStep(env))
  {
    forall d: Db, f: FileMap, id: int ensures Confined(d, DownloadStep(env)(d, f, id).db, [id]) {
      var o := DownloadEpisode(d, f, env, id);
      forall i | 0 <= i < |d.episodes| && Absent([id], d.episodes[i].id) ensures o.db.episodes[i] == d.episodes[i] {
        assert [id][0] == id;
      }
    }
  }

  /** `download_episode` settles the row it is asked for. */
  lemma DownloadStepSettles(env: Env)
    ensures Settles(DownloadStep(env))
  {
    forall d: Db, f: FileMap, id: int ensures SettlesOne(d, DownloadStep(env)(d, f, id), id) {
      if FindEpisode(d.episodes, id).Some? {
        DownloadSettles(d, f, env, id);
      }
    }
  }

  lemma LocalAt(step: Step, d: Db, f: FileMap, id: int)
    requires Local(step)
    ensures Confined(d, step(d, f, id).db, [id])
  {
  }

  /** A batch of local steps rewrites only the requested rows. */
  lemma {:induction false} RunAllConfined(db: Db, fs: FileMap, step: Step, ids: seq<int>)
    requires Local(step)
    ensures Confined(db, RunAll(db, fs, step, ids).db, ids)
    decreases |ids|
  {
    if ids != [] {
      var o := step(db, fs, ids[0]);
      LocalAt(step, db, fs, ids[0]);
      if o.result.Ok? {
        RunAllConfined(o.db, o.fs, step, ids[1..]);
        var b := RunAll(db, fs, step, ids);
        forall i | 0 <= i < |db.episodes| && Absent(ids, db.episodes[i].id)
          ensures b.db.episodes[i] == db.episodes[i]
        {
          assert ids[0] != db.episodes[i].id;
          assert Absent(ids[1..], o.db.episodes[i].id) by {
            forall k | 0 <= k < |ids[1..]| ensures ids[1..][k] != o.db.episodes[i].id {
              assert ids[1..][k] == ids[k + 1];
            }
          }
        }
      }
    }
  }

  /**
   * What a batch promises about one requested id: a row that existed ends
   * `downloaded` or `failed`, and the id is among those returned exactly
   * when its row ended `downloaded`.
   */
  ghost predicate Accounted(before: seq<Episode>, after: seq<Episode>, done: seq<int>, id: int) {
    && (FindEpisode(before, id).Some? ==> Settled(after, id))
    && (!Absent(done, id) <==> Settled(after, id) && FindEpisode(after, id).value.status == Downloaded)
  }

  /** The first id of a batch is accounted for: the rest of the batch never touches its row. */
  lemma HeadAccounted(db: Db, fs: FileMap, step: Step, ids: seq<int>)
    requires Local(step) && Settles(step)
    requires ids != [] && Distinct(ids)
    requires step(db, fs, ids[0]).result.Ok?
    ensures var b := RunAll(db, fs, step, ids); Accounted(db.episodes, b.db.episodes, b.done, ids[0])
  {
    var id := ids[0];
    var o := step(db, fs, id);
    var rest := RunAll(o.db, o.fs, step, ids[1..]);
    LocalAt(step, db, fs, id);
    assert SettlesOne(db, o, id);
    assert Absent(ids[1..], id) by {
      forall k | 0 <= k < |ids[1..]| ensures ids[1..][k] != id {
        assert ids[1..][k] == ids[k + 1];
      }
    }
    assert Absent(rest.done, id) by {
      forall j | 0 <= j < |rest.done| ensures rest.done[j] != id {
        var k :| 0 <= k < |ids[1..]| && ids[1..][k] == rest.done[j];
      }
    }
    RunAllConfined(o.db, o.fs, step, ids[1..]);
    FindFrame(o.db.episodes, rest.db.episodes, id);
    FindSameIds(db.episodes, o.db.episodes, id);
    var b := RunAll(db, fs, step, ids);
    assert b.db == rest.db;
    if o.result.value.Some? {
      assert b.done == [id] + rest.done && b.done[0] == id;
    } else {
      assert b.done == rest.done;
    }
  }

  /** A later id of a batch is accounted for when the rest of the batch accounts for it. */
  lemma TailAccounted(db: Db, fs: FileMap, step: Step, ids: seq<int>, k: nat)
    requires Local(step)
    requires 1 <= k < |ids| && Distinct(ids)
    requires step(db, fs, ids[0]).result.Ok?
    requires var o := step(db, fs, ids[0]); var rest := RunAll(o.db, o.fs, step, ids[1..]);
      Accounted(o.db.episodes, rest.db.episodes, rest.done, ids[k])
    ensures var b := RunAll(db, fs, step, ids); Accounted(db.episodes, b.db.episodes, b.done, ids[k])
  {
    var o := step(db, fs, ids[0]);
    var rest := RunAll(o.db, o.fs, step, ids[1..]);
    var b := RunAll(db, fs, step, ids);
    var x := ids[k];
    LocalAt(step, db, fs, ids[0]);
    FindSameIds(db.episodes, o.db.episodes, x);
    assert x != ids[0];
    assert b.db == rest.db;
    assert Absent(b.done, x) <==> Absent(rest.done, x) by {
      var head := if o.result.value.Some? then [ids[0]] else [];
      assert b.done == head + rest.done;
      assert Absent(head, x);
      AbsentConcat(head, rest.done, x);
    }
  }

  /**
   * Unless an error escapes, every requested row that exists ends
   * `downloaded` or `failed`, and the returned ids are exactly the
   * requested rows that ended `downloaded`.
   */
  lemma {:induction false} RunAllSettles(db: Db, fs: FileMap, step: Step, ids: seq<int>)
    requires Local(step) && Settles(step) && Distinct(ids)
    ensures var b := RunAll(db, fs, step, ids);
      b.crash.None? ==> forall k :: 0 <= k < |ids| ==> Accounted(db.episodes, b.db.episodes, b.done, ids[k])
    decreases |ids|
  {
    if ids != [] {
      var o := step(db, fs, ids[0]);
      if o.result.Ok? {
        assert Distinct(ids[1..]);
        RunAllSettles(o.db, o.fs, step, ids[1..]);
        HeadAccounted(db, fs, step, ids);
        var rest := RunAll(o.db, o.fs, step, ids[1..]);
        forall k | 1 <= k < |ids| && rest.crash.None?
          ensures var b := RunAll(db, fs, step, ids); Accounted(db.episodes, b.db.episodes, b.done, ids[k])
        {
          assert ids[k] == ids[1..][k - 1];
          TailAccounted(db, fs, step, ids, k);
        }
      }
    }
  }

  /** `order_by(Episode.pub_date.desc())`: newest first; SQLite sorts NULL last in descending order. */
  function PubKey(e: Episode): int {
    match e.pubDate
    case None => 1
    case Some(t) => 0 - t as int
  }

  /** `if limit: query.limit(limit)`: None and 0 mean no limit (and SQLite reads a negative one as none). */
  function LimitArg(limit: Option<int>): int {
    if limit.Some? && limit.value != 0 then limit.value else -1
  }

  /** `Episode.podcast_id == podcast_id, Episode.download_status == 'pending'` */
  predicate PendingOf(pid: int, e: Episode) {
    e.podcastId == pid && e.status == Pending
  }

  /** The filter of lines 293-296 as a function value. */
  function IsPending(pid: int): Episode -> bool {
    e => PendingOf(pid, e)
  }

  /** Lines 292-301: the pending rows of a podcast, newest first, at most `limit` of them. */
  function Selected(db: Db, pid: int, limit: Option<int>): (sel: seq<Episode>)
    ensures forall i :: 0 <= i < |sel| ==> sel[i] in db.episodes && PendingOf(pid, sel[i])
    ensures SortedBy(sel, PubKey)
    ensures limit.Some? && limit.value > 0 ==> |sel| <= limit.value
    ensures limit.Some? && limit.value > 0 ==>
      |sel| == (if limit.value < Count(db.episodes, IsPending(pid)) then limit.value else Count(db.episodes, IsPending(pid)))
    ensures LimitArg(limit) < 0 ==> |sel| == Count(db.episodes, IsPending(pid))
  {
    var sel := Top(Filter(db.episodes, IsPending(pid)), PubKey, LimitArg(limit));
    FromFilter(sel, db.episodes, IsPending(pid));
    sel
  }

  /** A pending row of the podcast that is left out is never newer than one that is picked. */
  lemma SelectionIsNewest(db: Db, pid: int, limit: Option<int>, picked: Episode, skipped: Episode)
    requires picked in Selected(db, pid, limit)
    requires skipped in db.episodes && PendingOf(pid, skipped) && skipped !in Selected(db, pid, limit)
    ensures PubKey(picked) <= PubKey(skipped)
  {
    assert IsPending(pid)(skipped);
    TopIsBest(Filter(db.episodes, IsPending(pid)), PubKey, LimitArg(limit), picked, skipped);
  }

  /** The ids of the selected rows are distinct when the table's are. */
  lemma SelectionDistinct(db: Db, pid: int, limit: Option<int>)
    requires UniqueIds(db.episodes)
    ensures Distinct(Map((e: Episode) => e.id, Selected(db, pid, limit)))
  {
    var key := (e: Episode) => e.id;
    assert DistinctBy(db.episodes, key);
    var pending := Filter(db.episodes, IsPending(pid));
    FilterDistinct(db.episodes, IsPending(pid), key);
    TopDistinct(pending, PubKey, LimitArg(limit), key);
    var sel := Selected(db, pid, limit);
    assert DistinctBy(sel, key);
    var ids := Map(key, sel);
    forall i, j | 0 <= i < j < |ids| ensures ids[i] != ids[j] {
      assert ids[i] == key(sel[i]) && ids[j] == key(sel[j]);
    }
  }

  /** `download_podcast_episodes` */
  function DownloadPodcastEpisodes(db: Db, fs: FileMap, env: Env, pid: int, limit: Option<int>): (b: Batch)
    ensures forall j :: 0 <= j < |b.done| ==> !Absent(Map((e: Episode) => e.id, Selected(db, pid, limit)), b.done[j])
    ensures Confined(db, b.db, Map((e: Episode) => e.id, Selected(db, pid, limit)))
  {
    var ids := Map((e: Episode) => e.id, Selected(db, pid, limit));
    BatchConfined(db, fs, env, ids);
    RunAll(db, fs, DownloadStep(env), ids)
  }

  /** Only pending rows of the podcast are touched. */
  lemma DownloadPodcastConfined(db: Db, fs: FileMap, env: Env, pid: int, limit: Option<int>)
    requires UniqueIds(db.episodes)
    ensures var b := DownloadPodcastEpisodes(db, fs, env, pid, limit);
      forall i :: 0 <= i < |db.episodes| && !PendingOf(pid, db.episodes[i]) ==> b.db.episodes[i] == db.episodes[i]
  {
    var b := DownloadPodcastEpisodes(db, fs, env, pid, limit);
    forall i | 0 <= i < |db.episodes| && !PendingOf(pid, db.episodes[i]) ensures b.db.episodes[i] == db.episodes[i] {
      NotSelected(db, pid, limit, i);
    }
  }

  /** Downloading a list of ids rewrites only their rows. */
  lemma BatchConfined(db: Db, fs: FileMap, env: Env, ids: seq<int>)
    ensures Confined(db, RunAll(db, fs, DownloadStep(env), ids).db, ids)
  {
    DownloadStepLocal(env);
    RunAllConfined(db, fs, DownloadStep(env), ids);
  }

  /** A row that is not pending for the podcast has an id outside the selection. */
  lemma NotSelected(db: Db, pid: int, limit: Option<int>, i: int)
    requires UniqueIds(db.episodes)
    requires 0 <= i < |db.episodes| && !PendingOf(pid, db.episodes[i])
    ensures Absent(Map((e: Episode) => e.id, Selected(db, pid, limit)), db.episodes[i].id)
  {
    var sel := Selected(db, pid, limit);
    var ids := Map((e: Episode) => e.id, sel);
    forall k | 0 <= k < |ids| ensures ids[k] != db.episodes[i].id {
      assert ids[k] == sel[k].id;
      var j :| 0 <= j < |db.episodes| && db.episodes[j] == sel[k];
      assert PendingOf(pid, db.episodes[j]);
      assert j != i;
    }
  }

  /** Unless an error escapes, every selected row ends `downloaded` or `failed`, and those returned are the `downloaded` ones. */
  lemma DownloadPodcastSettles(db: Db, fs: FileMap, env: Env, pid: int, limit: Option<int>)
    requires UniqueIds(db.episodes)
    ensures var ids := Map((e: Episode) => e.id, Selected(db, pid, limit));
      var b := DownloadPodcastEpisodes(db, fs, env, pid, limit);
      b.crash.None? ==> forall k :: 0 <= k < |ids| ==>
        Accounted(db.episodes, b.db.episodes, b.done, ids[k]) && FindEpisode(db.episodes, ids[k]).Some?
  {
    var ids := Map((e: Episode) => e.id, Selected(db, pid, limit));
    SelectionDistinct(db, pid, limit);
    DownloadStepLocal(env);
    DownloadStepSettles(env);
    RunAllSettles(db, fs, DownloadStep(env), ids);
    assert DownloadPodcastEpisodes(db, fs, env, pid, limit) == RunAll(db, fs, DownloadStep(env), ids);
    SelectionFound(db, pid, limit);
  }

  /** Every selected id names a row of the table. */
  lemma SelectionFound(db: Db, pid: int, limit: Option<int>)
    ensures var ids := Map((e: Episode) => e.id, Selected(db, pid, limit));
      forall k :: 0 <= k < |ids| ==> FindEpisode(db.episodes, ids[k]).Some?
  {
    var sel := Selected(db, pid, limit);
    var ids := Map((e: Episode) => e.id, sel);
    forall k | 0 <= k < |ids| ensures FindEpisode(db.episodes, ids[k]).Some? {
      assert ids[k] == sel[k].id;
      var i :| 0 <= i < |db.episodes| && db.episodes[i] == sel[k];
    }
  }

  /** The ids with a running download task (`active_downloads`). */
  type Registry = set<int>

  /** `queue_download`: a second task is never started for an id that already has one. */
  function QueueDownload(reg: Registry, id: int): (r: (Registry, bool))
    ensures r.1 <==> id !in reg
    ensures id in r.0 && r.0 - {id} == reg - {id}
  {
    if id in reg then (reg, false) else (reg + {id}, true)
  }

  /** The task's done callback: the id leaves the registry. */
  function TaskDone(reg: Registry, id: int): (r: Registry)
    ensures id !in r && r + {id} == reg + {id}
  {
    reg - {id}
  }

  /**
   * `cancel_download`: only a registered id can be cancelled; its row goes
   * back to `pending` at 0%. The id stays registered until the task's
   * done callback runs, and the partial file is left on disk.
   */
  function CancelDownload(db: Db, reg: Registry, id: int): (r: (Db, bool))
    ensures r.1 <==> id in reg
    ensures !r.1 || FindEpisode(db.episodes, id).None? ==> r.0 == db
    ensures r.0.podcasts == db.podcasts && r.0.history == db.history
    ensures r.1 && FindEpisode(db.episodes, id).Some? ==>
      FindEpisode(r.0.episodes, id) == Some(FindEpisode(db.episodes, id).value.(status := Pending, progress := 0))
  {
    if id !in reg then (db, false)
    else
      match FindEpisode(db.episodes, id)
      case None => (db, true)
      case Some(e) =>
        FindStore(db.episodes, e.(status := Pending, progress := 0));
        (Put(db, e.(status := Pending, progress := 0)), true)
  }

  /** The dictionary `get_download_status` returns. */
  datatype StatusView =
    | NotFound
    | Found(status: Status, progress: int, isDownloading: bool, localPath: Option<Path>, fileSize: Option<int>)

  /** `get_download_status` */
  function DownloadStatus(db: Db, reg: Registry, id: int): (v: StatusView)
    ensures v.NotFound? <==> FindEpisode(db.episodes, id).None?
    ensures v.Found? ==> (v.isDownloading <==> id in reg)
    ensures v.Found? ==> var e := FindEpisode(db.episodes, id).value;
      v.status == e.status && v.progress == e.progress && v.localPath == e.localPath && v.fileSize == e.fileSize
  {
    match FindEpisode(db.episodes, id)
    case None => NotFound
    case Some(e) => Found(e.status, e.progress, id in reg, e.localPath, e.fileSize)
  }

  /** Queueing twice starts one task; once it is done the id can be queued again. */
  lemma QueueProtocol(reg: Registry, id: int)
    ensures var (reg1, first) := QueueDownload(reg, id);
      && !QueueDownload(reg1, id).1
      && QueueDownload(TaskDone(reg1, id), id).1
      && (first ==> TaskDone(reg1, id) == reg)
  {
  }

  /** Right after a cancel the row reads `pending` at 0%, still marked as downloading until its task ends. */
  lemma CancelThenStatus(db: Db, reg: Registry, id: int)
    requires id in reg && FindEpisode(db.episodes, id).Some?
    ensures var v := DownloadStatus(CancelDownload(db, reg, id).0, reg, id);
      v.Found? && v.status == Pending && v.progress == 0 && v.isDownloading
    ensures var v := DownloadStatus(CancelDownload(db, reg, id).0, TaskDone(reg, id), id);
      v.Found? && !v.isDownloading
  {
  }

  /**
   * `delete_episode_file`: unlink the download and, when the row names
   * one, the converted file; the row goes back to `pending` with neither
   * path. An unlink that raises returns False and commits nothing.
   */
  function DeleteEpisodeFile(db: Db, fs: FileMap, stuck: set<Path>, id: int): (r: (Db, FileMap, bool))
    ensures var (db', fs', ok) := r;
      && db'.podcasts == db.podcasts && db'.history == db.history
      && |db'.episodes| == |db.episodes|
      && (forall i :: 0 <= i < |db.episodes| ==> db'.episodes[i].id == db.episodes[i].id)
      && (forall i :: 0 <= i < |db.episodes| && db.episodes[i].id != id ==> db'.episodes[i] == db.episodes[i])
      && (!ok ==> db' == db)
      && (FindEpisode(db.episodes, id).None? || !Truthy(FindEpisode(db.episodes, id).value.localPath) ==> r == (db, fs, false))
    ensures FindEpisode(db.episodes, id).Some? && Truthy(FindEpisode(db.episodes, id).value.localPath) ==>
      var e := FindEpisode(db.episodes, id).value;
      var lp := e.localPath.value;
      var cp := e.convertedPath;
      (r.2 <==> !(lp in fs && lp in stuck) && !(Truthy(cp) && cp.value in Unlink(fs, stuck, lp).0 && cp.value in stuck))
  {
    match FindEpisode(db.episodes, id)
    case None => (db, fs, false)
    case Some(e) =>
      if !Truthy(e.localPath) then (db, fs, false)
      else
        var (fs1, _) := Unlink(fs, stuck, e.localPath.value);
        if e.localPath.value in fs && e.localPath.value in stuck then (db, fs, false)
        else if !Truthy(e.convertedPath) then
          (Put(db, e.(localPath := None, status := Pending, progress := 0)), fs1, true)
        else
          var c := e.convertedPath.value;
          if c in fs1 && c in stuck then (db, fs1, false)
          else
            (Put(db, e.(localPath := None, status := Pending, progress := 0, convertedPath := None)), Unlink(fs1, stuck, c).0, true)
  }

  /** After a successful delete neither file is on disk and the row is `pending` with no path to either. */
  lemma DeleteClears(db: Db, fs: FileMap, stuck: set<Path>, id: int)
    requires FindEpisode(db.episodes, id).Some?
    ensures var e := FindEpisode(db.episodes, id).value; var (db', fs', ok) := DeleteEpisodeFile(db, fs, stuck, id);
      ok ==>
        && e.localPath.value !in fs'
        && (Truthy(e.convertedPath) ==> e.convertedPath.value !in fs')
        && var e' := FindEpisode(db'.episodes, id).value;
           e'.status == Pending && e'.progress == 0 && e'.localPath.None? && !Truthy(e'.convertedPath)
  {
    var e := FindEpisode(db.episodes, id).value;
    if Truthy(e.localPath) {
      var lp := e.localPath.value;
      var fs1 := Unlink(fs, stuck, lp).0;
      if !(lp in fs && lp in stuck) {
        assert lp !in fs1;
        if !Truthy(e.convertedPath) {
          FindStore(db.episodes, e.(localPath := None, status := Pending, progress := 0));
        } else {
          var c := e.convertedPath.value;
          if !(c in fs1 && c in stuck) {
            assert c !in Unlink(fs1, stuck, c).0;
            FindStore(db.episodes, e.(localPath := None, status := Pending, progress := 0, convertedPath := None));
          }
        }
      }
    }
  }

  /** Deleting keeps ids unique and never leaves a converted path without its download. */
  lemma DeleteKeepsInvariants(db: Db, fs: FileMap, stuck: set<Path>, id: int)
    requires UniqueIds(db.episodes) && PathsConsistent(db.episodes)
    ensures var r := DeleteEpisodeFile(db, fs, stuck, id);
      UniqueIds(r.0.episodes) && PathsConsistent(r.0.episodes)
  {
    var (db', fs', ok) := DeleteEpisodeFile(db, fs, stuck, id);
    var eps := db.episodes;
    forall i, j | 0 <= i < j < |db'.episodes| ensures db'.episodes[i].id != db'.episodes[j].id {
      assert db'.episodes[i].id == eps[i].id && db'.episodes[j].id == eps[j].id;
    }
    if ok {
      var e := FindEpisode(eps, id).value;
      var row := if Truthy(e.convertedPath) then e.(localPath := None, status := Pending, progress := 0, convertedPath := None)
        else e.(localPath := None, status := Pending, progress := 0);
      assert db'.episodes == Store(eps, row);
      StoreConsistent(eps, row);
      forall i | 0 <= i < |db'.episodes| ensures Truthy(db'.episodes[i].convertedPath) ==> Truthy(db'.episodes[i].localPath) {
        if eps[i].id != id {
          assert db'.episodes[i] == eps[i];
        }
      }
    }
  }

  /** A deleted episode is fetched afresh by the next download rather than returned from disk. */
  lemma DeleteThenRefetch(db: Db, fs: FileMap, stuck: set<Path>, id: int, env: Env)
    requires UniqueIds(db.episodes)
    requires DeleteEpisodeFile(db, fs, stuck, id).2
    ensures var (db', fs', _) := DeleteEpisodeFile(db, fs, stuck, id);
      !OnDisk(FindEpisode(db'.episodes, id).value, fs')
  {
    DeleteClears(db, fs, stuck, id);
  }
}


=== FILE: feed.dfy ===
/**
 * Feed ingestion (backend/app/services/podcast_service.py): turning the
 * items of an RSS feed into new episode rows, adding a podcast by its
 * feed URL, and deleting a podcast with its episodes. The network and
 * feedparser are an oracle: each feed URL yields a `Response`.
 */
module Feed {

  import opened Model
  import opened Text
  import opened Sorting

  /** One enclosure of an item: its `type` (empty when absent), `href` and `url`. */
  datatype Enclosure = Enclosure(kind: string, href: Option<string>, url: Option<string>)

  /** What feedparser yields for one item, as far as `fetch_episodes` reads it. */
  datatype Entry = Entry(
    id: Option<string>,
    guid: Option<string>,
    link: Option<string>,
    title: Option<string>,      // None when the item has no title
    enclosures: seq<Enclosure>,
    published: Option<nat>,     // `published_parsed` as a timestamp, None when missing or empty
    duration: Option<string>)   // `itunes_duration`, None when the item has none

  /** The feed behind one URL: unreachable (with the error's text), or what feedparser made of it. */
  datatype Response =
    | Unreachable(reason: string)
    | Parsed(hasFeed: bool, title: Option<string>, entries: seq<Entry>)

  // ---------------------------------------------------------------------
  // Reading one item

  /** Line 134, `id or guid or link`: the first truthy one, None when none is truthy. */
  function GuidOf(e: Entry): (r: Option<string>)
    ensures r.Some? ==> r.value != "" && (r == e.id || r == e.guid || r == e.link)
    ensures r.None? <==> !Truthy(e.id) && !Truthy(e.guid) && !Truthy(e.link)
    ensures Truthy(e.id) ==> r == e.id
    ensures !Truthy(e.id) && Truthy(e.guid) ==> r == e.guid
  {
    if Truthy(e.id) then e.id else if Truthy(e.guid) then e.guid else if Truthy(e.link) then e.link else None
  }

  /** Line 149, `href or url`: the first truthy one, None when neither is. */
  function Link(x: Enclosure): (r: Option<string>)
    ensures r.Some? ==> r.value != "" && (r == x.href || r == x.url)
    ensures r.None? <==> !Truthy(x.href) && !Truthy(x.url)
    ensures Truthy(x.href) ==> r == x.href
  {
    if Truthy(x.href) then x.href else if Truthy(x.url) then x.url else None
  }

  /** `'audio' in enclosure.get('type', '')` */
  predicate IsAudio(x: Enclosure) {
    Contains(x.kind, "audio")
  }

  /** The enclosure at `k` is the first audio one. */
  predicate FirstAudio(encs: seq<Enclosure>, k: nat)
    requires k < |encs|
  {
    IsAudio(encs[k]) && forall j :: 0 <= j < k ==> !IsAudio(encs[j])
  }

  /**
   * Lines 144-150: the `href`, else the `url`, of the first audio
   * enclosure. The loop stops at that enclosure even when it has neither,
   * so a later audio enclosure is never looked at.
   */
  function AudioUrl(encs: seq<Enclosure>): (r: Option<string>)
    ensures (forall k :: 0 <= k < |encs| ==> !IsAudio(encs[k])) ==> r.None?
    ensures forall k :: 0 <= k < |encs| && FirstAudio(encs, k) ==> r == Link(encs[k])
  {
    if encs == [] then None
    else if IsAudio(encs[0]) then Link(encs[0])
    else
      assert forall k :: 1 <= k < |encs| ==> encs[k] == encs[1..][k - 1];
      AudioUrl(encs[1..])
  }

  /** Lines 168-172: the fields of a clock value as `int()` read them; only two or three fields give a number. */
  function Clock(fields: seq<Option<int>>): (r: Option<int>) {
    if |fields| == 3 then
      if fields[0].Some? && fields[1].Some? && fields[2].Some? then
        Some(fields[0].value * 3600 + fields[1].value * 60 + fields[2].value)
      else None
    else if |fields| == 2 then
      if fields[0].Some? && fields[1].Some? then Some(fields[0].value * 60 + fields[1].value) else None
    else None
  }

  /**
   * Lines 161-176: `HH:MM:SS`, `MM:SS` or plain seconds, each field read
   * by `int()`. Any other number of fields, or a field `int()` refuses,
   * gives no duration.
   */
  function ParseDuration(s: string): (r: Option<int>)
    ensures |Split(s, ':')| >= 4 ==> r.None?
    ensures r.Some? && !Free(s, ':') ==> 2 <= |Split(s, ':')| <= 3
  {
    if Free(s, ':') then ParseInt(s) else Clock(Fields(Split(s, ':')))
  }

  /** `int()` of each field, in order. */
  function Fields(parts: seq<string>): (r: seq<Option<int>>)
    ensures |r| == |parts|
    ensures forall k :: 0 <= k < |parts| ==> r[k] == ParseInt(parts[k])
  {
    if parts == [] then [] else [ParseInt(parts[0])] + Fields(parts[1..])
  }

  /** A joined list of two or more pieces holds the separator. */
  lemma JoinHasSep(parts: seq<string>, sep: char)
    requires |parts| >= 2
    ensures !Free(JoinOn(parts, sep), sep)
  {
    assert JoinOn(parts, sep)[|parts[0]|] == sep;
  }

  /** Three pieces without colons, joined by colons, split back into themselves. */
  lemma SplitThree(a: string, b: string, c: string)
    requires Free(a, ':') && Free(b, ':') && Free(c, ':')
    ensures !Free(a + ":" + b + ":" + c, ':')
    ensures Split(a + ":" + b + ":" + c, ':') == [a, b, c]
  {
    var parts := [a, b, c];
    assert JoinOn(parts, ':') == a + ":" + b + ":" + c by {
      assert parts[1..] == [b, c];
      JoinTwo(b, c);
      assert JoinOn(parts, ':') == a + ":" + (b + ":" + c);
      AppendAssoc(a + ":", b + ":", c);
      AppendAssoc(a + ":", b, ":");
    }
    JoinHasSep(parts, ':');
    SplitJoin(parts, ':');
  }

  lemma JoinTwo(a: string, b: string)
    ensures JoinOn([a, b], ':') == a + ":" + b
  {
    assert [a, b][1..] == [b];
  }

  /** Two pieces without colons, joined by a colon, split back into themselves. */
  lemma SplitTwo(a: string, b: string)
    requires Free(a, ':') && Free(b, ':')
    ensures !Free(a + ":" + b, ':')
    ensures Split(a + ":" + b, ':') == [a, b]
  {
    var parts := [a, b];
    JoinTwo(a, b);
    JoinHasSep(parts, ':');
    SplitJoin(parts, ':');
  }

  /** Fields that spell numbers read back as those numbers. */
  lemma {:induction false} FieldsOfNumbers(ns: seq<nat>)
    ensures Fields(Map(ShowNat, ns)) == Map((n: nat) => Some(n as int), ns)
  {
    if ns != [] {
      FieldsOfNumbers(ns[1..]);
      ParseShowNat(ns[0]);
      assert Map(ShowNat, ns)[1..] == Map(ShowNat, ns[1..]);
    }
  }

  /** A run of decimal digits holds no colon. */
  lemma DigitsFree(s: string)
    requires AllDigits(s)
    ensures Free(s, ':')
  {
    assert forall k :: 0 <= k < |s| ==> IsDigit(s[k]);
  }

  /** A value with a colon is read field by field. */
  lemma DurationIsClock(s: string)
    requires !Free(s, ':')
    ensures ParseDuration(s) == Clock(Fields(Split(s, ':')))
  {
  }

  /** A clock with a field `int()` refused gives no duration. */
  lemma ClockRefused(fields: seq<Option<int>>, i: nat)
    requires i < |fields| && fields[i].None?
    ensures Clock(fields).None?
  {
  }

  /** `H:M:S` in decimal digits, zero-padded or not, reads as that many seconds. */
  lemma DurationOfClock(h: string, m: string, x: string, a: int, b: int, c: int)
    requires h != [] && AllDigits(h) && m != [] && AllDigits(m) && x != [] && AllDigits(x)
    requires a == DigitsValue(h) && b == DigitsValue(m) && c == DigitsValue(x)
    ensures ParseDuration(h + ":" + m + ":" + x) == Some(a * 3600 + b * 60 + c)
  {
    DigitsFree(h);
    DigitsFree(m);
    DigitsFree(x);
    SplitThree(h, m, x);
    ParseDigits(h);
    ParseDigits(m);
    ParseDigits(x);
    ClockOfThree(h + ":" + m + ":" + x, h, m, x, a, b, c);
  }

  /** Three fields that `int()` reads as `a`, `b` and `c` give `a`·3600 + `b`·60 + `c` seconds. */
  lemma ClockOfThree(s: string, h: string, m: string, x: string, a: int, b: int, c: int)
    requires !Free(s, ':') && Split(s, ':') == [h, m, x]
    requires ParseInt(h) == Some(a) && ParseInt(m) == Some(b) && ParseInt(x) == Some(c)
    ensures ParseDuration(s) == Some(a * 3600 + b * 60 + c)
  {
    DurationIsClock(s);
    FieldsOfThree(h, m, x);
    ClockHours(a, b, c);
  }

  lemma ClockHours(a: int, b: int, c: int)
    ensures Clock([Some(a), Some(b), Some(c)]) == Some(a * 3600 + b * 60 + c)
  {
  }

  /** `M:S` in decimal digits, zero-padded or not, reads as that many seconds. */
  lemma DurationOfMinutes(m: string, x: string, b: int, c: int)
    requires m != [] && AllDigits(m) && x != [] && AllDigits(x)
    requires b == DigitsValue(m) && c == DigitsValue(x)
    ensures ParseDuration(m + ":" + x) == Some(b * 60 + c)
  {
    DigitsFree(m);
    DigitsFree(x);
    SplitTwo(m, x);
    ParseDigits(m);
    ParseDigits(x);
    ClockOfTwo(m + ":" + x, m, x, b, c);
  }

  /** Two fields that `int()` reads as `b` and `c` give `b`·60 + `c` seconds. */
  lemma ClockOfTwo(s: string, m: string, x: string, b: int, c: int)
    requires !Free(s, ':') && Split(s, ':') == [m, x]
    requires ParseInt(m) == Some(b) && ParseInt(x) == Some(c)
    ensures ParseDuration(s) == Some(b * 60 + c)
  {
    DurationIsClock(s);
    FieldsOfTwo(m, x);
    ClockMinutes(b, c);
  }

  lemma FieldsOfTwo(m: string, x: string)
    ensures Fields([m, x]) == [ParseInt(m), ParseInt(x)]
  {
  }

  lemma FieldsOfThree(h: string, m: string, x: string)
    ensures Fields([h, m, x]) == [ParseInt(h), ParseInt(m), ParseInt(x)]
  {
  }

  lemma ClockMinutes(b: int, c: int)
    ensures Clock([Some(b), Some(c)]) == Some(b * 60 + c)
  {
  }

  /** A plain run of decimal digits reads as that many seconds. */
  lemma DurationOfSeconds(s: string)
    requires s != [] && AllDigits(s)
    ensures ParseDuration(s) == Some(DigitsValue(s))
  {
    DigitsFree(s);
    ParseDigits(s);
  }

  /** A value without a colon that holds a character `int()` refuses gives no duration. */
  lemma DurationRejectsPlain(a: string, c: char, b: string)
    requires Foreign(c) && Free(a + [c] + b, ':')
    ensures ParseDuration(a + [c] + b).None?
  {
    ParseRejects(a, c, b);
  }

  /** A two- or three-field value with a field that holds a character `int()` refuses gives no duration. */
  lemma DurationRejectsField(parts: seq<string>, i: nat, a: string, c: char, b: string)
    requires 2 <= |parts| <= 3 && i < |parts|
    requires forall k :: 0 <= k < |parts| ==> Free(parts[k], ':')
    requires parts[i] == a + [c] + b && Foreign(c)
    ensures ParseDuration(JoinOn(parts, ':')).None?
  {
    JoinHasSep(parts, ':');
    SplitJoin(parts, ':');
    DurationIsClock(JoinOn(parts, ':'));
    ParseRejects(a, c, b);
    ClockRefused(Fields(parts), i);
  }

  /** Four or more colon-separated fields give no duration, whatever they hold. */
  lemma DurationRejectsLongClock(parts: seq<string>)
    requires |parts| >= 4
    requires forall i :: 0 <= i < |parts| ==> Free(parts[i], ':')
    ensures ParseDuration(JoinOn(parts, ':')).None?
  {
    var s := JoinOn(parts, ':');
    JoinHasSep(parts, ':');
    SplitJoin(parts, ':');
    assert ParseDuration(s) == Clock(Fields(parts));
  }

  /** `entry.get('title', 'Untitled Episode')` */
  function TitleOf(e: Entry): string {
    if e.title.Some? then e.title.value else "Untitled Episode"
  }

  function DurationOf(e: Entry): Option<int> {
    if e.duration.Some? then ParseDuration(e.duration.value) else None
  }

  // ---------------------------------------------------------------------
  // New rows

  /** Some stored row has identifier `g`. */
  predicate HasGuid(eps: seq<Episode>, g: string) {
    exists k :: 0 <= k < |eps| && eps[k].guid == g
  }

  /** The `guid` column is unique. */
  predicate DistinctGuids(eps: seq<Episode>) {
    forall i, j :: 0 <= i < j < |eps| ==> eps[i].guid != eps[j].guid
  }

  /**
   * Lines 133-154: the item has an identifier that no stored row has yet
   * and an audio link. With autoflush off the lookup sees only what was
   * stored before the fetch, not the rows added earlier in the same feed.
   */
  predicate Admissible(eps: seq<Episode>, e: Entry) {
    GuidOf(e).Some? && !HasGuid(eps, GuidOf(e).value) && AudioUrl(e.enclosures).Some?
  }

  function Admitted(eps: seq<Episode>): Entry -> bool {
    (e: Entry) => Admissible(eps, e)
  }

  /** How a new row starts out (lines 179-191): pending, nothing on disk, not on the watch. */
  predicate Fresh(e: Episode, pid: int) {
    && e.podcastId == pid
    && e.status == Pending && e.progress == 0
    && e.fileSize.None? && e.localPath.None? && e.convertedPath.None?
    && !e.synced && e.syncDate.None?
  }

  /** Lines 179-191: the row added for an admitted item, with the id its insert gets. */
  function NewRow(pid: int, e: Entry, id: int, now: int): (r: Episode)
    requires GuidOf(e).Some? && AudioUrl(e.enclosures).Some?
  {
    Episode(id, pid, TitleOf(e), AudioUrl(e.enclosures).value, GuidOf(e).value, e.published,
            DurationOf(e), None, Pending, 0, None, None, false, None, now)
  }

  /** Lines 132-194: the rows added for the items, in feed order, numbered from `next`. */
  function NewEpisodes(eps: seq<Episode>, pid: int, entries: seq<Entry>, next: int, now: int): (r: seq<Episode>)
    ensures |r| <= |entries|
    ensures forall k :: 0 <= k < |r| ==> r[k].id == next + k && Fresh(r[k], pid)
    ensures forall k :: 0 <= k < |r| ==> r[k].guid != "" && !HasGuid(eps, r[k].guid)
    decreases |entries|
  {
    if entries == [] then []
    else if Admissible(eps, entries[0]) then
      [NewRow(pid, entries[0], next, now)] + NewEpisodes(eps, pid, entries[1..], next + 1, now)
    else NewEpisodes(eps, pid, entries[1..], next, now)
  }

  /** `r` is `adm` built into rows numbered from `next`. */
  ghost predicate BuiltFrom(r: seq<Episode>, adm: seq<Entry>, pid: int, next: int, now: int) {
    && |r| == |adm|
    && forall k :: 0 <= k < |r| ==> GuidOf(adm[k]).Some? && AudioUrl(adm[k].enclosures).Some? && r[k] == NewRow(pid, adm[k], next + k, now)
  }

  /** Building one more row in front. */
  lemma BuiltCons(r: seq<Episode>, adm: seq<Entry>, pid: int, e: Entry, next: int, now: int)
    requires GuidOf(e).Some? && AudioUrl(e.enclosures).Some?
    requires BuiltFrom(r, adm, pid, next + 1, now)
    ensures BuiltFrom([NewRow(pid, e, next, now)] + r, [e] + adm, pid, next, now)
  {
    var r', adm' := [NewRow(pid, e, next, now)] + r, [e] + adm;
    forall k | 0 <= k < |r'|
      ensures GuidOf(adm'[k]).Some? && AudioUrl(adm'[k].enclosures).Some? && r'[k] == NewRow(pid, adm'[k], next + k, now)
    {
      if k > 0 {
        var j := k - 1;
        assert r'[k] == r[j] && adm'[k] == adm[j];
        assert r[j] == NewRow(pid, adm[j], next + 1 + j, now);
      }
    }
  }

  /** The rows added are exactly the admissible items, in feed order, each built by `NewRow`. */
  lemma {:induction false} NewEpisodesAdmitted(eps: seq<Episode>, pid: int, entries: seq<Entry>, next: int, now: int)
    ensures BuiltFrom(NewEpisodes(eps, pid, entries, next, now), Filter(entries, Admitted(eps)), pid, next, now)
    decreases |entries|
  {
    if entries != [] {
      var rest := Filter(entries[1..], Admitted(eps));
      if Admissible(eps, entries[0]) {
        assert Filter(entries, Admitted(eps)) == [entries[0]] + rest;
        var tail := NewEpisodes(eps, pid, entries[1..], next + 1, now);
        assert NewEpisodes(eps, pid, entries, next, now) == [NewRow(pid, entries[0], next, now)] + tail;
        NewEpisodesAdmitted(eps, pid, entries[1..], next + 1, now);
        BuiltCons(tail, rest, pid, entries[0], next, now);
      } else {
        assert Filter(entries, Admitted(eps)) == rest;
        assert NewEpisodes(eps, pid, entries, next, now) == NewEpisodes(eps, pid, entries[1..], next, now);
        NewEpisodesAdmitted(eps, pid, entries[1..], next, now);
      }
    }
  }

  // ---------------------------------------------------------------------
  // fetch_episodes

  /** What a fetch that commits leaves: the store and the rows it added. */
  datatype Fetched = Fetched(db: Db, added: seq<Episode>)

  /** The integrity error SQLite raises when a commit would store an identifier twice. */
  const Conflict: string := "(sqlite3.IntegrityError) UNIQUE constraint failed: episodes.guid"

  /** Line 121 */
  function NotFound(pid: int): string {
    "Podcast " + ShowInt(pid) + " not found"
  }

  /** Line 207 */
  function FetchFailure(reason: string): string {
    "Failed to fetch episodes: " + reason
  }

  /** Line 197 on the podcast with id `pid`: `last_checked` becomes `now`. */
  function Checked(ps: seq<Podcast>, pid: int, now: int): (r: seq<Podcast>)
    ensures |r| == |ps|
    ensures forall i :: 0 <= i < |ps| ==> r[i].id == ps[i].id && r[i].rssUrl == ps[i].rssUrl
    ensures forall i :: 0 <= i < |ps| && ps[i].id != pid ==> r[i] == ps[i]
    ensures forall i :: 0 <= i < |ps| && ps[i].id == pid ==> r[i] == ps[i].(lastChecked := Some(now))
  {
    seq(|ps|, i requires 0 <= i < |ps| => if ps[i].id == pid then ps[i].(lastChecked := Some(now)) else ps[i])
  }

  /**
   * `fetch_episodes`: an unknown podcast is refused before anything else;
   * a feed that cannot be fetched, or a commit that would store one
   * identifier twice, rolls everything back. Otherwise the new rows are
   * appended and the podcast's `last_checked` is set.
   */
  function FetchEpisodes(db: Db, pid: int, resp: Response, now: int): (r: Result<Fetched>)
    ensures FindPodcast(db.podcasts, pid).None? ==> r == Err(NotFound(pid))
    ensures FindPodcast(db.podcasts, pid).Some? && resp.Unreachable? ==> r == Err(FetchFailure(resp.reason))
    ensures r.Ok? ==> FindPodcast(db.podcasts, pid).Some? && resp.Parsed?
    ensures FindPodcast(db.podcasts, pid).Some? && resp.Parsed? ==>
      (r.Ok? <==> DistinctGuids(NewEpisodes(db.episodes, pid, resp.entries, NextEpisodeId(db.episodes), now)))
    ensures FindPodcast(db.podcasts, pid).Some? && resp.Parsed? && r.Err? ==> r.error == FetchFailure(Conflict)
    ensures r.Ok? ==> r.value.added == NewEpisodes(db.episodes, pid, resp.entries, NextEpisodeId(db.episodes), now)
    ensures r.Ok? ==> r.value.db.episodes == db.episodes + r.value.added && r.value.db.history == db.history
    ensures r.Ok? ==> r.value.db.podcasts == Checked(db.podcasts, pid, now)
    ensures r.Ok? ==> DistinctGuids(r.value.added)
    ensures r.Ok? ==> forall k :: 0 <= k < |r.value.added| ==>
      Fresh(r.value.added[k], pid) && r.value.added[k].id == NextEpisodeId(db.episodes) + k
      && r.value.added[k].guid != "" && !HasGuid(db.episodes, r.value.added[k].guid)
  {
    match FindPodcast(db.podcasts, pid)
    case None => Err(NotFound(pid))
    case Some(_) =>
      match resp
      case Unreachable(reason) => Err(FetchFailure(reason))
      case Parsed(_, _, entries) =>
        var added := NewEpisodes(db.episodes, pid, entries, NextEpisodeId(db.episodes), now);
        if !DistinctGuids(added) then Err(FetchFailure(Conflict))
        else Ok(Fetched(Db(Checked(db.podcasts, pid, now), db.episodes + added, db.history), added))
  }

  /** A fetch that commits keeps the primary keys unique: the new ids are above every stored one. */
  lemma FetchKeepsIds(db: Db, pid: int, resp: Response, now: int)
    requires UniqueIds(db.episodes)
    ensures var r := FetchEpisodes(db, pid, resp, now); r.Ok? ==> UniqueIds(r.value.db.episodes)
  {
    var r := FetchEpisodes(db, pid, resp, now);
    if r.Ok? {
      var old_, added := db.episodes, r.value.added;
      var all := old_ + added;
      forall i, j | 0 <= i < j < |all| ensures all[i].id != all[j].id {
        if j >= |old_| {
          assert all[j] == added[j - |old_|];
          if i < |old_| {
            assert all[i] in old_;
          } else {
            assert all[i] == added[i - |old_|];
          }
        }
      }
    }
  }

  /** A fetch that commits keeps the identifiers unique: stored ones are skipped, repeated ones refuse the commit. */
  lemma FetchKeepsGuids(db: Db, pid: int, resp: Response, now: int)
    requires DistinctGuids(db.episodes)
    ensures var r := FetchEpisodes(db, pid, resp, now); r.Ok? ==> DistinctGuids(r.value.db.episodes)
  {
    var r := FetchEpisodes(db, pid, resp, now);
    if r.Ok? {
      var old_, added := db.episodes, r.value.added;
      var all := old_ + added;
      forall i, j | 0 <= i < j < |all| ensures all[i].guid != all[j].guid {
        if j >= |old_| {
          assert all[j] == added[j - |old_|];
          if i < |old_| {
            assert all[i] == old_[i];
          } else {
            assert all[i] == added[i - |old_|];
          }
        }
      }
    }
  }

  /** Every admissible item of a feed that commits is stored afterwards. */
  lemma FetchStoresAdmissible(db: Db, pid: int, resp: Response, now: int, i: nat)
    requires resp.Parsed? && i < |resp.entries| && Admissible(db.episodes, resp.entries[i])
    ensures var r := FetchEpisodes(db, pid, resp, now);
      r.Ok? ==> HasGuid(r.value.db.episodes, GuidOf(resp.entries[i]).value)
  {
    var r := FetchEpisodes(db, pid, resp, now);
    if r.Ok? {
      var k := NewEpisodesHold(db.episodes, pid, resp.entries, NextEpisodeId(db.episodes), now, i);
      HasGuidAppended(db.episodes, r.value.added, k);
    }
  }

  /** Appended rows are found by identifier. */
  lemma HasGuidAppended(eps: seq<Episode>, added: seq<Episode>, k: nat)
    requires k < |added|
    ensures HasGuid(eps + added, added[k].guid)
  {
    assert (eps + added)[|eps| + k] == added[k];
  }

  /** An admissible item gets a row among the new ones. */
  lemma NewEpisodesHold(eps: seq<Episode>, pid: int, entries: seq<Entry>, next: int, now: int, i: nat) returns (k: nat)
    requires i < |entries| && Admissible(eps, entries[i])
    ensures var added := NewEpisodes(eps, pid, entries, next, now);
      k < |added| && added[k].guid == GuidOf(entries[i]).value
  {
    var added := NewEpisodes(eps, pid, entries, next, now);
    NewEpisodesAdmitted(eps, pid, entries, next, now);
    k := FilterPlace(entries, Admitted(eps), i);
    assert added[k] == NewRow(pid, entries[i], next + k, now);
  }

  /**
   * Fetching the same feed again after a fetch that committed adds no
   * rows: every item is either unusable or already stored.
   */
  lemma RefetchAddsNothing(db: Db, pid: int, resp: Response, now: int, later: int)
    requires FetchEpisodes(db, pid, resp, now).Ok?
    ensures var d := FetchEpisodes(db, pid, resp, now).value.db;
      FetchEpisodes(d, pid, resp, later) == Ok(Fetched(d.(podcasts := Checked(d.podcasts, pid, later)), []))
  {
    var d := FetchEpisodes(db, pid, resp, now).value.db;
    var entries := resp.entries;
    assert FindPodcast(d.podcasts, pid).Some? by {
      var p := FindPodcast(db.podcasts, pid).value;
      var i :| 0 <= i < |db.podcasts| && db.podcasts[i] == p;
      assert d.podcasts[i].id == pid;
    }
    forall i | 0 <= i < |entries| ensures !Admissible(d.episodes, entries[i]) {
      if GuidOf(entries[i]).Some? && AudioUrl(entries[i].enclosures).Some? {
        var g := GuidOf(entries[i]).value;
        if HasGuid(db.episodes, g) {
          var k :| 0 <= k < |db.episodes| && db.episodes[k].guid == g;
          assert d.episodes[k] == db.episodes[k];
        } else {
          FetchStoresAdmissible(db, pid, resp, now, i);
        }
      }
    }
    var next := NextEpisodeId(d.episodes);
    NewEpisodesAdmitted(d.episodes, pid, entries, next, later);
    assert Filter(entries, Admitted(d.episodes)) == [];
    assert d.episodes + [] == d.episodes;
  }

  /**
   * Two usable items with the same identifier in one feed are both added
   * (the lookup does not see unflushed rows), so the commit fails and the
   * whole fetch rolls back.
   */
  lemma RepeatedItemRollsBack(db: Db, pid: int, resp: Response, now: int, i: nat, j: nat)
    requires FindPodcast(db.podcasts, pid).Some? && resp.Parsed?
    requires i < j < |resp.entries|
    requires Admissible(db.episodes, resp.entries[i]) && Admissible(db.episodes, resp.entries[j])
    requires GuidOf(resp.entries[i]) == GuidOf(resp.entries[j])
    ensures FetchEpisodes(db, pid, resp, now) == Err(FetchFailure(Conflict))
  {
    var entries := resp.entries;
    var next := NextEpisodeId(db.episodes);
    var added := NewEpisodes(db.episodes, pid, entries, next, now);
    NewEpisodesAdmitted(db.episodes, pid, entries, next, now);
    var a, b := FilterPair(entries, Admitted(db.episodes), i, j);
    assert added[a].guid == added[b].guid;
  }

  // ---------------------------------------------------------------------
  // create_podcast and delete_podcast

  /** The fields of `PodcastCreate` the service reads. */
  datatype NewPodcast = NewPodcast(rssUrl: string, episodeLimit: int, autoDownload: bool)

  /** Some stored podcast has feed URL `url`. */
  predicate HasRss(ps: seq<Podcast>, url: string) {
    exists k :: 0 <= k < |ps| && ps[k].rssUrl == url
  }

  /** The `rss_url` column is unique. */
  ghost predicate DistinctRss(ps: seq<Podcast>) {
    forall i, j :: 0 <= i < j < |ps| ==> ps[i].rssUrl != ps[j].rssUrl
  }

  /** `validate_rss_url` (lines 25-43): reachable, with a channel and at least one item. */
  predicate IsValidFeed(resp: Response) {
    resp.Parsed? && resp.hasFeed && resp.entries != []
  }

  /** `parse_rss_feed` (lines 45-76) on a feed with a channel: its title, or "Unknown Podcast". */
  function FeedTitle(resp: Response): string
    requires resp.Parsed?
  {
    if resp.title.Some? then resp.title.value else "Unknown Podcast"
  }

  const Duplicate: string := "Podcast with this RSS URL already exists"
  const Invalid: string := "Invalid or inaccessible RSS feed URL"

  /** The store after `create_podcast` and what it returns or raises. */
  datatype Created = Created(db: Db, result: Result<Podcast>)

  /**
   * `create_podcast`: a known feed URL or an unusable feed is refused
   * before anything is stored. Otherwise the podcast row is committed and
   * then its episodes are fetched; when that fetch fails the error
   * escapes but the podcast row stays.
   */
  function CreatePodcast(db: Db, req: NewPodcast, resp: Response, now: int): (r: Created)
    ensures HasRss(db.podcasts, req.rssUrl) ==> r == Created(db, Err(Duplicate))
    ensures !HasRss(db.podcasts, req.rssUrl) && !IsValidFeed(resp) ==> r == Created(db, Err(Invalid))
    ensures !HasRss(db.podcasts, req.rssUrl) && IsValidFeed(resp) ==>
      && |r.db.podcasts| == |db.podcasts| + 1
      && r.db.podcasts[..|db.podcasts|] == db.podcasts
      && var p := r.db.podcasts[|db.podcasts|];
        p.rssUrl == req.rssUrl && p.title == FeedTitle(resp) && p.id == NextPodcastId(db.podcasts)
        && p.episodeLimit == req.episodeLimit && p.autoDownload == req.autoDownload
    ensures r.result.Ok? ==> r.result.value == r.db.podcasts[|r.db.podcasts| - 1] && r.result.value.lastChecked == Some(now)
    ensures !HasRss(db.podcasts, req.rssUrl) && IsValidFeed(resp) ==>
      var added := NewEpisodes(db.episodes, NextPodcastId(db.podcasts), resp.entries, NextEpisodeId(db.episodes), now);
      && (r.result.Ok? <==> DistinctGuids(added))
      && (r.result.Ok? ==> r.db.episodes == db.episodes + added)
      && (r.result.Err? ==> r.db.episodes == db.episodes && r.result.error == FetchFailure(Conflict))
    ensures r.db.history == db.history
  {
    if HasRss(db.podcasts, req.rssUrl) then Created(db, Err(Duplicate))
    else if !IsValidFeed(resp) then Created(db, Err(Invalid))
    else
      var p := Podcast(NextPodcastId(db.podcasts), FeedTitle(resp), req.rssUrl, req.episodeLimit, req.autoDownload, None);
      var db1 := db.(podcasts := db.podcasts + [p]);
      assert FindPodcast(db1.podcasts, p.id).Some? by {
        assert db1.podcasts[|db.podcasts|] == p;
      }
      match FetchEpisodes(db1, p.id, resp, now)
      case Err(msg) => Created(db1, Err(msg))
      case Ok(f) =>
        var ps := f.db.podcasts;
        assert ps[|db.podcasts|] == p.(lastChecked := Some(now));
        assert ps[..|db.podcasts|] == db.podcasts by {
          forall i | 0 <= i < |db.podcasts| ensures ps[i] == db.podcasts[i] {
            assert db1.podcasts[i] == db.podcasts[i] && db.podcasts[i] in db.podcasts;
          }
        }
        Created(f.db, Ok(p.(lastChecked := Some(now))))
  }

  /** Creating a podcast keeps feed URLs and podcast ids unique. */
  lemma CreateKeepsKeys(db: Db, req: NewPodcast, resp: Response, now: int)
    requires DistinctRss(db.podcasts) && UniquePodcastIds(db.podcasts)
    ensures var r := CreatePodcast(db, req, resp, now); DistinctRss(r.db.podcasts) && UniquePodcastIds(r.db.podcasts)
  {
    var r := CreatePodcast(db, req, resp, now);
    if !HasRss(db.podcasts, req.rssUrl) && IsValidFeed(resp) {
      var ps := r.db.podcasts;
      var n := |db.podcasts|;
      forall i, j | 0 <= i < j < |ps| ensures ps[i].rssUrl != ps[j].rssUrl && ps[i].id != ps[j].id {
        if j == n {
          assert ps[i] == db.podcasts[i] && ps[i] in db.podcasts;
        } else {
          assert ps[i] == db.podcasts[i] && ps[j] == db.podcasts[j];
        }
      }
    }
  }

  /** Once a create got past validation, creating the same feed URL again is refused, even if the first create raised. */
  lemma RecreateRefused(db: Db, req: NewPodcast, resp: Response, now: int, req2: NewPodcast, resp2: Response, later: int)
    requires IsValidFeed(resp) && req2.rssUrl == req.rssUrl
    ensures var d := CreatePodcast(db, req, resp, now).db;
      CreatePodcast(d, req2, resp2, later) == Created(d, Err(Duplicate))
  {
    var d := CreatePodcast(db, req, resp, now).db;
    if !HasRss(db.podcasts, req.rssUrl) {
      assert d.podcasts[|db.podcasts|].rssUrl == req.rssUrl;
    }
  }

  /**
   * A feed whose items repeat an identifier passes validation, so the
   * podcast row is stored, but its first fetch fails: the create raises
   * and leaves a podcast without episodes behind.
   */
  lemma CreateLeavesPodcastOnFailedFetch(db: Db, req: NewPodcast, resp: Response, now: int, i: nat, j: nat)
    requires !HasRss(db.podcasts, req.rssUrl) && IsValidFeed(resp)
    requires i < j < |resp.entries|
    requires Admissible(db.episodes, resp.entries[i]) && Admissible(db.episodes, resp.entries[j])
    requires GuidOf(resp.entries[i]) == GuidOf(resp.entries[j])
    ensures var r := CreatePodcast(db, req, resp, now);
      r.result == Err(FetchFailure(Conflict)) && HasRss(r.db.podcasts, req.rssUrl) && r.db.episodes == db.episodes
  {
    var p := Podcast(NextPodcastId(db.podcasts), FeedTitle(resp), req.rssUrl, req.episodeLimit, req.autoDownload, None);
    var db1 := db.(podcasts := db.podcasts + [p]);
    assert FindPodcast(db1.podcasts, p.id).Some? by {
      assert db1.podcasts[|db.podcasts|] == p;
    }
    RepeatedItemRollsBack(db1, p.id, resp, now, i, j);
    assert CreatePodcast(db, req, resp, now).db == db1;
    assert db1.podcasts[|db.podcasts|].rssUrl == req.rssUrl;
  }

  /** Every episode belongs to a stored podcast. */
  ghost predicate Owned(db: Db) {
    forall i :: 0 <= i < |db.episodes| ==> FindPodcast(db.podcasts, db.episodes[i].podcastId).Some?
  }

  function OtherPodcast(pid: int): Podcast -> bool {
    (q: Podcast) => q.id != pid
  }

  function NotOf(pid: int): Episode -> bool {
    (e: Episode) => !OfPodcast(pid, e)
  }

  /**
   * `delete_podcast`: an unknown id raises; otherwise the podcast goes and
   * its episodes go with it (the relationship cascades). Downloaded and
   * converted files stay on disk: the operation has no file side.
   */
  function DeletePodcast(db: Db, pid: int): (r: Result<Db>)
    ensures r.Err? <==> FindPodcast(db.podcasts, pid).None?
    ensures r.Err? ==> r.error == NotFound(pid)
    ensures r.Ok? ==> r.value.history == db.history
    ensures r.Ok? ==> forall q :: q in r.value.podcasts <==> q in db.podcasts && q.id != pid
    ensures r.Ok? ==> forall e :: e in r.value.episodes <==> e in db.episodes && e.podcastId != pid
  {
    match FindPodcast(db.podcasts, pid)
    case None => Err(NotFound(pid))
    case Some(_) => Ok(Db(Filter(db.podcasts, OtherPodcast(pid)), Filter(db.episodes, NotOf(pid)), db.history))
  }

  /** Deleting a podcast leaves no episode without its podcast. */
  lemma DeleteKeepsOwned(db: Db, pid: int)
    requires Owned(db)
    ensures var r := DeletePodcast(db, pid); r.Ok? ==> Owned(r.value)
  {
    var r := DeletePodcast(db, pid);
    if r.Ok? {
      var d := r.value;
      forall i | 0 <= i < |d.episodes| ensures FindPodcast(d.podcasts, d.episodes[i].podcastId).Some? {
        var e := d.episodes[i];
        assert e in db.episodes;
        var k :| 0 <= k < |db.episodes| && db.episodes[k] == e;
        var q := FindPodcast(db.podcasts, e.podcastId).value;
        assert q in d.podcasts;
      }
    }
  }

  /** After a podcast is deleted, fetching its feed is refused as unknown. */
  lemma DeleteThenFetch(db: Db, pid: int, resp: Response, now: int)
    requires DeletePodcast(db, pid).Ok?
    ensures FetchEpisodes(DeletePodcast(db, pid).value, pid, resp, now) == Err(NotFound(pid))
  {
  }

  /** A fetch that commits keeps every episode attached to a stored podcast. */
  lemma FetchKeepsOwned(db: Db, pid: int, resp: Response, now: int)
    requires Owned(db)
    ensures var r := FetchEpisodes(db, pid, resp, now); r.Ok? ==> Owned(r.value.db)
  {
    var r := FetchEpisodes(db, pid, resp, now);
    if r.Ok? {
      var d := r.value.db;
      forall i | 0 <= i < |d.episodes| ensures FindPodcast(d.podcasts, d.episodes[i].podcastId).Some? {
        var owner := if i < |db.episodes| then db.episodes[i].podcastId else pid;
        if i >= |db.episodes| {
          assert d.episodes[i] == r.value.added[i - |db.episodes|];
        }
        var q := FindPodcast(db.podcasts, owner).value;
        var k :| 0 <= k < |db.podcasts| && db.podcasts[k] == q;
        assert d.podcasts[k].id == owner;
      }
    }
  }
}

=== FILE: filenames.dfy ===
/**
 * How the download manager names the file it writes:
 * `"<podcast> - <episode><ext>"` from sanitised titles and the extension
 * of the audio URL (backend/app/services/download_service.py).
 */
module Filenames {

  import opened Model
  import opened Text
  import opened Paths

  /** The characters `_sanitize_filename` deletes. */
  const Invalid: set<char> := {'<', '>', ':', '"', '/', '\\', '|', '?', '*'}

  /** What `strip('. ')` removes from both ends. */
  predicate DotOrSpace(c: char) {
    c == '.' || c == ' '
  }

  /** No character of `s` is one of the deleted ones. */
  predicate Clean(s: string) {
    Avoids(s, Invalid)
  }

  /**
   * `_sanitize_filename`: delete the invalid characters, strip dots and
   * spaces from both ends, then collapse every run of blanks to one space.
   */
  function Sanitize(name: string): (r: string)
    ensures Clean(r)
    ensures Tidy(r)
  {
    var trimmed := Strip(RemoveChars(name, Invalid), DotOrSpace);
    CollapseAvoids(trimmed, Invalid);
    Collapse(trimmed)
  }

  /** A name that is already clean, tidy and free of dots at its ends comes back unchanged. */
  lemma SanitizeKeeps(name: string)
    requires Clean(name) && Tidy(name)
    requires name != "" ==> name[0] != '.' && name[|name| - 1] != '.'
    ensures Sanitize(name) == name
  {
    assert RemoveChars(name, Invalid) == name;
    if name != "" {
      assert !IsSpace(name[0]) && !IsSpace(name[|name| - 1]);
    }
    assert Strip(name, DotOrSpace) == name;
    CollapseTidy(name);
  }

  /**
   * The strip runs before blanks are collapsed, so a tab in front of a
   * dotted word shields the dot: the sanitised name starts with a dot.
   */
  lemma SanitizeLeadingDot(w: string)
    requires w != "" && w[0] == '.' && w[|w| - 1] != '.'
    requires NoSpace(w) && Clean(w)
    ensures Sanitize("\t" + w) == w
  {
    var s := "\t" + w;
    assert Avoids(s, Invalid) by {
      forall k | 0 <= k < |s| ensures s[k] !in Invalid {
        if k > 0 { assert s[k] == w[k - 1]; }
      }
    }
    assert RemoveChars(s, Invalid) == s;
    assert s[|s| - 1] == w[|w| - 1];
    assert Strip(s, DotOrSpace) == s;
    assert s[1..] == w;
    WordsAfterSpaces(s, 1);
    WordsSingle(w);
  }

  /** The URL with its query string dropped: `url.split('?')[0]`. */
  function UrlPath(url: string): (path: string)
    ensures Free(path, '?')
    ensures StartsWith(url, path)
  {
    var parts := Split(url, '?');
    assert parts == [parts[0]] + parts[1..];
    assert |parts| > 1 ==> JoinOn(parts, '?') == parts[0] + ['?'] + JoinOn(parts[1..], '?');
    parts[0]
  }

  /** The suffix of the last path component, `.mp3` when it has none. */
  function RawExtension(path: string): (ext: string)
    ensures |ext| >= 2 && ext[0] == '.'
    ensures Free(ext, '/')
    ensures Free(path, '?') ==> Free(ext, '?')
    ensures Suffix(Name(path)) == "" ==> ext == ".mp3"
    ensures Suffix(Name(path)) != "" ==> ext == Suffix(Name(path))
  {
    var name := Name(path);
    var suffix := Suffix(name);
    if suffix == "" then
      var d := ".mp3";
      assert d[0] == '.' && d[1] == 'm' && d[2] == 'p' && d[3] == '3';
      d
    else suffix
  }

  /** `_get_extension`: the lower-cased suffix of the URL's path, `.mp3` when it has none. */
  function GetExtension(url: string): (x: string)
    ensures |x| >= 2 && x[0] == '.'
    ensures Free(x, '/') && Free(x, '?')
  {
    var ext := RawExtension(UrlPath(url));
    var x := Lower(ext);
    assert Free(x, '/') && Free(x, '?') by {
      forall k | 0 <= k < |x| ensures x[k] != '/' && x[k] != '?' {
        assert x[k] == LowerChar(ext[k]);
      }
    }
    x
  }

  /** The query string plays no part in the extension. */
  lemma ExtensionIgnoresQuery(path: string, query: string)
    requires Free(path, '?')
    ensures GetExtension(path + "?" + query) == GetExtension(path)
  {
    var url := path + "?" + query;
    assert IndexOf(url, '?') == |path| by {
      assert url[|path|] == '?';
      assert url[..|path|] == path;
    }
    assert url[..|path|] == path;
    assert Split(path, '?') == [path];
  }

  /** A file `dir/stem.ext` gets the extension `.ext`, lower-cased. */
  lemma ExtensionOfFile(dir: string, stem: string, ext: string)
    requires stem != "" && |ext| >= 2 && ext[0] == '.' && Free(ext[1..], '.')
    requires PlainName(stem + ext) && Free(dir, '?') && Free(stem + ext, '?')
    ensures GetExtension(Join(dir, stem + ext)) == Lower(ext)
  {
    var path := Join(dir, stem + ext);
    assert Free(path, '?');
    assert Split(path, '?') == [path];
    NameOfJoin(dir, stem + ext);
    SuffixOfStemPlus(stem, ext);
  }

  /** Lines 199-201: a file `dir/stem` whose name has no dot gets the default `.mp3`. */
  lemma ExtensionDefault(dir: string, stem: string)
    requires PlainName(stem) && Free(stem, '.') && Free(stem, '?') && Free(dir, '?')
    ensures GetExtension(Join(dir, stem)) == ".mp3"
  {
    var path := Join(dir, stem);
    assert Free(path, '?');
    assert UrlPath(path) == path;
    NameOfJoin(dir, stem);
    DotlessHasNoSuffix(stem);
    LowerMp3();
  }

  lemma DotlessHasNoSuffix(name: string)
    requires Free(name, '.')
    ensures Suffix(name) == ""
  {
  }

  lemma LowerMp3()
    ensures Lower(".mp3") == ".mp3"
  {
    var d := ".mp3";
    forall k | 0 <= k < |d| ensures Lower(d)[k] == d[k] {
      assert d[k] == '.' || d[k] == 'm' || d[k] == 'p' || d[k] == '3';
    }
  }

  /** `"<podcast> - <episode><ext>"` */
  function Compose(podcast: string, episode: string, ext: string): string {
    podcast + " - " + episode + ext
  }

  /** The first `n` characters, as Python's `s[:n]`. */
  function Prefix(s: string, n: nat): (r: string)
    ensures |r| == (if n < |s| then n else |s|)
    ensures StartsWith(s, r)
  {
    if n < |s| then s[..n] else s
  }

  lemma PrefixFree(e: string, n: nat, c: char)
    requires Free(e, c)
    ensures Free(Prefix(e, n), c)
  {
    var m := Prefix(e, n);
    forall k | 0 <= k < |m| ensures m[k] != c {
      assert m[k] == e[k];
    }
  }

  lemma ComposeFree(p: string, m: string, x: string, c: char)
    requires Free(p, c) && Free(m, c) && Free(x, c) && c != ' ' && c != '-'
    ensures Free(Compose(p, m, x), c)
  {
    var f := Compose(p, m, x);
    forall k | 0 <= k < |f| ensures f[k] != c {
      if k < |p| {
        assert f[k] == p[k];
      } else if k < |p| + 3 {
      } else if k < |p| + 3 + |m| {
        assert f[k] == m[k - |p| - 3];
      } else {
        assert f[k] == x[k - |p| - 3 - |m|];
      }
    }
  }

  /**
   * `_generate_filename`. Only a name longer than 200 characters is cut,
   * and then only the episode part, to its first 100 characters. The
   * result is a single path component, so the file lands directly in the
   * storage directory.
   */
  function GenerateFilename(podcastTitle: string, episodeTitle: string, audioUrl: string): (f: string)
    ensures var p, e, x := Sanitize(podcastTitle), Sanitize(episodeTitle), GetExtension(audioUrl);
      && (|Compose(p, e, x)| <= 200 ==> f == Compose(p, e, x))
      && (|Compose(p, e, x)| > 200 ==> f == Compose(p, Prefix(e, 100), x))
    ensures PlainName(f)
  {
    var p := Sanitize(podcastTitle);
    var e := Sanitize(episodeTitle);
    var x := GetExtension(audioUrl);
    var m := if |Compose(p, e, x)| > 200 then Prefix(e, 100) else e;
    PrefixFree(e, 100, '/');
    ComposePlain(p, m, x);
    Compose(p, m, x)
  }

  /** Parts without a `/` make a single path component. */
  lemma ComposePlain(p: string, m: string, x: string)
    requires Free(p, '/') && Free(m, '/') && Free(x, '/')
    ensures PlainName(Compose(p, m, x))
  {
    ComposeFree(p, m, x, '/');
    var f := Compose(p, m, x);
    assert f[|p| + 1] == '-';
  }

  /** The 200-character bound holds when the podcast name and extension leave room for 100 episode characters. */
  lemma FilenameBounded(podcastTitle: string, episodeTitle: string, audioUrl: string)
    requires |Sanitize(podcastTitle)| + |GetExtension(audioUrl)| <= 97
    ensures |GenerateFilename(podcastTitle, episodeTitle, audioUrl)| <= 200
  {
    var p, e, x := Sanitize(podcastTitle), Sanitize(episodeTitle), GetExtension(audioUrl);
    ComposeBounded(p, e, x);
  }

  /** The name `_generate_filename` picks from its three parts fits in 200 characters when `p` and `x` leave room. */
  lemma ComposeBounded(p: string, e: string, x: string)
    requires |p| + |x| <= 97
    ensures |Compose(p, e, x)| > 200 ==> |Compose(p, Prefix(e, 100), x)| <= 200
  {
  }

  /** The bound is not guaranteed: a long podcast title gives a name over 200 characters. */
  lemma FilenameUnbounded(podcastTitle: string)
    requires Clean(podcastTitle) && Tidy(podcastTitle) && |podcastTitle| == 200
    requires podcastTitle[0] != '.' && podcastTitle[199] != '.'
    ensures |GenerateFilename(podcastTitle, "", "")| > 200
  {
    SanitizeKeeps(podcastTitle);
  }
}

=== FILE: model.dfy ===
/**
 * The entities of the podcast store and the small helpers every service
 * uses to read and write them. Table rows live in sequences in table
 * order; a directory tree is a map from file path to size in bytes.
 */
module Model {

  type Path = string

  /** The files that exist on the local disk, each with its size in bytes. */
  type FileMap = map<Path, nat>

  datatype Option<+T> = None | Some(value: T)

  /** A value or the text of the error that was raised instead. */
  datatype Result<+T> = Ok(value: T) | Err(error: string)

  /** Episode.download_status */
  datatype Status = Pending | Downloading | Downloaded | Failed

  /** One row of the episodes table; timestamps are integers (seconds). */
  datatype Episode = Episode(
    id: int,
    podcastId: int,
    title: string,
    audioUrl: string,
    guid: string,
    pubDate: Option<nat>,
    duration: Option<int>,
    fileSize: Option<int>,
    status: Status,
    progress: int,
    localPath: Option<Path>,
    convertedPath: Option<Path>,
    synced: bool,
    syncDate: Option<int>,
    createdAt: int)

  /** One row of the podcasts table. */
  datatype Podcast = Podcast(
    id: int,
    title: string,
    rssUrl: string,
    episodeLimit: int,
    autoDownload: bool,
    lastChecked: Option<int>)

  /** SyncHistory.status */
  datatype RunStatus = InProgress | Succeeded | RunFailed

  /** One row of the sync_history table. */
  datatype SyncRecord = SyncRecord(
    id: int,
    syncType: string,
    added: int,
    removed: int,
    bytes: int,
    status: RunStatus,
    error: Option<string>,
    startedAt: int,
    completedAt: Option<int>,
    createdAt: int)

  datatype Db = Db(podcasts: seq<Podcast>, episodes: seq<Episode>, history: seq<SyncRecord>)

  /** Primary keys are unique. */
  ghost predicate UniqueIds(eps: seq<Episode>) {
    forall i, j :: 0 <= i < j < |eps| ==> eps[i].id != eps[j].id
  }

  /** Under unique ids, two rows with the same id are the same row. */
  lemma SameIdSameRow(eps: seq<Episode>, a: Episode, b: Episode)
    requires UniqueIds(eps) && a in eps && b in eps && a.id == b.id
    ensures a == b
  {
  }

  ghost predicate UniquePodcastIds(ps: seq<Podcast>) {
    forall i, j :: 0 <= i < j < |ps| ==> ps[i].id != ps[j].id
  }

  /** Python truthiness of an optional string column: present and non-empty. */
  predicate Truthy(o: Option<string>) {
    o.Some? && o.value != ""
  }

  /** A row names a converted file only while it also names its download. */
  ghost predicate PathsConsistent(eps: seq<Episode>) {
    forall i :: 0 <= i < |eps| ==> Truthy(eps[i].convertedPath) ==> Truthy(eps[i].localPath)
  }

  /** `Episode.podcast_id == pid` */
  predicate OfPodcast(pid: int, e: Episode) {
    e.podcastId == pid
  }

  /** The rows of one podcast, as a filter. */
  function RowsOf(pid: int): Episode -> bool {
    e => OfPodcast(pid, e)
  }

  /** `Episode.synced_to_watch == True` */
  predicate IsSynced(e: Episode) {
    e.synced
  }

  /** The first row with the given id, as `query(Episode).filter(id == ...).first()` returns it. */
  function FindEpisode(eps: seq<Episode>, id: int): (r: Option<Episode>)
    ensures r.Some? ==> r.value in eps && r.value.id == id
    ensures r.None? ==> forall e :: e in eps ==> e.id != id
    ensures UniqueIds(eps) ==> forall i :: 0 <= i < |eps| && eps[i].id == id ==> r == Some(eps[i])
  {
    if eps == [] then None
    else if eps[0].id == id then Some(eps[0])
    else FindEpisode(eps[1..], id)
  }

  function FindPodcast(ps: seq<Podcast>, id: int): (r: Option<Podcast>)
    ensures r.Some? ==> r.value in ps && r.value.id == id
    ensures r.None? ==> forall p :: p in ps ==> p.id != id
  {
    if ps == [] then None
    else if ps[0].id == id then Some(ps[0])
    else FindPodcast(ps[1..], id)
  }

  /** The table after writing `e` back over the row with its id. */
  function Store(eps: seq<Episode>, e: Episode): (r: seq<Episode>)
    ensures |r| == |eps|
    ensures forall i :: 0 <= i < |eps| ==> r[i] == (if eps[i].id == e.id then e else eps[i])
  {
    if eps == [] then []
    else [if eps[0].id == e.id then e else eps[0]] + Store(eps[1..], e)
  }

  /** After writing `e` back, looking its id up finds `e`. */
  lemma {:induction false} FindStore(eps: seq<Episode>, e: Episode)
    requires FindEpisode(eps, e.id).Some?
    ensures FindEpisode(Store(eps, e), e.id) == Some(e)
  {
    if eps[0].id != e.id {
      FindStore(eps[1..], e);
      assert Store(eps, e)[1..] == Store(eps[1..], e);
    }
  }

  /** Writing one row back does not change what another id looks up. */
  lemma {:induction false} FindStoreOther(eps: seq<Episode>, e: Episode, id: int)
    requires id != e.id
    ensures FindEpisode(Store(eps, e), id) == FindEpisode(eps, id)
  {
    if eps != [] {
      FindStoreOther(eps[1..], e, id);
      assert Store(eps, e)[1..] == Store(eps[1..], e);
    }
  }

  /** `x` does not occur in `s`. */
  predicate Absent<T(==)>(s: seq<T>, x: T) {
    forall k :: 0 <= k < |s| ==> s[k] != x
  }

  lemma AbsentConcat<T>(a: seq<T>, b: seq<T>, x: T)
    ensures Absent(a + b, x) <==> Absent(a, x) && Absent(b, x)
  {
    if Absent(a, x) && Absent(b, x) {
      forall k | 0 <= k < |a + b| ensures (a + b)[k] != x {
        if k >= |a| { assert (a + b)[k] == b[k - |a|]; }
      }
    }
    if Absent(a + b, x) {
      forall k | 0 <= k < |a| ensures a[k] != x {
        assert (a + b)[k] == a[k];
      }
      forall k | 0 <= k < |b| ensures b[k] != x {
        assert (a + b)[|a| + k] == b[k];
      }
    }
  }

  /** Concatenation regroups freely. */
  lemma AppendAssoc<T>(a: seq<T>, b: seq<T>, c: seq<T>)
    ensures (a + b) + c == a + (b + c)
  {
  }

  /** No value occurs twice in `s`. */
  ghost predicate Distinct<T>(s: seq<T>) {
    forall i, j :: 0 <= i < j < |s| ==> s[i] != s[j]
  }

  /** Two tables with the same ids row by row, agreeing on the rows with id `id`, look `id` up alike. */
  lemma {:induction false} FindFrame(a: seq<Episode>, b: seq<Episode>, id: int)
    requires |a| == |b|
    requires forall i :: 0 <= i < |a| ==> a[i].id == b[i].id
    requires forall i :: 0 <= i < |a| && a[i].id == id ==> a[i] == b[i]
    ensures FindEpisode(a, id) == FindEpisode(b, id)
  {
    if a != [] {
      FindFrame(a[1..], b[1..], id);
    }
  }

  /** Two tables with the same ids row by row hold the same ids. */
  lemma {:induction false} FindSameIds(a: seq<Episode>, b: seq<Episode>, id: int)
    requires |a| == |b|
    requires forall i :: 0 <= i < |a| ==> a[i].id == b[i].id
    ensures FindEpisode(a, id).Some? <==> FindEpisode(b, id).Some?
  {
    if a != [] {
      FindSameIds(a[1..], b[1..], id);
    }
  }

  /** The table after `db.delete` of the row with the given id. */
  function Delete(eps: seq<Episode>, id: int): (r: seq<Episode>)
    ensures forall e {:trigger e in r} :: e in r <==> e in eps && e.id != id
    ensures |r| <= |eps|
  {
    if eps == [] then []
    else (if eps[0].id == id then [] else [eps[0]]) + Delete(eps[1..], id)
  }

  /** The id SQLite gives the next inserted row: one more than the largest id in use. */
  function NextEpisodeId(eps: seq<Episode>): (r: int)
    ensures r >= 1
    ensures forall e :: e in eps ==> e.id < r
  {
    if eps == [] then 1
    else var rest := NextEpisodeId(eps[1..]);
      if eps[0].id + 1 > rest then eps[0].id + 1 else rest
  }

  function NextPodcastId(ps: seq<Podcast>): (r: int)
    ensures r >= 1
    ensures forall p :: p in ps ==> p.id < r
  {
    if ps == [] then 1
    else var rest := NextPodcastId(ps[1..]);
      if ps[0].id + 1 > rest then ps[0].id + 1 else rest
  }

  function NextRecordId(hs: seq<SyncRecord>): (r: int)
    ensures r >= 1
    ensures forall h :: h in hs ==> h.id < r
  {
    if hs == [] then 1
    else var rest := NextRecordId(hs[1..]);
      if hs[0].id + 1 > rest then hs[0].id + 1 else rest
  }

  /**
   * `if path.exists(): path.unlink()`, where the unlink of a path in
   * `stuck` raises. The flag says whether the file went.
   */
  function Unlink(fs: FileMap, stuck: set<Path>, p: Path): (res: (FileMap, bool))
    ensures res.1 <==> p in fs && p !in stuck
    ensures res.1 ==> res.0 == fs - {p}
    ensures !res.1 ==> res.0 == fs
  {
    if p in fs && p !in stuck then (fs - {p}, true) else (fs, false)
  }

  /** `FileMap` restricted to the files that satisfy `keep`. */
  function Only(fs: FileMap, keep: Path -> bool): (r: FileMap)
    ensures forall p {:trigger p in r} :: p in r <==> p in fs && keep(p)
    ensures forall p :: p in r ==> r[p] == fs[p]
  {
    map p | p in fs && keep(p) :: fs[p]
  }

  /** A directory enumeration: every file of `fs` exactly once, in the order the OS yields them. */
  ghost predicate Lists<V>(listing: seq<Path>, fs: map<Path, V>) {
    && (forall i, j :: 0 <= i < j < |listing| ==> listing[i] != listing[j])
    && (forall p :: p in fs <==> p in listing)
  }

  /** Sum of the sizes in a map; the order of summation does not matter (see `SumRemove`). */
  ghost function SumMap(m: map<Path, nat>): nat
    decreases |m|
  {
    if |m| == 0 then 0
    else
      var k := Pick(m.Keys);
      m[k] + SumMap(m - {k})
  }

  ghost function Pick(s: set<Path>): (k: Path)
    requires s != {}
    ensures k in s
  {
    var k :| k in s; k
  }

  lemma CardRemove(m: map<Path, nat>, k: Path)
    requires k in m
    ensures |m - {k}| == |m| - 1
  {
    assert (m - {k}).Keys == m.Keys - {k};
  }

  /** Removing any one file takes exactly its size off the total. */
  lemma {:induction false} SumRemove(m: map<Path, nat>, k: Path)
    requires k in m
    ensures SumMap(m) == m[k] + SumMap(m - {k})
    decreases |m|
  {
    CardRemove(m, k);
    var j := Pick(m.Keys);
    if j != k {
      CardRemove(m, j);
      CardRemove(m - {j}, k);
      SumRemove(m - {j}, k);
      SumRemove(m - {k}, j);
      assert m - {j} - {k} == m - {k} - {j};
    }
  }

  /** Removing a file that is not there changes nothing; otherwise see `SumRemove`. */
  lemma SumRemoveAny(m: map<Path, nat>, k: Path)
    ensures SumMap(m) == SumMap(m - {k}) + (if k in m then m[k] else 0)
  {
    if k in m {
      SumRemove(m, k);
    } else {
      assert m - {k} == m;
    }
  }

  /** Writing a size for a path takes off its old size (if any) and adds the new one. */
  lemma SumUpdate(m: map<Path, nat>, k: Path, v: nat)
    ensures SumMap(m[k := v]) == SumMap(m - {k}) + v
  {
    SumRemove(m[k := v], k);
    assert m[k := v] - {k} == m - {k};
  }
}

=== FILE: paths.dfy ===
/**
 * The `pathlib` operations the services use on POSIX paths: `/` (join),
 * `.name`, `.suffix` and `.stem`. A path is its string form; the model
 * does not normalise `..` or repeated separators.
 */
module Paths {

  import opened Model
  import opened Text

  /** The index of the last `c` in `s` (`str.rfind`), or -1. */
  function LastIndexOf(s: string, c: char): (i: int)
    ensures -1 <= i < |s|
    ensures i >= 0 ==> s[i] == c
    ensures forall k :: i < k < |s| ==> s[k] != c
  {
    if s == [] then -1
    else if s[|s| - 1] == c then |s| - 1
    else LastIndexOf(s[..|s| - 1], c)
  }

  /** A single path component that `pathlib` keeps as the final part. */
  predicate PlainName(n: string) {
    n != "" && n != "." && Free(n, '/')
  }

  /** `Path(a) / b`: an absolute `b` replaces `a`; an empty part adds nothing. */
  function Join(a: Path, b: string): (r: Path)
    ensures b == "" ==> r == a
    ensures b != "" ==> EndsWith(r, b)
  {
    if StartsWith(b, "/") then b
    else if b == "" then a
    else if a == "" then b
    else if EndsWith(a, "/") then a + b
    else a + "/" + b
  }

  /** `Path(p).name`: the last component, skipping empty and `.` components. */
  function Name(p: Path): (n: string)
    ensures n == "" || PlainName(n)
    ensures forall c :: Free(p, c) ==> Free(n, c)
    decreases |p|
  {
    var i := LastIndexOf(p, '/');
    var last := p[i + 1..];
    assert Free(last, '/') by {
      forall k | 0 <= k < |last| ensures last[k] != '/' {
        assert last[k] == p[i + 1 + k];
      }
    }
    if last != "" && last != "." then last
    else if i < 0 then ""
    else Name(p[..i])
  }

  /** The last separator of `pre + n`, when `n` has none, is the last separator of `pre`. */
  lemma LastSlashBefore(pre: string, n: string)
    requires pre != [] && pre[|pre| - 1] == '/'
    requires Free(n, '/')
    ensures LastIndexOf(pre + n, '/') == |pre| - 1
  {
    var s := pre + n;
    assert s[|pre| - 1] == '/';
    forall k | |pre| <= k < |s| ensures s[k] != '/' {
      assert s[k] == n[k - |pre|];
    }
  }

  /** The name of `dir / n` is `n` for a plain component `n`. */
  lemma NameOfJoin(dir: Path, n: string)
    requires PlainName(n)
    ensures Name(Join(dir, n)) == n
  {
    var r := Join(dir, n);
    if dir == "" {
      assert LastIndexOf(n, '/') == -1;
      assert n[0..] == n;
    } else if EndsWith(dir, "/") {
      LastSlashBefore(dir, n);
      assert r[|dir|..] == n;
    } else {
      LastSlashBefore(dir + "/", n);
      assert r[|dir| + 1..] == n;
    }
  }

  /** `Path(name).suffix`: from the last dot, when that dot is neither first nor last. */
  function Suffix(name: string): (x: string)
    ensures x == "" || (|x| >= 2 && x[0] == '.' && Free(x[1..], '.'))
    ensures EndsWith(name, x)
    ensures forall c :: Free(name, c) ==> Free(x, c)
  {
    var i := LastIndexOf(name, '.');
    if 0 < i < |name| - 1 then
      var x := name[i..];
      assert Free(x[1..], '.') by {
        forall k | 0 <= k < |x[1..]| ensures x[1..][k] != '.' {
          assert x[1..][k] == name[i + 1 + k];
        }
      }
      x
    else ""
  }

  /** `Path(name).stem`: the name without its suffix. */
  function Stem(name: string): (s: string)
    ensures s + Suffix(name) == name
    ensures s != "" || name == ""
    ensures forall c :: Free(name, c) ==> Free(s, c)
  {
    var i := LastIndexOf(name, '.');
    if 0 < i < |name| - 1 then name[..i] else name
  }

  /** A stem followed by a new suffix has that suffix. */
  lemma {:induction false} SuffixOfStemPlus(stem: string, ext: string)
    requires stem != "" && |ext| >= 2 && ext[0] == '.' && Free(ext[1..], '.')
    ensures Suffix(stem + ext) == ext
    ensures Stem(stem + ext) == stem
  {
    var s := stem + ext;
    var i := LastIndexOf(s, '.');
    assert s[|stem|] == '.';
    forall k | |stem| < k < |s| ensures s[k] != '.' {
      assert s[k] == ext[1..][k - |stem| - 1];
    }
    assert i == |stem|;
    assert s[i..] == ext;
  }

  /** `dir` followed by a separator: what every path inside `dir` starts with. */
  function DirPrefix(dir: Path): (d: string)
    ensures EndsWith(d, "/")
  {
    if EndsWith(dir, "/") then dir else dir + "/"
  }

  /** `p` lies somewhere below the directory `dir` (what `dir.rglob("*")` can reach). */
  predicate Under(p: Path, dir: Path) {
    StartsWith(p, DirPrefix(dir))
  }

  /** A file written as `dir / n` lies below `dir`. */
  lemma UnderJoin(dir: Path, n: string)
    requires dir != "" && PlainName(n)
    ensures Under(Join(dir, n), dir)
  {
    var r := Join(dir, n);
    assert n[0] != '/';
    if EndsWith(dir, "/") {
      assert r == dir + n;
      assert r[..|dir|] == dir;
    } else {
      assert r == dir + "/" + n;
      assert r[..|dir| + 1] == dir + "/";
    }
  }
}

=== FILE: sorting.dfy ===
/**
 * The query shapes the services build with SQLAlchemy — `filter`,
 * `order_by`, `limit` — as functions on sequences, with the facts the
 * selection rules rely on: ordering, "top K", and commuting with a
 * projection that keeps the sort key.
 */
module Sorting {

  /** `filter(...)`: the rows that satisfy `p`, in table order. */
  function Filter<T(!new)>(s: seq<T>, p: T -> bool): (r: seq<T>)
    ensures forall x {:trigger x in r} :: x in r <==> x in s && p(x)
    ensures forall i :: 0 <= i < |r| ==> p(r[i])
    ensures |r| <= |s|
    ensures (forall i :: 0 <= i < |s| ==> !p(s[i])) ==> r == []
  {
    if s == [] then []
    else (if p(s[0]) then [s[0]] else []) + Filter(s[1..], p)
  }

  /** The number of rows that satisfy `p`: `filter(...).count()`. */
  function Count<T(!new)>(s: seq<T>, p: T -> bool): (n: nat)
    ensures n <= |s|
    ensures n == |Filter(s, p)|
  {
    if s == [] then 0
    else (if p(s[0]) then 1 else 0) + Count(s[1..], p)
  }

  /** `map(f, s)` as a list. */
  function Map<T, U>(f: T -> U, s: seq<T>): (r: seq<U>)
    ensures |r| == |s|
    ensures forall i :: 0 <= i < |s| ==> r[i] == f(s[i])
  {
    if s == [] then [] else [f(s[0])] + Map(f, s[1..])
  }

  /**
   * SQL `LIMIT n`. SQLite reads a negative limit as "no limit"; a limit of
   * zero selects nothing.
   */
  function Limit<T>(s: seq<T>, n: int): (r: seq<T>)
    ensures n < 0 ==> r == s
    ensures 0 <= n ==> |r| == (if n < |s| then n else |s|)
    ensures |r| <= |s| && r == s[..|r|]
  {
    if n < 0 || |s| <= n then s else s[..n]
  }

  /** Non-decreasing by `key`. */
  ghost predicate SortedBy<T>(s: seq<T>, key: T -> int) {
    forall i, j :: 0 <= i < j < |s| ==> key(s[i]) <= key(s[j])
  }

  /** Insert `x` before the first element with a larger key. */
  function Insert<T(!new)>(x: T, s: seq<T>, key: T -> int): (r: seq<T>)
    ensures multiset(r) == multiset(s) + multiset{x}
    ensures |r| == |s| + 1
  {
    if s == [] then [x]
    else if key(x) <= key(s[0]) then [x] + s
    else
      assert s == [s[0]] + s[1..];
      [s[0]] + Insert(x, s[1..], key)
  }

  /** A sorted sequence stays sorted with an element in front that is no larger than its head. */
  lemma SortedCons<T>(y: T, s: seq<T>, key: T -> int)
    requires SortedBy(s, key) && (s != [] ==> key(y) <= key(s[0]))
    ensures SortedBy([y] + s, key)
  {
    var r := [y] + s;
    forall i, j | 0 <= i < j < |r| ensures key(r[i]) <= key(r[j]) {
      assert r[j] == s[j - 1];
      if i > 0 {
        assert r[i] == s[i - 1];
      }
    }
  }

  /** Inserting into a sorted sequence keeps it sorted; the head is `x` or the old head. */
  lemma {:induction false} InsertSorted<T(!new)>(x: T, s: seq<T>, key: T -> int)
    requires SortedBy(s, key)
    ensures SortedBy(Insert(x, s, key), key)
    ensures Insert(x, s, key)[0] == x || (s != [] && Insert(x, s, key)[0] == s[0])
  {
    if s != [] {
      if key(x) <= key(s[0]) {
        SortedCons(x, s, key);
      } else {
        var tail := s[1..];
        assert SortedBy(tail, key) by {
          forall i, j | 0 <= i < j < |tail| ensures key(tail[i]) <= key(tail[j]) {
            assert tail[i] == s[i + 1] && tail[j] == s[j + 1];
          }
        }
        InsertSorted(x, tail, key);
        assert tail != [] ==> tail[0] == s[1];
        SortedCons(s[0], Insert(x, tail, key), key);
      }
    }
  }

  /** `order_by(key)`: an insertion sort, so rows with equal keys keep their table order. */
  function SortBy<T(!new)>(s: seq<T>, key: T -> int): (r: seq<T>)
    ensures SortedBy(r, key)
    ensures multiset(r) == multiset(s)
    ensures |r| == |s|
  {
    if s == [] then []
    else
      assert s == [s[0]] + s[1..];
      var sorted := SortBy(s[1..], key);
      InsertSorted(s[0], sorted, key);
      Insert(s[0], sorted, key)
  }

  /**
   * `order_by(key).limit(n)` picks the best: a row left out never has a
   * smaller key than a row that was selected.
   */
  lemma {:induction false} LimitIsTop<T(!new)>(s: seq<T>, key: T -> int, n: int, x: T, y: T)
    requires SortedBy(s, key)
    requires x in Limit(s, n) && y in s && y !in Limit(s, n)
    ensures key(x) <= key(y)
  {
    var r := Limit(s, n);
    var i :| 0 <= i < |r| && r[i] == x;
    var j :| 0 <= j < |s| && s[j] == y;
    forall k | 0 <= k < |r| ensures s[k] != y {
      assert s[k] == r[k];
    }
    assert s[i] == x;
  }

  /** Filtering after a projection is projecting after the filter, when `p` only reads what the projection keeps. */
  lemma {:induction false} FilterMap<T(!new)>(s: seq<T>, f: T -> T, p: T -> bool)
    requires forall x :: p(f(x)) == p(x)
    ensures Filter(Map(f, s), p) == Map(f, Filter(s, p))
  {
    if s != [] {
      FilterMap(s[1..], f, p);
      assert Map(f, s)[1..] == Map(f, s[1..]);
      assert Map(f, s)[0] == f(s[0]);
      var tail := Filter(s[1..], p);
      if p(s[0]) {
        assert Map(f, [s[0]] + tail) == [f(s[0])] + Map(f, tail) by {
          assert ([s[0]] + tail)[1..] == tail;
        }
      } else {
        assert [] + tail == tail;
      }
    }
  }

  /** A projection that keeps the key keeps a sorted sequence sorted. */
  lemma MapSorted<T>(s: seq<T>, key: T -> int, f: T -> T)
    requires SortedBy(s, key)
    requires forall y :: key(f(y)) == key(y)
    ensures SortedBy(Map(f, s), key)
  {
    var fs := Map(f, s);
    forall i, j | 0 <= i < j < |fs| ensures key(fs[i]) <= key(fs[j]) {
      assert key(fs[i]) == key(s[i]) && key(fs[j]) == key(s[j]);
    }
  }

  lemma MapCons<T, U>(f: T -> U, y: T, s: seq<T>)
    ensures Map(f, [y] + s) == [f(y)] + Map(f, s)
  {
    assert ([y] + s)[1..] == s;
  }

  lemma {:induction false} InsertMap<T(!new)>(x: T, s: seq<T>, key: T -> int, f: T -> T)
    requires SortedBy(s, key)
    requires forall y :: key(f(y)) == key(y)
    ensures SortedBy(Map(f, s), key)
    ensures Insert(f(x), Map(f, s), key) == Map(f, Insert(x, s, key))
  {
    MapSorted(s, key, f);
    if s != [] {
      var fs := Map(f, s);
      assert fs[0] == f(s[0]) && fs[1..] == Map(f, s[1..]);
      if key(x) > key(s[0]) {
        InsertMap(x, s[1..], key, f);
        var rest := Insert(x, s[1..], key);
        assert Insert(f(x), fs, key) == [f(s[0])] + Map(f, rest);
        MapCons(f, s[0], rest);
      } else {
        assert Insert(f(x), fs, key) == [f(x)] + fs;
        MapCons(f, x, s);
      }
    }
  }

  /** Sorting after a projection is projecting after the sort, when the projection keeps the key. */
  lemma {:induction false} SortMap<T(!new)>(s: seq<T>, key: T -> int, f: T -> T)
    requires forall y :: key(f(y)) == key(y)
    ensures SortBy(Map(f, s), key) == Map(f, SortBy(s, key))
  {
    if s != [] {
      SortMap(s[1..], key, f);
      assert Map(f, s)[0] == f(s[0]) && Map(f, s)[1..] == Map(f, s[1..]);
      InsertMap(s[0], SortBy(s[1..], key), key, f);
    }
  }

  /** A limit and a projection commute. */
  lemma LimitMap<T>(s: seq<T>, n: int, f: T -> T)
    ensures Limit(Map(f, s), n) == Map(f, Limit(s, n))
  {
    var r := Limit(s, n);
    assert |Limit(Map(f, s), n)| == |r|;
  }

  /** No two elements share a `f` value (a unique column). */
  ghost predicate DistinctBy<T>(s: seq<T>, f: T -> int) {
    forall i, j :: 0 <= i < j < |s| ==> f(s[i]) != f(s[j])
  }

  lemma {:induction false} FilterDistinct<T(!new)>(s: seq<T>, p: T -> bool, f: T -> int)
    requires DistinctBy(s, f)
    ensures DistinctBy(Filter(s, p), f)
  {
    if s != [] {
      var tail := s[1..];
      assert forall i :: 0 <= i < |tail| ==> tail[i] == s[i + 1];
      FilterDistinct(tail, p, f);
      var rest := Filter(tail, p);
      if p(s[0]) {
        forall i | 0 <= i < |rest| ensures f(rest[i]) != f(s[0]) {
          assert rest[i] in rest;
          var k :| 0 <= k < |tail| && tail[k] == rest[i];
        }
        DistinctCons(s[0], rest, f);
        assert Filter(s, p) == [s[0]] + rest;
      } else {
        assert Filter(s, p) == rest;
      }
    }
  }

  /** A value whose `f` differs from every element's can go in front of a distinct sequence. */
  lemma DistinctCons<T>(y: T, s: seq<T>, f: T -> int)
    requires DistinctBy(s, f)
    requires forall i :: 0 <= i < |s| ==> f(s[i]) != f(y)
    ensures DistinctBy([y] + s, f)
  {
    var r := [y] + s;
    forall i, j | 0 <= i < j < |r| ensures f(r[i]) != f(r[j]) {
      assert r[j] == s[j - 1];
      if i > 0 {
        assert r[i] == s[i - 1];
      }
    }
  }

  lemma {:induction false} InsertDistinct<T(!new)>(x: T, s: seq<T>, key: T -> int, f: T -> int)
    requires SortedBy(s, key) && DistinctBy(s, f)
    requires forall i :: 0 <= i < |s| ==> f(s[i]) != f(x)
    ensures DistinctBy(Insert(x, s, key), f)
  {
    if s != [] && key(x) > key(s[0]) {
      var tail := s[1..];
      assert forall i :: 0 <= i < |tail| ==> tail[i] == s[i + 1];
      InsertDistinct(x, tail, key, f);
      var rest := Insert(x, tail, key);
      forall i | 0 <= i < |rest| ensures f(rest[i]) != f(s[0]) {
        assert rest[i] in multiset(rest);
        if rest[i] != x {
          assert rest[i] in multiset(tail);
          var k :| 0 <= k < |tail| && tail[k] == rest[i];
        }
      }
      DistinctCons(s[0], rest, f);
    } else if s != [] {
      DistinctCons(x, s, f);
    }
  }

  lemma {:induction false} SortDistinct<T(!new)>(s: seq<T>, key: T -> int, f: T -> int)
    requires DistinctBy(s, f)
    ensures DistinctBy(SortBy(s, key), f)
  {
    if s != [] {
      SortDistinct(s[1..], key, f);
      var sorted := SortBy(s[1..], key);
      forall i | 0 <= i < |sorted| ensures f(sorted[i]) != f(s[0]) {
        assert sorted[i] in multiset(s[1..]);
        var k :| 0 <= k < |s[1..]| && s[1..][k] == sorted[i];
        assert s[k + 1] == sorted[i];
      }
      InsertDistinct(s[0], sorted, key, f);
    }
  }

  /** The multiset of a prefix is part of the whole. */
  lemma PrefixMultiset<T>(s: seq<T>, k: nat)
    requires k <= |s|
    ensures multiset(s[..k]) <= multiset(s)
  {
    assert s == s[..k] + s[k..];
  }

  /** `order_by(key).limit(n)`: the rows with the smallest keys, in order; all of them when `n` is negative. */
  function Top<T(!new)>(s: seq<T>, key: T -> int, n: int): (r: seq<T>)
    ensures SortedBy(r, key)
    ensures multiset(r) <= multiset(s)
    ensures n < 0 ==> |r| == |s|
    ensures 0 <= n ==> |r| == (if n < |s| then n else |s|)
  {
    var sorted := SortBy(s, key);
    var r := Limit(sorted, n);
    PrefixMultiset(sorted, |r|);
    assert SortedBy(r, key) by {
      forall i, j | 0 <= i < j < |r| ensures key(r[i]) <= key(r[j]) {
        assert r[i] == sorted[i] && r[j] == sorted[j];
      }
    }
    r
  }

  /** Every row of a part of `Filter(s, p)` is a row of `s` that satisfies `p`. */
  lemma FromFilter<T(!new)>(r: seq<T>, s: seq<T>, p: T -> bool)
    requires multiset(r) <= multiset(Filter(s, p))
    ensures forall i :: 0 <= i < |r| ==> r[i] in s && p(r[i])
  {
    forall i | 0 <= i < |r| ensures r[i] in s && p(r[i]) {
      assert r[i] in multiset(r);
      assert r[i] in multiset(Filter(s, p));
      assert r[i] in Filter(s, p);
    }
  }

  /** `Top` picks the best: a row left out never has a smaller key than a row picked. */
  lemma TopIsBest<T(!new)>(s: seq<T>, key: T -> int, n: int, x: T, y: T)
    requires x in Top(s, key, n) && y in s && y !in Top(s, key, n)
    ensures key(x) <= key(y)
  {
    var sorted := SortBy(s, key);
    assert y in multiset(sorted);
    LimitIsTop(sorted, key, n, x, y);
  }

  /** `Top` keeps a unique column unique. */
  lemma TopDistinct<T(!new)>(s: seq<T>, key: T -> int, n: int, f: T -> int)
    requires DistinctBy(s, f)
    ensures DistinctBy(Top(s, key, n), f)
  {
    var sorted := SortBy(s, key);
    SortDistinct(s, key, f);
    var r := Top(s, key, n);
    forall i, j | 0 <= i < j < |r| ensures f(r[i]) != f(r[j]) {
      assert r[i] == sorted[i] && r[j] == sorted[j];
    }
  }

  /** A filter distributes over concatenation. */
  lemma {:induction false} FilterConcat<T(!new)>(a: seq<T>, b: seq<T>, f: T -> bool)
    ensures Filter(a + b, f) == Filter(a, f) + Filter(b, f)
  {
    if a != [] {
      assert (a + b)[0] == a[0] && (a + b)[1..] == a[1..] + b;
      FilterConcat(a[1..], b, f);
    } else {
      assert a + b == b;
    }
  }

  /** A filter that every element passes keeps everything. */
  lemma {:induction false} FilterAll<T(!new)>(s: seq<T>, f: T -> bool)
    requires forall i :: 0 <= i < |s| ==> f(s[i])
    ensures Filter(s, f) == s
  {
    if s != [] {
      FilterAll(s[1..], f);
    }
  }

  /** A filter that no element passes keeps nothing. */
  lemma {:induction false} FilterNone<T(!new)>(s: seq<T>, f: T -> bool)
    requires forall i :: 0 <= i < |s| ==> !f(s[i])
    ensures Filter(s, f) == []
  {
    if s != [] {
      FilterNone(s[1..], f);
    }
  }

  /** A projection distributes over concatenation. */
  lemma {:induction false} MapConcat<T, U>(f: T -> U, a: seq<T>, b: seq<T>)
    ensures Map(f, a + b) == Map(f, a) + Map(f, b)
  {
    var l := Map(f, a + b);
    var r := Map(f, a) + Map(f, b);
    assert |l| == |r|;
    forall i | 0 <= i < |l| ensures l[i] == r[i] {
      if i < |a| {
        assert (a + b)[i] == a[i];
      } else {
        assert (a + b)[i] == b[i - |a|];
      }
    }
  }

  /** `Top` commutes with a projection that keeps the key. */
  lemma TopMap<T(!new)>(s: seq<T>, key: T -> int, n: int, f: T -> T)
    requires forall y :: key(f(y)) == key(y)
    ensures Top(Map(f, s), key, n) == Map(f, Top(s, key, n))
  {
    SortMap(s, key, f);
    LimitMap(SortBy(s, key), n, f);
  }
  /** A passing element of `s` has a place in the filter. */
  lemma FilterPlace<T(!new)>(s: seq<T>, p: T -> bool, j: nat) returns (b: nat)
    requires j < |s| && p(s[j])
    ensures b < |Filter(s, p)| && Filter(s, p)[b] == s[j]
  {
    assert s[j] in Filter(s, p);
    b :| b < |Filter(s, p)| && Filter(s, p)[b] == s[j];
  }

  /** Two passing elements of `s` keep their order in the filter. */
  lemma {:induction false} FilterPair<T(!new)>(s: seq<T>, p: T -> bool, i: nat, j: nat) returns (a: nat, b: nat)
    requires i < j < |s| && p(s[i]) && p(s[j])
    ensures a < b < |Filter(s, p)| && Filter(s, p)[a] == s[i] && Filter(s, p)[b] == s[j]
  {
    var tail := s[1..];
    var rest := Filter(tail, p);
    assert s[j] == tail[j - 1];
    if i == 0 {
      var b' := FilterPlace(tail, p, j - 1);
      assert Filter(s, p) == [s[0]] + rest;
      a, b := 0, b' + 1;
    } else {
      assert s[i] == tail[i - 1];
      var a', b' := FilterPair(tail, p, i - 1, j - 1);
      if p(s[0]) {
        assert Filter(s, p) == [s[0]] + rest;
        a, b := a' + 1, b' + 1;
      } else {
        assert Filter(s, p) == rest;
        a, b := a', b';
      }
    }
  }
}

=== FILE: storage.dfy ===
/**
 * The storage reclaimer (backend/app/services/storage_service.py): the
 * byte accounting of deleting one episode's files, the four cleanup
 * policies (age, quota, failed downloads, orphaned files), the
 * per-podcast usage breakdown and the size of a cache directory.
 * Sizes are whole bytes; the megabyte figures the service rounds for
 * display are not modelled.
 */
module Storage {

  import opened Model
  import opened Text
  import opened Paths
  import opened Sorting

  const MiB: nat := 1024 * 1024
  const DaySeconds: nat := 86400

  // ---------------------------------------------------------------------
  // _delete_episode_files
  // ---------------------------------------------------------------------

  /** The disk after a deletion, and the bytes the service counted as freed. */
  datatype Freed = Freed(fs: FileMap, bytes: nat)

  /** `p` is one of the two files a row names. */
  predicate Touches(e: Episode, p: Path) {
    e.localPath == Some(p) || e.convertedPath == Some(p)
  }

  /** Neither file a row names (when its column is truthy) is on disk. */
  predicate NoFiles(e: Episode, fs: FileMap) {
    && (!Truthy(e.localPath) || e.localPath.value !in fs)
    && (!Truthy(e.convertedPath) || e.convertedPath.value !in fs)
  }

  /** Lines 293-300: stat and unlink one file; its size counts only when the unlink went through. */
  function Drop(fs: FileMap, stuck: set<Path>, p: Path): (r: Freed)
    ensures SumMap(fs) == SumMap(r.fs) + r.bytes
    ensures p in fs && p !in stuck ==> r == Freed(fs - {p}, fs[p])
    ensures !(p in fs && p !in stuck) ==> r == Freed(fs, 0)
    ensures forall q {:trigger q in r.fs} :: q in r.fs ==> q in fs && r.fs[q] == fs[q]
    ensures forall q {:trigger q in r.fs} :: q in fs && q !in r.fs ==> q == p && p !in stuck
  {
    if Unlink(fs, stuck, p).1 then
      SumRemove(fs, p);
      Freed(fs - {p}, fs[p])
    else Freed(fs, 0)
  }

  /**
   * `_delete_episode_files`: unlink the download, then the converted file
   * when it is a different path. The bytes returned are exactly what left
   * the disk, and only the row's own files can leave it.
   */
  function DeleteEpisodeFiles(fs: FileMap, stuck: set<Path>, e: Episode): (r: Freed)
    ensures SumMap(fs) == SumMap(r.fs) + r.bytes
    ensures forall p {:trigger p in r.fs} :: p in r.fs ==> p in fs && r.fs[p] == fs[p]
    ensures forall p {:trigger p in r.fs} :: p in fs && p !in r.fs ==> p !in stuck && Touches(e, p)
    ensures Truthy(e.localPath) && e.localPath.value !in stuck ==> e.localPath.value !in r.fs
    ensures Truthy(e.convertedPath) && e.convertedPath.value !in stuck ==> e.convertedPath.value !in r.fs
    ensures NoFiles(e, fs) ==> r == Freed(fs, 0)
  {
    var a := if Truthy(e.localPath) then Drop(fs, stuck, e.localPath.value) else Freed(fs, 0);
    if Truthy(e.convertedPath) && e.convertedPath != e.localPath then
      var b := Drop(a.fs, stuck, e.convertedPath.value);
      Freed(b.fs, a.bytes + b.bytes)
    else a
  }

  /**
   * Lines 77-84: the bytes a row occupies as the usage breakdown counts
   * them, the download plus a converted file that is a different path.
   */
  function EpisodeBytes(e: Episode, fs: FileMap): nat {
    (if Truthy(e.localPath) && e.localPath.value in fs then fs[e.localPath.value] else 0)
    + (if Truthy(e.convertedPath) && e.convertedPath != e.localPath && e.convertedPath.value in fs
       then fs[e.convertedPath.value] else 0)
  }

  /**
   * Deleting a row's files frees at most what the breakdown reports for
   * it, and exactly that when neither unlink raises.
   */
  lemma FreedIsUsage(fs: FileMap, stuck: set<Path>, e: Episode)
    ensures DeleteEpisodeFiles(fs, stuck, e).bytes <= EpisodeBytes(e, fs)
    ensures (forall p :: Touches(e, p) ==> p !in stuck) ==> DeleteEpisodeFiles(fs, stuck, e).bytes == EpisodeBytes(e, fs)
  {
  }

  // ---------------------------------------------------------------------
  // The cleanup loop shared by the age, quota and failed policies
  // ---------------------------------------------------------------------

  /** Store, disk, rows deleted and bytes freed so far. */
  datatype Sweep = Sweep(db: Db, fs: FileMap, count: nat, bytes: nat)

  /** A finished loop, with the number of candidates it got through before stopping. */
  datatype Swept = Swept(s: Sweep, visited: nat)

  /** None of the first `n` candidates has the id `id`. */
  predicate Spared(cs: seq<Episode>, n: nat, id: int) {
    forall k :: 0 <= k < n && k < |cs| ==> cs[k].id != id
  }

  /** One of the first `n` candidates names the file `p`. */
  ghost predicate Named(cs: seq<Episode>, n: nat, p: Path) {
    exists k :: 0 <= k < n && k < |cs| && Touches(cs[k], p)
  }

  /**
   * One iteration: free the candidate's files, then `db.delete` its row
   * when `always` holds or when some bytes were freed.
   */
  function Visit(s: Sweep, stuck: set<Path>, c: Episode, always: bool): (t: Sweep)
    ensures SumMap(s.fs) + s.bytes == SumMap(t.fs) + t.bytes
    ensures t.db.podcasts == s.db.podcasts && t.db.history == s.db.history
    ensures t.count == s.count || t.count == s.count + 1
    ensures always ==> t.count == s.count + 1
    ensures t.count == s.count + 1 <==> always || DeleteEpisodeFiles(s.fs, stuck, c).bytes > 0
    ensures forall p :: Touches(c, p) && p != "" && p !in stuck ==> p !in t.fs
    ensures forall e {:trigger e in t.db.episodes} :: e in t.db.episodes <==> e in s.db.episodes && (t.count == s.count || e.id != c.id)
    ensures forall p {:trigger p in t.fs} :: p in t.fs ==> p in s.fs && t.fs[p] == s.fs[p]
    ensures forall p {:trigger p in t.fs} :: p in s.fs && p !in t.fs ==> p !in stuck && Touches(c, p)
    ensures !always && NoFiles(c, s.fs) ==> t == s
  {
    var f := DeleteEpisodeFiles(s.fs, stuck, c);
    if always || f.bytes > 0 then
      Sweep(s.db.(episodes := Delete(s.db.episodes, c.id)), f.fs, s.count + 1, s.bytes + f.bytes)
    else Sweep(s.db, f.fs, s.count, s.bytes)
  }

  /**
   * The skeleton of the loops of lines 131-136, 185-194 and 213-217: apply
   * `step` to each candidate in turn; with a `need` (in tenths of a byte)
   * stop before the next candidate once ten times the bytes freed reach it.
   */
  function Loop(step: (Sweep, Episode) -> Sweep, s: Sweep, cands: seq<Episode>, need: Option<int>): (w: Swept)
    ensures w.visited <= |cands|
    ensures need.None? ==> w.visited == |cands|
    ensures w.visited < |cands| ==> need.Some? && 10 * w.s.bytes >= need.value
    decreases |cands|
  {
    if cands == [] || (need.Some? && 10 * s.bytes >= need.value) then Swept(s, 0)
    else
      var w := Loop(step, step(s, cands[0]), cands[1..], need);
      Swept(w.s, w.visited + 1)
  }

  /** `Visit` as the step of a loop. */
  function Step(stuck: set<Path>, always: bool): (Sweep, Episode) -> Sweep {
    (s: Sweep, c: Episode) => Visit(s, stuck, c, always)
  }

  /** What every visit keeps, carried through the loop. */
  lemma {:induction false} LoopKeeps(s: Sweep, stuck: set<Path>, cands: seq<Episode>, always: bool, need: Option<int>)
    ensures var w := Loop(Step(stuck, always), s, cands, need);
      && SumMap(s.fs) + s.bytes == SumMap(w.s.fs) + w.s.bytes
      && w.s.db.podcasts == s.db.podcasts && w.s.db.history == s.db.history
      && s.count <= w.s.count <= s.count + w.visited
      && (always ==> w.s.count == s.count + w.visited)
    decreases |cands|
  {
    if cands != [] && !(need.Some? && 10 * s.bytes >= need.value) {
      var t := Visit(s, stuck, cands[0], always);
      assert Step(stuck, always)(s, cands[0]) == t;
      LoopKeeps(t, stuck, cands[1..], always, need);
    }
  }

  /**
   * The loop of lines 131-136, 185-194 and 213-217 over `cands`, visiting
   * each candidate. The bytes it reports are exactly what left the disk.
   */
  function Reclaim(s: Sweep, stuck: set<Path>, cands: seq<Episode>, always: bool, need: Option<int>): (w: Swept)
    ensures w.visited <= |cands|
    ensures need.None? ==> w.visited == |cands|
    ensures w.visited < |cands| ==> need.Some? && 10 * w.s.bytes >= need.value
    ensures SumMap(s.fs) + s.bytes == SumMap(w.s.fs) + w.s.bytes
    ensures w.s.db.podcasts == s.db.podcasts && w.s.db.history == s.db.history
    ensures s.count <= w.s.count <= s.count + w.visited
    ensures always ==> w.s.count == s.count + w.visited
  {
    LoopKeeps(s, stuck, cands, always, need);
    Loop(Step(stuck, always), s, cands, need)
  }

  /** One turn of the loop: visit the first candidate, then carry on with the rest. */
  lemma ReclaimStep(s: Sweep, stuck: set<Path>, cands: seq<Episode>, always: bool, need: Option<int>)
    requires cands != [] && !(need.Some? && 10 * s.bytes >= need.value)
    ensures var w := Reclaim(Visit(s, stuck, cands[0], always), stuck, cands[1..], always, need);
      Reclaim(s, stuck, cands, always, need) == Swept(w.s, w.visited + 1)
  {
  }

  /** What deleting a row's files frees depends only on those files. */
  lemma DeleteFrame(fs1: FileMap, fs2: FileMap, stuck: set<Path>, e: Episode)
    requires forall p :: p in FilesOf(e) ==> (p in fs1 <==> p in fs2) && (p in fs1 ==> fs1[p] == fs2[p])
    ensures DeleteEpisodeFiles(fs1, stuck, e).bytes == DeleteEpisodeFiles(fs2, stuck, e).bytes
  {
    if e.localPath.Some? {
      assert e.localPath.value in FilesOf(e);
    }
    if e.convertedPath.Some? {
      assert e.convertedPath.value in FilesOf(e);
    }
    DeleteAgrees(fs1, fs2, stuck, e);
  }

  /** `DeleteFrame` with its hypothesis spelled out for the two columns. */
  lemma DeleteAgrees(fs1: FileMap, fs2: FileMap, stuck: set<Path>, e: Episode)
    requires e.localPath.Some? ==> Same(fs1, fs2, e.localPath.value)
    requires e.convertedPath.Some? ==> Same(fs1, fs2, e.convertedPath.value)
    ensures DeleteEpisodeFiles(fs1, stuck, e).bytes == DeleteEpisodeFiles(fs2, stuck, e).bytes
  {
    var a1 := if Truthy(e.localPath) then Drop(fs1, stuck, e.localPath.value) else Freed(fs1, 0);
    var a2 := if Truthy(e.localPath) then Drop(fs2, stuck, e.localPath.value) else Freed(fs2, 0);
    if Truthy(e.localPath) {
      DropAgrees(fs1, fs2, stuck, e.localPath.value);
    }
    if Truthy(e.convertedPath) && e.convertedPath != e.localPath {
      var q := e.convertedPath.value;
      if Truthy(e.localPath) {
        DropElsewhere(fs1, stuck, e.localPath.value, q);
        DropElsewhere(fs2, stuck, e.localPath.value, q);
      }
      DropAgrees(a1.fs, a2.fs, stuck, q);
    }
  }

  /** The two maps agree on whether `p` is there and on its size. */
  predicate Same(fs1: FileMap, fs2: FileMap, p: Path) {
    (p in fs1 <==> p in fs2) && (p in fs1 ==> fs1[p] == fs2[p])
  }

  /** Unlinking one file leaves every other file as it was. */
  lemma DropElsewhere(fs: FileMap, stuck: set<Path>, p: Path, q: Path)
    requires q != p
    ensures (q in Drop(fs, stuck, p).fs <==> q in fs) && (q in fs ==> Drop(fs, stuck, p).fs[q] == fs[q])
  {
  }

  /** What unlinking one file frees depends only on that file. */
  lemma DropAgrees(fs1: FileMap, fs2: FileMap, stuck: set<Path>, p: Path)
    requires Same(fs1, fs2, p)
    ensures Drop(fs1, stuck, p).bytes == Drop(fs2, stuck, p).bytes
  {
  }

  /** Visiting one row leaves what another row with disjoint files would free unchanged. */
  lemma VisitFrame(s: Sweep, stuck: set<Path>, c: Episode, e: Episode, always: bool)
    requires FilesOf(c) !! FilesOf(e)
    ensures DeleteEpisodeFiles(s.fs, stuck, e).bytes == DeleteEpisodeFiles(Visit(s, stuck, c, always).fs, stuck, e).bytes
  {
    var t := Visit(s, stuck, c, always);
    forall p | p in FilesOf(e) ensures (p in s.fs <==> p in t.fs) && (p in s.fs ==> s.fs[p] == t.fs[p]) {
      assert p !in FilesOf(c);
    }
    DeleteFrame(s.fs, t.fs, stuck, e);
  }

  /** The candidates after the first still name disjoint files. */
  lemma OwnFilesTail(cands: seq<Episode>)
    requires OwnFiles(cands) && cands != []
    ensures OwnFiles(cands[1..])
  {
    forall i, j | 0 <= i < j < |cands[1..]| ensures FilesOf(cands[1..][i]) !! FilesOf(cands[1..][j]) {
      assert cands[1..][i] == cands[i + 1] && cands[1..][j] == cands[j + 1];
    }
  }

  /**
   * Lines 131-136 and 185-194: a visited candidate whose files free some
   * bytes when the loop starts (any visited candidate when deletion is
   * forced) has no row left afterwards, when no two candidates name the
   * same file.
   */
  lemma {:induction false} ReclaimDeletes(s: Sweep, stuck: set<Path>, cands: seq<Episode>, always: bool, need: Option<int>, k: nat)
    requires OwnFiles(cands)
    requires k < Reclaim(s, stuck, cands, always, need).visited
    requires always || DeleteEpisodeFiles(s.fs, stuck, cands[k]).bytes > 0
    ensures forall e :: e in Reclaim(s, stuck, cands, always, need).s.db.episodes ==> e.id != cands[k].id
    decreases |cands|, 1
  {
    assert cands != [] && !(need.Some? && 10 * s.bytes >= need.value);
    if k == 0 {
      ReclaimDeletesFirst(s, stuck, cands, always, need);
    } else {
      ReclaimDeletesLater(s, stuck, cands, always, need, k);
    }
  }

  /** A later candidate: what it frees is unchanged by the first visit, so the rest of the loop deletes it. */
  lemma {:induction false} ReclaimDeletesLater(s: Sweep, stuck: set<Path>, cands: seq<Episode>, always: bool, need: Option<int>, k: nat)
    requires OwnFiles(cands) && 0 < k < |cands| && !(need.Some? && 10 * s.bytes >= need.value)
    requires k < Reclaim(s, stuck, cands, always, need).visited
    requires always || DeleteEpisodeFiles(s.fs, stuck, cands[k]).bytes > 0
    ensures forall e :: e in Reclaim(s, stuck, cands, always, need).s.db.episodes ==> e.id != cands[k].id
    decreases |cands|, 0
  {
    ReclaimStep(s, stuck, cands, always, need);
    var t := Visit(s, stuck, cands[0], always);
    VisitFrame(s, stuck, cands[0], cands[k], always);
    OwnFilesTail(cands);
    assert cands[1..][k - 1] == cands[k];
    ReclaimDeletes(t, stuck, cands[1..], always, need, k - 1);
  }

  /** The first candidate, once visited, is deleted when it frees bytes or deletion is forced. */
  lemma ReclaimDeletesFirst(s: Sweep, stuck: set<Path>, cands: seq<Episode>, always: bool, need: Option<int>)
    requires cands != [] && !(need.Some? && 10 * s.bytes >= need.value)
    requires always || DeleteEpisodeFiles(s.fs, stuck, cands[0]).bytes > 0
    ensures forall e :: e in Reclaim(s, stuck, cands, always, need).s.db.episodes ==> e.id != cands[0].id
  {
    ReclaimStep(s, stuck, cands, always, need);
    ReclaimShrinks(Visit(s, stuck, cands[0], always), stuck, cands[1..], always, need);
  }

  /** Every file a visited candidate names (non-empty, with an unlink that goes through) is gone afterwards. */
  lemma {:induction false} ReclaimUnlinks(s: Sweep, stuck: set<Path>, cands: seq<Episode>, always: bool, need: Option<int>, k: nat, p: Path)
    requires k < Reclaim(s, stuck, cands, always, need).visited
    requires Touches(cands[k], p) && p != "" && p !in stuck
    ensures p !in Reclaim(s, stuck, cands, always, need).s.fs
    decreases |cands|, 1
  {
    assert cands != [] && !(need.Some? && 10 * s.bytes >= need.value);
    if k == 0 {
      ReclaimStep(s, stuck, cands, always, need);
      ReclaimKeepsSizes(Visit(s, stuck, cands[0], always), stuck, cands[1..], always, need);
    } else {
      ReclaimUnlinksLater(s, stuck, cands, always, need, k, p);
    }
  }

  lemma {:induction false} ReclaimUnlinksLater(s: Sweep, stuck: set<Path>, cands: seq<Episode>, always: bool, need: Option<int>, k: nat, p: Path)
    requires 0 < k < |cands| && !(need.Some? && 10 * s.bytes >= need.value)
    requires k < Reclaim(s, stuck, cands, always, need).visited
    requires Touches(cands[k], p) && p != "" && p !in stuck
    ensures p !in Reclaim(s, stuck, cands, always, need).s.fs
    decreases |cands|, 0
  {
    ReclaimStep(s, stuck, cands, always, need);
    assert cands[1..][k - 1] == cands[k];
    ReclaimUnlinks(Visit(s, stuck, cands[0], always), stuck, cands[1..], always, need, k - 1, p);
  }

  /** Rows only disappear. */
  lemma {:induction false} ReclaimShrinks(s: Sweep, stuck: set<Path>, cands: seq<Episode>, always: bool, need: Option<int>)
    ensures forall e :: e in Reclaim(s, stuck, cands, always, need).s.db.episodes ==> e in s.db.episodes
    decreases |cands|
  {
    if cands != [] && !(need.Some? && 10 * s.bytes >= need.value) {
      ReclaimStep(s, stuck, cands, always, need);
      ReclaimShrinks(Visit(s, stuck, cands[0], always), stuck, cands[1..], always, need);
    }
  }

  /** A row survives unless a visited candidate shares its id. */
  lemma {:induction false} ReclaimSpares(s: Sweep, stuck: set<Path>, cands: seq<Episode>, always: bool, need: Option<int>, e: Episode)
    requires e in s.db.episodes
    requires Spared(cands, Reclaim(s, stuck, cands, always, need).visited, e.id)
    ensures e in Reclaim(s, stuck, cands, always, need).s.db.episodes
    decreases |cands|
  {
    if cands != [] && !(need.Some? && 10 * s.bytes >= need.value) {
      var t := Visit(s, stuck, cands[0], always);
      var v := Reclaim(t, stuck, cands[1..], always, need).visited;
      assert cands[0].id != e.id;
      assert Spared(cands[1..], v, e.id) by {
        forall k | 0 <= k < v && k < |cands[1..]| ensures cands[1..][k].id != e.id {
          assert cands[1..][k] == cands[k + 1];
        }
      }
      assert e in t.db.episodes;
      ReclaimSpares(t, stuck, cands[1..], always, need, e);
    }
  }

  /** When every visited candidate is deleted, no row with a visited candidate's id is left. */
  lemma {:induction false} ReclaimClears(s: Sweep, stuck: set<Path>, cands: seq<Episode>, need: Option<int>, e: Episode)
    requires e in Reclaim(s, stuck, cands, true, need).s.db.episodes
    ensures Spared(cands, Reclaim(s, stuck, cands, true, need).visited, e.id)
    decreases |cands|
  {
    if cands != [] && !(need.Some? && 10 * s.bytes >= need.value) {
      var t := Visit(s, stuck, cands[0], true);
      var v := Reclaim(t, stuck, cands[1..], true, need).visited;
      ReclaimStep(s, stuck, cands, true, need);
      ReclaimClears(t, stuck, cands[1..], need, e);
      ReclaimShrinks(t, stuck, cands[1..], true, need);
      assert e in t.db.episodes;
      assert cands[0].id != e.id;
      forall k | 0 <= k < v + 1 && k < |cands| ensures cands[k].id != e.id {
        if k > 0 { assert cands[k] == cands[1..][k - 1]; }
      }
    }
  }

  /** Files only disappear when a visited candidate names them and their unlink went through; the rest keep their sizes. */
  lemma ReclaimFiles(s: Sweep, stuck: set<Path>, cands: seq<Episode>, always: bool, need: Option<int>)
    ensures var w := Reclaim(s, stuck, cands, always, need);
      && (forall p :: p in w.s.fs ==> p in s.fs && w.s.fs[p] == s.fs[p])
      && (forall p :: p in s.fs && p !in w.s.fs ==> p !in stuck && Named(cands, w.visited, p))
  {
    ReclaimKeepsSizes(s, stuck, cands, always, need);
    ReclaimNamed(s, stuck, cands, always, need);
  }

  /** The files left keep their sizes. */
  lemma {:induction false} ReclaimKeepsSizes(s: Sweep, stuck: set<Path>, cands: seq<Episode>, always: bool, need: Option<int>)
    ensures var w := Reclaim(s, stuck, cands, always, need);
      forall p :: p in w.s.fs ==> p in s.fs && w.s.fs[p] == s.fs[p]
    decreases |cands|
  {
    if cands != [] && !(need.Some? && 10 * s.bytes >= need.value) {
      var t := Visit(s, stuck, cands[0], always);
      ReclaimKeepsSizes(t, stuck, cands[1..], always, need);
      var w := Reclaim(t, stuck, cands[1..], always, need);
      ReclaimStep(s, stuck, cands, always, need);
      forall p | p in w.s.fs ensures p in s.fs && w.s.fs[p] == s.fs[p] {
        assert p in t.fs;
      }
    }
  }

  /** A file that went was named by a visited candidate and its unlink went through. */
  lemma {:induction false} ReclaimNamed(s: Sweep, stuck: set<Path>, cands: seq<Episode>, always: bool, need: Option<int>)
    ensures var w := Reclaim(s, stuck, cands, always, need);
      forall p :: p in s.fs && p !in w.s.fs ==> p !in stuck && Named(cands, w.visited, p)
    decreases |cands|
  {
    if cands != [] && !(need.Some? && 10 * s.bytes >= need.value) {
      var t := Visit(s, stuck, cands[0], always);
      ReclaimNamed(t, stuck, cands[1..], always, need);
      ReclaimKeepsSizes(t, stuck, cands[1..], always, need);
      var w := Reclaim(t, stuck, cands[1..], always, need);
      ReclaimStep(s, stuck, cands, always, need);
      forall p | p in s.fs && p !in w.s.fs ensures p !in stuck && Named(cands, w.visited + 1, p) {
        if p !in t.fs {
          assert Touches(cands[0], p);
        } else {
          var k :| 0 <= k < w.visited && k < |cands[1..]| && Touches(cands[1..][k], p);
          assert cands[k + 1] == cands[1..][k];
        }
      }
    }
  }

  /** A row none of whose files is on disk survives a loop that deletes only rows that freed bytes. */
  lemma {:induction false} ReclaimKeepsFileless(s: Sweep, stuck: set<Path>, cands: seq<Episode>, need: Option<int>, e: Episode)
    requires e in s.db.episodes
    requires forall k :: 0 <= k < |cands| && cands[k].id == e.id ==> NoFiles(cands[k], s.fs)
    ensures e in Reclaim(s, stuck, cands, false, need).s.db.episodes
    decreases |cands|
  {
    if cands != [] && !(need.Some? && 10 * s.bytes >= need.value) {
      var t := Visit(s, stuck, cands[0], false);
      if cands[0].id == e.id {
        assert NoFiles(cands[0], s.fs);
      }
      assert e in t.db.episodes;
      forall k | 0 <= k < |cands[1..]| && cands[1..][k].id == e.id ensures NoFiles(cands[1..][k], t.fs) {
        assert NoFiles(cands[k + 1], s.fs);
      }
      ReclaimKeepsFileless(t, stuck, cands[1..], need, e);
    }
  }

  /** A stopping loop ends where the plain loop over the candidates it visited ends. */
  lemma {:induction false} LoopPrefix(step: (Sweep, Episode) -> Sweep, s: Sweep, cands: seq<Episode>, need: int)
    ensures var w := Loop(step, s, cands, Some(need));
      Loop(step, s, cands[..w.visited], None) == w
    decreases |cands|
  {
    var w := Loop(step, s, cands, Some(need));
    if cands != [] && 10 * s.bytes < need {
      var t := step(s, cands[0]);
      LoopPrefix(step, t, cands[1..], need);
      var v := Loop(step, t, cands[1..], Some(need)).visited;
      assert cands[..w.visited][1..] == cands[1..][..v];
    } else {
      assert cands[..w.visited] == [];
    }
  }

  lemma ReclaimPrefix(s: Sweep, stuck: set<Path>, cands: seq<Episode>, always: bool, need: int)
    ensures var w := Reclaim(s, stuck, cands, always, Some(need));
      Reclaim(s, stuck, cands[..w.visited], always, None) == w
  {
    LoopPrefix(Step(stuck, always), s, cands, need);
  }

  /** The loop does not stop early: every shorter run of it had freed less than the need. */
  lemma {:induction false} LoopMinimal(step: (Sweep, Episode) -> Sweep, s: Sweep, cands: seq<Episode>, need: int, k: nat)
    requires k < Loop(step, s, cands, Some(need)).visited
    ensures 10 * Loop(step, s, cands[..k], None).s.bytes < need
    decreases |cands|
  {
    var pre := cands[..k];
    if k == 0 {
      assert pre == [];
    } else {
      var t := step(s, cands[0]);
      LoopMinimal(step, t, cands[1..], need, k - 1);
      assert pre[0] == cands[0] && pre[1..] == cands[1..][..k - 1];
    }
  }

  lemma ReclaimMinimal(s: Sweep, stuck: set<Path>, cands: seq<Episode>, always: bool, need: int, k: nat)
    requires k < Reclaim(s, stuck, cands, always, Some(need)).visited
    ensures 10 * Reclaim(s, stuck, cands[..k], always, None).s.bytes < need
  {
    LoopMinimal(Step(stuck, always), s, cands, need, k);
  }

  // ---------------------------------------------------------------------
  // cleanup_old_episodes
  // ---------------------------------------------------------------------

  /** Lines 119-124: created before the cutoff, and unsynced when synced rows are kept. */
  predicate IsOld(cutoff: int, keepSynced: bool, e: Episode) {
    e.createdAt < cutoff && (!keepSynced || !e.synced)
  }

  function OldRows(cutoff: int, keepSynced: bool): Episode -> bool {
    e => IsOld(cutoff, keepSynced, e)
  }

  /** `utcnow() - timedelta(days=days_old)`, in seconds. */
  function Cutoff(now: int, daysOld: int): int {
    now - daysOld * DaySeconds
  }

  /**
   * `cleanup_old_episodes`: free the files of every old row and delete
   * the rows that freed something. The bytes returned are what left the
   * disk; only candidate files go; rows are only removed.
   */
  function CleanupOldEpisodes(db: Db, fs: FileMap, stuck: set<Path>, now: int, daysOld: int, keepSynced: bool): (r: Sweep)
    ensures SumMap(fs) == SumMap(r.fs) + r.bytes
    ensures r.count <= Count(db.episodes, OldRows(Cutoff(now, daysOld), keepSynced))
    ensures r.db.podcasts == db.podcasts && r.db.history == db.history
    ensures forall e :: e in r.db.episodes ==> e in db.episodes
    ensures forall p :: p in r.fs ==> p in fs && r.fs[p] == fs[p]
    ensures forall p :: p in fs && p !in r.fs ==>
      p !in stuck && exists e :: e in db.episodes && IsOld(Cutoff(now, daysOld), keepSynced, e) && Touches(e, p)
  {
    var cands := Filter(db.episodes, OldRows(Cutoff(now, daysOld), keepSynced));
    ReclaimShrinks(Sweep(db, fs, 0, 0), stuck, cands, false, None);
    ReclaimFiles(Sweep(db, fs, 0, 0), stuck, cands, false, None);
    var w := Reclaim(Sweep(db, fs, 0, 0), stuck, cands, false, None);
    assert forall p :: p in fs && p !in w.s.fs ==> exists e :: e in db.episodes && IsOld(Cutoff(now, daysOld), keepSynced, e) && Touches(e, p) by {
      forall p | p in fs && p !in w.s.fs
        ensures exists e :: e in db.episodes && IsOld(Cutoff(now, daysOld), keepSynced, e) && Touches(e, p)
      {
        var k :| 0 <= k < w.visited && k < |cands| && Touches(cands[k], p);
        assert cands[k] in cands;
      }
    }
    w.s
  }

  /** A row that is not old enough, or synced while synced rows are kept, survives. */
  lemma AgeSparesRecent(db: Db, fs: FileMap, stuck: set<Path>, now: int, daysOld: int, keepSynced: bool, e: Episode)
    requires UniqueIds(db.episodes)
    requires e in db.episodes && !IsOld(Cutoff(now, daysOld), keepSynced, e)
    ensures e in CleanupOldEpisodes(db, fs, stuck, now, daysOld, keepSynced).db.episodes
  {
    var cands := Filter(db.episodes, OldRows(Cutoff(now, daysOld), keepSynced));
    var w := Reclaim(Sweep(db, fs, 0, 0), stuck, cands, false, None);
    forall k | 0 <= k < w.visited && k < |cands| ensures cands[k].id != e.id {
      assert cands[k] in cands;
      assert cands[k] in db.episodes;
    }
    ReclaimSpares(Sweep(db, fs, 0, 0), stuck, cands, false, None, e);
  }

  /**
   * Lines 121-131: an old row whose files free some bytes is deleted, when
   * no two rows name the same file.
   */
  lemma AgeDeletesFreeing(db: Db, fs: FileMap, stuck: set<Path>, now: int, daysOld: int, keepSynced: bool, e: Episode)
    requires UniqueIds(db.episodes) && OwnFiles(db.episodes)
    requires e in db.episodes && IsOld(Cutoff(now, daysOld), keepSynced, e)
    requires DeleteEpisodeFiles(fs, stuck, e).bytes > 0
    ensures forall x :: x in CleanupOldEpisodes(db, fs, stuck, now, daysOld, keepSynced).db.episodes ==> x.id != e.id
  {
    var cands := Filter(db.episodes, OldRows(Cutoff(now, daysOld), keepSynced));
    var j :| 0 <= j < |db.episodes| && db.episodes[j] == e;
    var k := FilterPlace(db.episodes, OldRows(Cutoff(now, daysOld), keepSynced), j);
    UniqueDistinct(db.episodes);
    FilterDistinct(db.episodes, OldRows(Cutoff(now, daysOld), keepSynced), RowId);
    FromFilter(cands, db.episodes, OldRows(Cutoff(now, daysOld), keepSynced));
    OwnFilesOfRows(db.episodes, cands);
    ReclaimDeletes(Sweep(db, fs, 0, 0), stuck, cands, false, None, k);
  }

  /** Every non-empty file an old row names is gone afterwards unless its unlink raises. */
  lemma AgeUnlinksOld(db: Db, fs: FileMap, stuck: set<Path>, now: int, daysOld: int, keepSynced: bool, e: Episode, p: Path)
    requires e in db.episodes && IsOld(Cutoff(now, daysOld), keepSynced, e)
    requires Touches(e, p) && p != "" && p !in stuck
    ensures p !in CleanupOldEpisodes(db, fs, stuck, now, daysOld, keepSynced).fs
  {
    var cands := Filter(db.episodes, OldRows(Cutoff(now, daysOld), keepSynced));
    var j :| 0 <= j < |db.episodes| && db.episodes[j] == e;
    var k := FilterPlace(db.episodes, OldRows(Cutoff(now, daysOld), keepSynced), j);
    ReclaimUnlinks(Sweep(db, fs, 0, 0), stuck, cands, false, None, k, p);
  }

  /** An old row whose files are already gone is kept: it frees no bytes. */
  lemma AgeKeepsFileless(db: Db, fs: FileMap, stuck: set<Path>, now: int, daysOld: int, keepSynced: bool, e: Episode)
    requires UniqueIds(db.episodes)
    requires e in db.episodes && NoFiles(e, fs)
    ensures e in CleanupOldEpisodes(db, fs, stuck, now, daysOld, keepSynced).db.episodes
  {
    var cands := Filter(db.episodes, OldRows(Cutoff(now, daysOld), keepSynced));
    forall k | 0 <= k < |cands| && cands[k].id == e.id ensures NoFiles(cands[k], fs) {
      assert cands[k] in cands;
      assert cands[k] in db.episodes;
    }
    ReclaimKeepsFileless(Sweep(db, fs, 0, 0), stuck, cands, None, e);
  }

  // ---------------------------------------------------------------------
  // cleanup_by_storage_limit
  // ---------------------------------------------------------------------

  /** Lines 171-174: a download path is set (SQL `IS NOT NULL`), and unsynced when synced rows are kept. */
  predicate IsQuotaCandidate(keepSynced: bool, e: Episode) {
    e.localPath.Some? && (!keepSynced || !e.synced)
  }

  function QuotaRows(keepSynced: bool): Episode -> bool {
    e => IsQuotaCandidate(keepSynced, e)
  }

  function CreatedAt(e: Episode): int {
    e.createdAt
  }

  /** Lines 171-179: the candidates, oldest first. */
  function QuotaCandidates(db: Db, keepSynced: bool): (cs: seq<Episode>)
    ensures SortedBy(cs, CreatedAt)
    ensures forall i :: 0 <= i < |cs| ==> cs[i] in db.episodes && IsQuotaCandidate(keepSynced, cs[i])
  {
    var cs := SortBy(Filter(db.episodes, QuotaRows(keepSynced)), CreatedAt);
    FromFilter(cs, db.episodes, QuotaRows(keepSynced));
    cs
  }

  /**
   * Lines 168-169 and 186 in tenths of a byte: the loop stops once
   * `freed >= current - 0.9 * limit`, i.e. `10 * freed >= QuotaNeed`.
   */
  function QuotaNeed(current: nat, maxMb: int): int {
    10 * current - 9 * maxMb * MiB
  }

  /**
   * `cleanup_by_storage_limit`, where `current` is the byte total of both
   * cache directories. Under the limit nothing happens; over it, the
   * oldest candidates are visited until enough is freed or none are left.
   */
  function CleanupByStorageLimit(db: Db, fs: FileMap, stuck: set<Path>, current: nat, maxMb: int, keepSynced: bool): (r: Swept)
    ensures current <= maxMb * MiB ==> r == Swept(Sweep(db, fs, 0, 0), 0)
    ensures current > maxMb * MiB ==> r.visited <= |QuotaCandidates(db, keepSynced)|
    ensures current > maxMb * MiB && r.visited < |QuotaCandidates(db, keepSynced)| ==> 10 * r.s.bytes >= QuotaNeed(current, maxMb)
    ensures SumMap(fs) == SumMap(r.s.fs) + r.s.bytes
    ensures r.s.count <= r.visited
    ensures forall e :: e in r.s.db.episodes ==> e in db.episodes
  {
    if current <= maxMb * MiB then Swept(Sweep(db, fs, 0, 0), 0)
    else
      ReclaimShrinks(Sweep(db, fs, 0, 0), stuck, QuotaCandidates(db, keepSynced), false, Some(QuotaNeed(current, maxMb)));
      Reclaim(Sweep(db, fs, 0, 0), stuck, QuotaCandidates(db, keepSynced), false, Some(QuotaNeed(current, maxMb)))
  }

  /** Over the limit, the loop does not stop before it has freed enough. */
  lemma QuotaMinimal(db: Db, fs: FileMap, stuck: set<Path>, current: nat, maxMb: int, keepSynced: bool, k: nat)
    requires current > maxMb * MiB
    requires k < CleanupByStorageLimit(db, fs, stuck, current, maxMb, keepSynced).visited
    ensures 10 * Reclaim(Sweep(db, fs, 0, 0), stuck, QuotaCandidates(db, keepSynced)[..k], false, None).s.bytes
      < QuotaNeed(current, maxMb)
  {
    ReclaimMinimal(Sweep(db, fs, 0, 0), stuck, QuotaCandidates(db, keepSynced), false, QuotaNeed(current, maxMb), k);
  }

  /**
   * Lines 185-194: a visited candidate whose files free some bytes is
   * deleted, when no two rows name the same file.
   */
  lemma QuotaDeletesFreeing(db: Db, fs: FileMap, stuck: set<Path>, current: nat, maxMb: int, keepSynced: bool, k: nat)
    requires UniqueIds(db.episodes) && OwnFiles(db.episodes)
    requires k < CleanupByStorageLimit(db, fs, stuck, current, maxMb, keepSynced).visited
    requires DeleteEpisodeFiles(fs, stuck, QuotaCandidates(db, keepSynced)[k]).bytes > 0
    ensures forall x :: x in CleanupByStorageLimit(db, fs, stuck, current, maxMb, keepSynced).s.db.episodes ==>
      x.id != QuotaCandidates(db, keepSynced)[k].id
  {
    var cs := QuotaCandidates(db, keepSynced);
    assert current > maxMb * MiB;
    UniqueDistinct(db.episodes);
    FilterDistinct(db.episodes, QuotaRows(keepSynced), RowId);
    SortDistinct(Filter(db.episodes, QuotaRows(keepSynced)), CreatedAt, RowId);
    OwnFilesOfRows(db.episodes, cs);
    ReclaimDeletes(Sweep(db, fs, 0, 0), stuck, cs, false, Some(QuotaNeed(current, maxMb)), k);
  }

  /** Every non-empty file a visited candidate names is gone afterwards unless its unlink raises. */
  lemma QuotaUnlinksVisited(db: Db, fs: FileMap, stuck: set<Path>, current: nat, maxMb: int, keepSynced: bool, k: nat, p: Path)
    requires k < CleanupByStorageLimit(db, fs, stuck, current, maxMb, keepSynced).visited
    requires Touches(QuotaCandidates(db, keepSynced)[k], p) && p != "" && p !in stuck
    ensures p !in CleanupByStorageLimit(db, fs, stuck, current, maxMb, keepSynced).s.fs
  {
    assert current > maxMb * MiB;
    ReclaimUnlinks(Sweep(db, fs, 0, 0), stuck, QuotaCandidates(db, keepSynced), false, Some(QuotaNeed(current, maxMb)), k, p);
  }

  /**
   * Oldest first: when a row is deleted, every candidate created strictly
   * earlier was visited before the loop stopped.
   */
  lemma QuotaOldestFirst(db: Db, fs: FileMap, stuck: set<Path>, current: nat, maxMb: int, keepSynced: bool, x: Episode, j: nat)
    requires UniqueIds(db.episodes) && x in db.episodes
    requires x !in CleanupByStorageLimit(db, fs, stuck, current, maxMb, keepSynced).s.db.episodes
    requires j < |QuotaCandidates(db, keepSynced)| && QuotaCandidates(db, keepSynced)[j].createdAt < x.createdAt
    ensures j < CleanupByStorageLimit(db, fs, stuck, current, maxMb, keepSynced).visited
  {
    var cs := QuotaCandidates(db, keepSynced);
    var w := CleanupByStorageLimit(db, fs, stuck, current, maxMb, keepSynced);
    assert current > maxMb * MiB;
    if Spared(cs, w.visited, x.id) {
      ReclaimSpares(Sweep(db, fs, 0, 0), stuck, cs, false, Some(QuotaNeed(current, maxMb)), x);
    }
    var k :| 0 <= k < w.visited && k < |cs| && cs[k].id == x.id;
    SameIdSameRow(db.episodes, cs[k], x);
  }

  // ---------------------------------------------------------------------
  // cleanup_failed_downloads
  // ---------------------------------------------------------------------

  predicate IsFailed(e: Episode) {
    e.status == Failed
  }

  /**
   * `cleanup_failed_downloads`: every `failed` row is deleted, whatever
   * its files freed, and counted; what it frees is what left the disk.
   */
  function CleanupFailedDownloads(db: Db, fs: FileMap, stuck: set<Path>): (r: Sweep)
    ensures r.count == Count(db.episodes, IsFailed)
    ensures SumMap(fs) == SumMap(r.fs) + r.bytes
    ensures r.db.podcasts == db.podcasts && r.db.history == db.history
    ensures forall e :: e in r.db.episodes ==> e in db.episodes && e.status != Failed
  {
    var cands := Filter(db.episodes, IsFailed);
    var w := Reclaim(Sweep(db, fs, 0, 0), stuck, cands, true, None);
    ReclaimShrinks(Sweep(db, fs, 0, 0), stuck, cands, true, None);
    assert forall e :: e in w.s.db.episodes ==> e.status != Failed by {
      forall e | e in w.s.db.episodes ensures e.status != Failed {
        ReclaimClears(Sweep(db, fs, 0, 0), stuck, cands, None, e);
        SparedNotIn(cands, e);
      }
    }
    w.s
  }

  lemma SparedNotIn(cs: seq<Episode>, e: Episode)
    requires Spared(cs, |cs|, e.id)
    ensures e !in cs
  {
  }

  /** Under unique ids, every row that has not failed survives the failed cleanup. */
  lemma FailedSparesOthers(db: Db, fs: FileMap, stuck: set<Path>, e: Episode)
    requires UniqueIds(db.episodes)
    requires e in db.episodes && e.status != Failed
    ensures e in CleanupFailedDownloads(db, fs, stuck).db.episodes
  {
    var cands := Filter(db.episodes, IsFailed);
    var w := Reclaim(Sweep(db, fs, 0, 0), stuck, cands, true, None);
    forall k | 0 <= k < w.visited && k < |cands| ensures cands[k].id != e.id {
      assert cands[k] in cands;
      assert cands[k] in db.episodes;
    }
    ReclaimSpares(Sweep(db, fs, 0, 0), stuck, cands, true, None, e);
  }

  // ---------------------------------------------------------------------
  // cleanup_orphaned_files
  // ---------------------------------------------------------------------

  /** The resolved paths a row names (lines 235-238). */
  function RowRefs(e: Episode, canon: Path -> Path): set<Path> {
    (if Truthy(e.localPath) then {canon(e.localPath.value)} else {})
    + (if Truthy(e.convertedPath) then {canon(e.convertedPath.value)} else {})
  }

  /** Lines 232-238: every resolved path some row names. */
  function Referenced(eps: seq<Episode>, canon: Path -> Path): (r: set<Path>)
    ensures forall i :: 0 <= i < |eps| ==> RowRefs(eps[i], canon) <= r
    ensures forall q :: q in r ==> exists i :: 0 <= i < |eps| && q in RowRefs(eps[i], canon)
  {
    if eps == [] then {}
    else
      var rest := Referenced(eps[1..], canon);
      assert forall q :: q in rest ==> exists i :: 0 <= i < |eps| && q in RowRefs(eps[i], canon) by {
        forall q | q in rest ensures exists i :: 0 <= i < |eps| && q in RowRefs(eps[i], canon) {
          var i :| 0 <= i < |eps[1..]| && q in RowRefs(eps[1..][i], canon);
          assert eps[i + 1] == eps[1..][i];
        }
      }
      RowRefs(eps[0], canon) + rest
  }

  /** A file the scan removes: on disk, not referenced once resolved. */
  predicate Orphan(fs: FileMap, keep: set<Path>, canon: Path -> Path, p: Path) {
    p in fs && canon(p) !in keep
  }

  /** How far the orphan scan got: disk, files deleted, bytes freed, and the file whose stat or unlink raised. */
  datatype Scan = Scan(fs: FileMap, count: nat, bytes: nat, raised: Option<Path>)

  /** Lines 246-259 for one listed file: unlink it when it is an orphan; an unlink that raises stops the scan. */
  function ScanOne(s: Scan, stuck: set<Path>, keep: set<Path>, canon: Path -> Path, p: Path): (t: Scan)
    requires s.raised.None?
    ensures SumMap(s.fs) + s.bytes == SumMap(t.fs) + t.bytes
    ensures s.count + |s.fs| == t.count + |t.fs|
    ensures forall q :: q in t.fs ==> q in s.fs && t.fs[q] == s.fs[q]
    ensures forall q :: q in s.fs && q !in t.fs ==> q == p && canon(p) !in keep && p !in stuck
    ensures t.raised.Some? ==> t.raised.value in stuck
    ensures t.raised.None? ==> !Orphan(t.fs, keep, canon, p)
    ensures !Orphan(s.fs, keep, canon, p) ==> t == s
  {
    if !Orphan(s.fs, keep, canon, p) then s
    else if p in stuck then s.(raised := Some(p))
    else
      SumRemove(s.fs, p);
      CardRemove(s.fs, p);
      Scan(s.fs - {p}, s.count + 1, s.bytes + s.fs[p], None)
  }

  /**
   * Lines 244-261 over one directory listing: unlink every orphan. The
   * unlink is not guarded, so the first one that raises ends the scan
   * and the whole call.
   */
  function ScanFiles(s: Scan, stuck: set<Path>, keep: set<Path>, canon: Path -> Path, listing: seq<Path>): (r: Scan)
    ensures SumMap(s.fs) + s.bytes == SumMap(r.fs) + r.bytes
    ensures s.count + |s.fs| == r.count + |r.fs|
    ensures forall p :: p in r.fs ==> p in s.fs && r.fs[p] == s.fs[p]
    ensures forall p :: p in s.fs && p !in r.fs ==> canon(p) !in keep && p !in stuck && !Absent(listing, p)
    ensures s.raised.Some? ==> r == s
    ensures r.raised.Some? ==> s.raised.Some? || r.raised.value in stuck
    decreases |listing|
  {
    if s.raised.Some? || listing == [] then s
    else
      var rest := listing[1..];
      var t := ScanOne(s, stuck, keep, canon, listing[0]);
      var r := ScanFiles(t, stuck, keep, canon, rest);
      assert forall q :: q in s.fs && q !in r.fs ==> canon(q) !in keep && q !in stuck && !Absent(listing, q) by {
        forall q | q in s.fs && q !in r.fs ensures canon(q) !in keep && q !in stuck && !Absent(listing, q) {
          if q in t.fs {
            var k :| 0 <= k < |rest| && rest[k] == q;
            assert listing[k + 1] == q;
          } else {
            assert listing[0] == q;
          }
        }
      }
      r
  }

  /** A scan that ran to the end leaves no orphan among the files it listed. */
  lemma {:induction false} ScanLeavesNoOrphans(s: Scan, stuck: set<Path>, keep: set<Path>, canon: Path -> Path, listing: seq<Path>)
    requires s.raised.None?
    ensures var r := ScanFiles(s, stuck, keep, canon, listing);
      r.raised.None? ==> forall k :: 0 <= k < |listing| ==> !Orphan(r.fs, keep, canon, listing[k])
    decreases |listing|
  {
    if listing != [] {
      var rest := listing[1..];
      var t := ScanOne(s, stuck, keep, canon, listing[0]);
      var r := ScanFiles(t, stuck, keep, canon, rest);
      assert ScanFiles(s, stuck, keep, canon, listing) == r;
      if r.raised.None? {
        assert t.raised.None?;
        ScanLeavesNoOrphans(t, stuck, keep, canon, rest);
        forall k | 0 <= k < |listing| ensures !Orphan(r.fs, keep, canon, listing[k]) {
          if k > 0 {
            assert listing[k] == rest[k - 1];
          }
        }
      }
    }
  }

  /** Every file below `dir`: what `dir.rglob("*")` filtered by `is_file()` yields. */
  function InDir(dir: Path): Path -> bool {
    p => Under(p, dir)
  }

  /**
   * `cleanup_orphaned_files`. `canon` is `Path.resolve`; the listings are
   * the two `rglob` enumerations, taken when the call starts. The count
   * and bytes are what left the disk; an error names a file whose unlink
   * raised.
   */
  function CleanupOrphanedFiles(db: Db, fs: FileMap, stuck: set<Path>, canon: Path -> Path,
                                episodesDir: Path, convertedDir: Path,
                                episodesListing: seq<Path>, convertedListing: seq<Path>): (r: Scan)
    ensures SumMap(fs) == SumMap(r.fs) + r.bytes
    ensures r.count == |fs| - |r.fs|
    ensures forall p :: p in r.fs ==> p in fs && r.fs[p] == fs[p]
    ensures r.raised.Some? ==> r.raised.value in stuck
  {
    var keep := Referenced(db.episodes, canon);
    var a := ScanFiles(Scan(fs, 0, 0, None), stuck, keep, canon, episodesListing);
    ScanFiles(a, stuck, keep, canon, convertedListing)
  }

  /** Only orphans go: a removed file was below one of the two directories, and no row references it once resolved. */
  lemma OrphansOnly(db: Db, fs: FileMap, stuck: set<Path>, canon: Path -> Path,
                    episodesDir: Path, convertedDir: Path,
                    episodesListing: seq<Path>, convertedListing: seq<Path>, p: Path)
    requires Lists(episodesListing, Only(fs, InDir(episodesDir)))
    requires Lists(convertedListing, Only(fs, InDir(convertedDir)))
    requires p in fs && p !in CleanupOrphanedFiles(db, fs, stuck, canon, episodesDir, convertedDir, episodesListing, convertedListing).fs
    ensures canon(p) !in Referenced(db.episodes, canon) && p !in stuck
    ensures Under(p, episodesDir) || Under(p, convertedDir)
  {
    var keep := Referenced(db.episodes, canon);
    var a := ScanFiles(Scan(fs, 0, 0, None), stuck, keep, canon, episodesListing);
    if p !in a.fs {
      var k :| 0 <= k < |episodesListing| && episodesListing[k] == p;
      assert p in Only(fs, InDir(episodesDir));
    } else {
      var k :| 0 <= k < |convertedListing| && convertedListing[k] == p;
      assert p in Only(fs, InDir(convertedDir));
    }
  }

  /** On a clean run every orphan below either directory is gone. */
  lemma OrphansAllGone(db: Db, fs: FileMap, stuck: set<Path>, canon: Path -> Path,
                       episodesDir: Path, convertedDir: Path,
                       episodesListing: seq<Path>, convertedListing: seq<Path>, p: Path)
    requires Lists(episodesListing, Only(fs, InDir(episodesDir)))
    requires Lists(convertedListing, Only(fs, InDir(convertedDir)))
    requires CleanupOrphanedFiles(db, fs, stuck, canon, episodesDir, convertedDir, episodesListing, convertedListing).raised.None?
    requires Orphan(fs, Referenced(db.episodes, canon), canon, p)
    requires Under(p, episodesDir) || Under(p, convertedDir)
    ensures p !in CleanupOrphanedFiles(db, fs, stuck, canon, episodesDir, convertedDir, episodesListing, convertedListing).fs
  {
    var keep := Referenced(db.episodes, canon);
    var a := ScanFiles(Scan(fs, 0, 0, None), stuck, keep, canon, episodesListing);
    var b := ScanFiles(a, stuck, keep, canon, convertedListing);
    assert a.raised.None?;
    ScanLeavesNoOrphans(Scan(fs, 0, 0, None), stuck, keep, canon, episodesListing);
    ScanLeavesNoOrphans(a, stuck, keep, canon, convertedListing);
    if Under(p, episodesDir) {
      assert p in Only(fs, InDir(episodesDir));
      var k :| 0 <= k < |episodesListing| && episodesListing[k] == p;
      assert !Orphan(a.fs, keep, canon, episodesListing[k]);
    } else {
      assert p in Only(fs, InDir(convertedDir));
      var k :| 0 <= k < |convertedListing| && convertedListing[k] == p;
      assert !Orphan(b.fs, keep, canon, convertedListing[k]);
    }
  }

  /** A clean orphan scan leaves nothing for a second scan to remove. */
  lemma OrphansIdempotent(db: Db, fs: FileMap, stuck: set<Path>, canon: Path -> Path,
                          episodesDir: Path, convertedDir: Path,
                          episodesListing: seq<Path>, convertedListing: seq<Path>,
                          episodesListing2: seq<Path>, convertedListing2: seq<Path>)
    requires Lists(episodesListing, Only(fs, InDir(episodesDir)))
    requires Lists(convertedListing, Only(fs, InDir(convertedDir)))
    requires CleanupOrphanedFiles(db, fs, stuck, canon, episodesDir, convertedDir, episodesListing, convertedListing).raised.None?
    requires var fs' := CleanupOrphanedFiles(db, fs, stuck, canon, episodesDir, convertedDir, episodesListing, convertedListing).fs;
      Lists(episodesListing2, Only(fs', InDir(episodesDir))) && Lists(convertedListing2, Only(fs', InDir(convertedDir)))
    ensures var fs' := CleanupOrphanedFiles(db, fs, stuck, canon, episodesDir, convertedDir, episodesListing, convertedListing).fs;
      CleanupOrphanedFiles(db, fs', stuck, canon, episodesDir, convertedDir, episodesListing2, convertedListing2) == Scan(fs', 0, 0, None)
  {
    var fs' := CleanupOrphanedFiles(db, fs, stuck, canon, episodesDir, convertedDir, episodesListing, convertedListing).fs;
    var keep := Referenced(db.episodes, canon);
    forall q | (!Absent(episodesListing2, q) || !Absent(convertedListing2, q)) && q in fs' ensures !Orphan(fs', keep, canon, q) {
      if Orphan(fs', keep, canon, q) {
        assert q in Only(fs', InDir(episodesDir)) || q in Only(fs', InDir(convertedDir));
        OrphansAllGone(db, fs, stuck, canon, episodesDir, convertedDir, episodesListing, convertedListing, q);
      }
    }
    var a := ScanFiles(Scan(fs', 0, 0, None), stuck, keep, canon, episodesListing2);
    NothingToScan(Scan(fs', 0, 0, None), stuck, keep, canon, episodesListing2);
    NothingToScan(a, stuck, keep, canon, convertedListing2);
  }

  /** A scan over a listing of files that are none of them orphans changes nothing. */
  lemma {:induction false} NothingToScan(s: Scan, stuck: set<Path>, keep: set<Path>, canon: Path -> Path, listing: seq<Path>)
    requires forall k :: 0 <= k < |listing| ==> !Orphan(s.fs, keep, canon, listing[k])
    ensures ScanFiles(s, stuck, keep, canon, listing) == s
    decreases |listing|
  {
    if s.raised.None? && listing != [] {
      NothingToScan(s, stuck, keep, canon, listing[1..]);
    }
  }

  // ---------------------------------------------------------------------
  // get_storage_by_podcast
  // ---------------------------------------------------------------------

  /** The file paths a row names. */
  function FilesOf(e: Episode): set<Path> {
    (if e.localPath.Some? then {e.localPath.value} else {})
    + (if e.convertedPath.Some? then {e.convertedPath.value} else {})
  }

  /** The bytes the breakdown counts for a list of rows. */
  function TotalBytes(eps: seq<Episode>, fs: FileMap): nat {
    if eps == [] then 0 else EpisodeBytes(eps[0], fs) + TotalBytes(eps[1..], fs)
  }

  /** No two rows name the same file. */
  ghost predicate OwnFiles(eps: seq<Episode>) {
    forall i, j :: 0 <= i < j < |eps| ==> FilesOf(eps[i]) !! FilesOf(eps[j])
  }

  function RowId(e: Episode): int {
    e.id
  }

  /** Rows of a table with disjoint files, taken with distinct ids in any order, still have disjoint files. */
  lemma OwnFilesOfRows(eps: seq<Episode>, cands: seq<Episode>)
    requires OwnFiles(eps)
    requires forall i :: 0 <= i < |cands| ==> cands[i] in eps
    requires DistinctBy(cands, RowId)
    ensures OwnFiles(cands)
  {
    forall i, j | 0 <= i < j < |cands| ensures FilesOf(cands[i]) !! FilesOf(cands[j]) {
      assert RowId(cands[i]) != RowId(cands[j]);
      var a :| 0 <= a < |eps| && eps[a] == cands[i];
      var b :| 0 <= b < |eps| && eps[b] == cands[j];
      assert a != b;
    }
  }

  lemma UniqueDistinct(eps: seq<Episode>)
    requires UniqueIds(eps)
    ensures DistinctBy(eps, RowId)
  {
  }

  /** The byte count of rows depends only on the files they name. */
  lemma {:induction false} TotalBytesFrame(eps: seq<Episode>, fs1: FileMap, fs2: FileMap)
    requires forall k, p :: 0 <= k < |eps| && p in FilesOf(eps[k]) ==>
      (p in fs1 <==> p in fs2) && (p in fs1 ==> fs1[p] == fs2[p])
    ensures TotalBytes(eps, fs1) == TotalBytes(eps, fs2)
  {
    if eps != [] {
      assert EpisodeBytes(eps[0], fs1) == EpisodeBytes(eps[0], fs2) by {
        assert forall p :: p in FilesOf(eps[0]) ==> (p in fs1 <==> p in fs2) && (p in fs1 ==> fs1[p] == fs2[p]);
      }
      forall k, p | 0 <= k < |eps[1..]| && p in FilesOf(eps[1..][k])
        ensures (p in fs1 <==> p in fs2) && (p in fs1 ==> fs1[p] == fs2[p])
      {
        assert eps[1..][k] == eps[k + 1];
      }
      TotalBytesFrame(eps[1..], fs1, fs2);
    }
  }

  /**
   * The breakdown agrees with the cleanup: deleting every row of a list
   * whose rows own their files, with no unlink raising, frees exactly the
   * bytes the breakdown reports for those rows.
   */
  lemma {:induction false} ReclaimFreesUsage(s: Sweep, cands: seq<Episode>)
    requires OwnFiles(cands)
    ensures Reclaim(s, {}, cands, true, None).s.bytes == s.bytes + TotalBytes(cands, s.fs)
    decreases |cands|
  {
    if cands != [] {
      var c := cands[0];
      var t := Visit(s, {}, c, true);
      FreedIsUsage(s.fs, {}, c);
      forall k, p | 0 <= k < |cands[1..]| && p in FilesOf(cands[1..][k])
        ensures (p in t.fs <==> p in s.fs) && (p in t.fs ==> t.fs[p] == s.fs[p])
      {
        assert cands[1..][k] == cands[k + 1];
        assert FilesOf(c) !! FilesOf(cands[k + 1]);
        assert !Touches(c, p);
      }
      TotalBytesFrame(cands[1..], t.fs, s.fs);
      assert OwnFiles(cands[1..]) by {
        forall i, j | 0 <= i < j < |cands[1..]| ensures FilesOf(cands[1..][i]) !! FilesOf(cands[1..][j]) {
          assert cands[1..][i] == cands[i + 1] && cands[1..][j] == cands[j + 1];
        }
      }
      ReclaimFreesUsage(t, cands[1..]);
    }
  }

  /** One row of the breakdown (lines 89-96); sizes in bytes. */
  datatype PodcastUsage = PodcastUsage(podcastId: int, title: string, totalBytes: nat, episodeCount: nat, syncedCount: nat)

  /** Line 77: the download is on disk. */
  predicate HasLocal(fs: FileMap, e: Episode) {
    Truthy(e.localPath) && e.localPath.value in fs
  }

  function LocalIn(fs: FileMap): Episode -> bool {
    e => HasLocal(fs, e)
  }

  /** Lines 69-96 for one podcast. */
  function Usage(eps: seq<Episode>, fs: FileMap, p: Podcast): (u: PodcastUsage)
    ensures u.podcastId == p.id && u.title == p.title
    ensures u.episodeCount <= |Filter(eps, RowsOf(p.id))| && u.syncedCount <= |Filter(eps, RowsOf(p.id))|
    ensures u.episodeCount == Count(Filter(eps, RowsOf(p.id)), LocalIn(fs))
    ensures u.syncedCount == Count(Filter(eps, RowsOf(p.id)), IsSynced)
    ensures u.totalBytes == TotalBytes(Filter(eps, RowsOf(p.id)), fs)
  {
    var rows := Filter(eps, RowsOf(p.id));
    PodcastUsage(p.id, p.title, TotalBytes(rows, fs), Count(rows, LocalIn(fs)), Count(rows, IsSynced))
  }

  function UsageOf(eps: seq<Episode>, fs: FileMap): Podcast -> PodcastUsage {
    p => Usage(eps, fs, p)
  }

  /** Line 99: sorting by this key ascending is sorting by size descending. */
  function LargestFirst(u: PodcastUsage): int {
    0 - u.totalBytes
  }

  /**
   * `get_storage_by_podcast`: one usage row per podcast, largest first.
   */
  function StorageByPodcast(db: Db, fs: FileMap): (r: seq<PodcastUsage>)
    ensures |r| == |db.podcasts|
    ensures multiset(r) == multiset(Map(UsageOf(db.episodes, fs), db.podcasts))
    ensures forall i, j :: 0 <= i < j < |r| ==> r[i].totalBytes >= r[j].totalBytes
  {
    var r := SortBy(Map(UsageOf(db.episodes, fs), db.podcasts), LargestFirst);
    assert forall i, j :: 0 <= i < j < |r| ==> LargestFirst(r[i]) <= LargestFirst(r[j]);
    r
  }

  /** A podcast whose rows own their files frees, when all its rows are deleted, exactly the total the breakdown shows. */
  lemma BreakdownMatchesCleanup(db: Db, fs: FileMap, p: Podcast)
    requires OwnFiles(Filter(db.episodes, RowsOf(p.id)))
    ensures Reclaim(Sweep(db, fs, 0, 0), {}, Filter(db.episodes, RowsOf(p.id)), true, None).s.bytes
      == Usage(db.episodes, fs, p).totalBytes
  {
    ReclaimFreesUsage(Sweep(db, fs, 0, 0), Filter(db.episodes, RowsOf(p.id)));
  }

  // ---------------------------------------------------------------------
  // _get_directory_size and get_local_storage_info
  // ---------------------------------------------------------------------

  /** The sizes `m` gives the listed paths (0 for a path it lacks), summed from the back of the listing. */
  ghost function SumListed(m: map<Path, nat>, listing: seq<Path>): nat
    decreases |listing|
  {
    if listing == [] then 0
    else
      var last := listing[|listing| - 1];
      SumListed(m, listing[..|listing| - 1]) + (if last in m then m[last] else 0)
  }

  lemma {:induction false} SumListedAgree(m1: map<Path, nat>, m2: map<Path, nat>, listing: seq<Path>)
    requires forall k :: 0 <= k < |listing| ==>
      (listing[k] in m1 <==> listing[k] in m2) && (listing[k] in m1 ==> m1[listing[k]] == m2[listing[k]])
    ensures SumListed(m1, listing) == SumListed(m2, listing)
    decreases |listing|
  {
    if listing != [] {
      var pre := listing[..|listing| - 1];
      forall k | 0 <= k < |pre| ensures (pre[k] in m1 <==> pre[k] in m2) && (pre[k] in m1 ==> m1[pre[k]] == m2[pre[k]]) {
        assert pre[k] == listing[k];
      }
      SumListedAgree(m1, m2, pre);
    }
  }

  /** Summing over a duplicate-free listing that covers the map gives the map's total, whatever the order. */
  lemma {:induction false} SumListedMap(m: map<Path, nat>, listing: seq<Path>)
    requires forall i, j :: 0 <= i < j < |listing| ==> listing[i] != listing[j]
    requires forall p :: p in m ==> !Absent(listing, p)
    ensures SumListed(m, listing) == SumMap(m)
    decreases |listing|
  {
    if listing == [] {
      assert m.Keys == {};
      assert |m| == 0;
    } else {
      var n := |listing| - 1;
      var pre := listing[..n];
      var h := listing[n];
      var m' := m - {h};
      ListedRest(m, listing);
      SumListedMap(m', pre);
      forall k | 0 <= k < |pre| ensures (pre[k] in m <==> pre[k] in m') && (pre[k] in m ==> m[pre[k]] == m'[pre[k]]) {
        assert pre[k] == listing[k] != h;
      }
      SumListedAgree(m, m', pre);
      SumRemoveAny(m, h);
      assert SumListed(m, listing) == SumListed(m, pre) + (if h in m then m[h] else 0);
    }
  }

  /** Without its last path, a duplicate-free listing still covers the map without that path. */
  lemma ListedRest(m: map<Path, nat>, listing: seq<Path>)
    requires listing != []
    requires forall p :: p in m ==> !Absent(listing, p)
    ensures forall p :: p in m && p != listing[|listing| - 1] ==> !Absent(listing[..|listing| - 1], p)
  {
    var n := |listing| - 1;
    forall p | p in m && p != listing[n] ensures !Absent(listing[..n], p) {
      var k :| 0 <= k < |listing| && listing[k] == p;
      assert listing[..n][k] == p;
    }
  }

  /** A file below `dir` whose `stat` does not raise. */
  function Readable(dir: Path, unreadable: set<Path>): Path -> bool {
    p => Under(p, dir) && p !in unreadable
  }

  /** The size one listed file adds to the total: its size when its `stat` goes through, else nothing. */
  function Stat(fs: FileMap, unreadable: set<Path>, p: Path): nat {
    if p in fs && p !in unreadable then fs[p] else 0
  }

  /** The running total of lines 273-278 after the files of `listing`. */
  function StatSum(fs: FileMap, unreadable: set<Path>, listing: seq<Path>): nat
    decreases |listing|
  {
    if listing == [] then 0
    else StatSum(fs, unreadable, listing[..|listing| - 1]) + Stat(fs, unreadable, listing[|listing| - 1])
  }

  /** Over files below `dir`, the running total sums the readable files' sizes. */
  lemma {:induction false} StatSumListed(fs: FileMap, unreadable: set<Path>, dir: Path, listing: seq<Path>)
    requires forall k :: 0 <= k < |listing| ==> Under(listing[k], dir)
    ensures StatSum(fs, unreadable, listing) == SumListed(Only(fs, Readable(dir, unreadable)), listing)
    decreases |listing|
  {
    if listing != [] {
      var pre := listing[..|listing| - 1];
      var p := listing[|listing| - 1];
      forall k | 0 <= k < |pre| ensures Under(pre[k], dir) {
        assert pre[k] == listing[k];
      }
      StatSumListed(fs, unreadable, dir, pre);
      var m := Only(fs, Readable(dir, unreadable));
      assert p in m <==> p in fs && p !in unreadable;
    }
  }

  /** One more file of the listing adds what it can be stat'ed for. */
  lemma StatSumNext(fs: FileMap, unreadable: set<Path>, listing: seq<Path>, i: nat)
    requires i < |listing|
    ensures StatSum(fs, unreadable, listing[..i + 1]) == StatSum(fs, unreadable, listing[..i]) + Stat(fs, unreadable, listing[i])
  {
    assert listing[..i + 1][..i] == listing[..i];
  }

  /** Over the whole listing, the running total is the total of the readable files. */
  lemma SizeTotal(fs: FileMap, unreadable: set<Path>, dir: Path, listing: seq<Path>)
    requires Lists(listing, Only(fs, InDir(dir)))
    ensures StatSum(fs, unreadable, listing[..|listing|]) == SumMap(Only(fs, Readable(dir, unreadable)))
  {
    assert listing[..|listing|] == listing;
    var m := Only(fs, Readable(dir, unreadable));
    forall k | 0 <= k < |listing| ensures Under(listing[k], dir) {
      assert listing[k] in Only(fs, InDir(dir));
    }
    StatSumListed(fs, unreadable, dir, listing);
    forall p | p in m ensures !Absent(listing, p) {
      assert p in Only(fs, InDir(dir));
    }
    SumListedMap(m, listing);
  }

  /**
   * `_get_directory_size`: the sizes of the files below `dir` that can be
   * stat'ed, in listing order. A missing directory has no files below it,
   * so its size is 0.
   */
  method DirectorySize(fs: FileMap, unreadable: set<Path>, dir: Path, listing: seq<Path>) returns (total: nat)
    requires Lists(listing, Only(fs, InDir(dir)))
    ensures total == SumMap(Only(fs, Readable(dir, unreadable)))
  {
    total := 0;
    var i := 0;
    while i < |listing|
      invariant 0 <= i <= |listing|
      invariant total == StatSum(fs, unreadable, listing[..i])
    {
      var p := listing[i];
      StatSumNext(fs, unreadable, listing, i);
      if p in fs && p !in unreadable {
        total := total + fs[p];
      }
      i := i + 1;
    }
    SizeTotal(fs, unreadable, dir, listing);
  }

  /** `shutil.disk_usage` of the episodes directory. */
  datatype DiskUsage = DiskUsage(total: nat, used: nat, free: nat)

  /** What `get_local_storage_info` reports, in bytes. */
  datatype StorageInfo = StorageInfo(
    diskTotal: nat, diskUsed: nat, diskFree: nat, usedPercent: real,
    episodesBytes: nat, convertedBytes: nat, podcastBytes: nat)

  /** Line 40: the share of the disk in use, 0 for a disk of no size. */
  function UsedPercent(d: DiskUsage): (pct: real)
    ensures 0.0 <= pct
    ensures d.used <= d.total ==> pct <= 100.0
    ensures d.used == 0 ==> pct == 0.0
  {
    if d.total > 0 then
      PercentBound(d.used as real, d.total as real);
      (d.used as real) / (d.total as real) * 100.0
    else 0.0
  }

  lemma PercentBound(u: real, t: real)
    requires 0.0 <= u && 0.0 < t
    ensures 0.0 <= u / t * 100.0
    ensures u <= t ==> u / t * 100.0 <= 100.0
  {
    assert u / t * t == u;
  }

  /**
   * `get_local_storage_info`. `disk` is None when `disk_usage` raises (a
   * missing episodes directory), and then every figure is 0. Otherwise
   * the podcast total is the two directory sizes added.
   */
  method GetLocalStorageInfo(disk: Option<DiskUsage>, fs: FileMap, unreadable: set<Path>,
                             episodesDir: Path, convertedDir: Path,
                             episodesListing: seq<Path>, convertedListing: seq<Path>) returns (info: StorageInfo)
    requires Lists(episodesListing, Only(fs, InDir(episodesDir)))
    requires Lists(convertedListing, Only(fs, InDir(convertedDir)))
    ensures disk.None? ==> info == StorageInfo(0, 0, 0, 0.0, 0, 0, 0)
    ensures disk.Some? ==>
      && info.diskTotal == disk.value.total && info.diskUsed == disk.value.used && info.diskFree == disk.value.free
      && info.episodesBytes == SumMap(Only(fs, Readable(episodesDir, unreadable)))
      && info.convertedBytes == SumMap(Only(fs, Readable(convertedDir, unreadable)))
      && info.podcastBytes == info.episodesBytes + info.convertedBytes
    ensures 0.0 <= info.usedPercent
    ensures disk.Some? && disk.value.used <= disk.value.total ==> info.usedPercent <= 100.0
  {
    match disk
    case None =>
      info := StorageInfo(0, 0, 0, 0.0, 0, 0, 0);
    case Some(d) =>
      var episodes := DirectorySize(fs, unreadable, episodesDir, episodesListing);
      var converted := DirectorySize(fs, unreadable, convertedDir, convertedListing);
      info := StorageInfo(d.total, d.used, d.free, UsedPercent(d), episodes, converted, episodes + converted);
  }
}

=== FILE: sync.dfy ===
/**
 * Copying episodes to the watch (backend/app/services/sync_service.py):
 * which episodes belong on the watch, the copy pass that brings each one
 * over unless a file of the same name and size is already there, the
 * pass that removes every other `*.mp3` from the watch's music folder,
 * and the sync_history row that records a run. The music folder is a map
 * from file name to size; whether the watch is there comes from `Device`.
 */
module Sync {

  import opened Model
  import opened Text
  import opened Paths
  import opened Sorting
  import Device
  import Download

  // ---------------------------------------------------------------------
  // The desired set (lines 24-49)
  // ---------------------------------------------------------------------

  /** Lines 42-44: a downloaded row of podcast `pid` that names a converted file. */
  predicate SyncableOf(pid: int, e: Episode) {
    e.podcastId == pid && e.status == Downloaded && e.convertedPath.Some?
  }

  function IsSyncable(pid: int): Episode -> bool {
    e => SyncableOf(pid, e)
  }

  /** Lines 41-45: one podcast's syncable rows, newest first, at most `episode_limit` of them. */
  function Latest(eps: seq<Episode>, p: Podcast): (r: seq<Episode>)
    ensures SortedBy(r, Download.PubKey)
    ensures forall i :: 0 <= i < |r| ==> r[i] in eps && SyncableOf(p.id, r[i])
    ensures p.episodeLimit >= 0 ==> |r| <= p.episodeLimit
  {
    var r := Top(Filter(eps, IsSyncable(p.id)), Download.PubKey, p.episodeLimit);
    FromFilter(r, eps, IsSyncable(p.id));
    r
  }

  /** Lines 39-47 over the podcasts `ps`: their groups one after another. */
  function DesiredFrom(ps: seq<Podcast>, eps: seq<Episode>): (r: seq<Episode>)
    ensures forall i :: 0 <= i < |r| ==> r[i] in eps && r[i].status == Downloaded && r[i].convertedPath.Some?
    decreases |ps|
  {
    if ps == [] then [] else Latest(eps, ps[0]) + DesiredFrom(ps[1..], eps)
  }

  /** `get_episodes_to_sync`: the groups of all podcasts, in table order. */
  function EpisodesToSync(db: Db): (r: seq<Episode>)
    ensures forall i :: 0 <= i < |r| ==> r[i] in db.episodes && r[i].status == Downloaded && r[i].convertedPath.Some?
  {
    DesiredFrom(db.podcasts, db.episodes)
  }

  /** Groups of podcasts other than `pid` hold no row of `pid`. */
  lemma {:induction false} OtherGroups(ps: seq<Podcast>, eps: seq<Episode>, pid: int)
    requires forall k :: 0 <= k < |ps| ==> ps[k].id != pid
    ensures Filter(DesiredFrom(ps, eps), RowsOf(pid)) == []
    decreases |ps|
  {
    if ps != [] {
      var head := Latest(eps, ps[0]);
      var tail := DesiredFrom(ps[1..], eps);
      assert DesiredFrom(ps, eps) == head + tail;
      OtherGroups(ps[1..], eps, pid);
      OtherGroup(eps, ps[0], pid);
      FilterConcat(head, tail, RowsOf(pid));
    }
  }

  /** The group of one podcast holds no row of another. */
  lemma OtherGroup(eps: seq<Episode>, p: Podcast, pid: int)
    requires p.id != pid
    ensures Filter(Latest(eps, p), RowsOf(pid)) == []
  {
    var head := Latest(eps, p);
    forall i | 0 <= i < |head| ensures !RowsOf(pid)(head[i]) {
      assert SyncableOf(p.id, head[i]);
    }
    FilterNone(head, RowsOf(pid));
  }

  /** The group of a podcast keeps only its own rows. */
  lemma OwnGroup(eps: seq<Episode>, p: Podcast)
    ensures Filter(Latest(eps, p), RowsOf(p.id)) == Latest(eps, p)
  {
    var head := Latest(eps, p);
    forall i | 0 <= i < |head| ensures RowsOf(p.id)(head[i]) {
      assert SyncableOf(p.id, head[i]);
    }
    FilterAll(head, RowsOf(p.id));
  }

  lemma {:induction false} GroupFrom(ps: seq<Podcast>, eps: seq<Episode>, p: Podcast)
    requires UniquePodcastIds(ps) && p in ps
    ensures Filter(DesiredFrom(ps, eps), RowsOf(p.id)) == Latest(eps, p)
    decreases |ps|
  {
    var head := Latest(eps, ps[0]);
    var tail := DesiredFrom(ps[1..], eps);
    assert DesiredFrom(ps, eps) == head + tail;
    FilterConcat(head, tail, RowsOf(p.id));
    if ps[0] == p {
      OwnGroup(eps, p);
      forall k | 0 <= k < |ps[1..]| ensures ps[1..][k].id != p.id {
        assert ps[1..][k] == ps[k + 1];
      }
      OtherGroups(ps[1..], eps, p.id);
      assert head + [] == head;
    } else {
      var k :| 0 <= k < |ps| && ps[k] == p;
      assert ps[1..][k - 1] == p;
      assert UniquePodcastIds(ps[1..]) by {
        forall i, j | 0 <= i < j < |ps[1..]| ensures ps[1..][i].id != ps[1..][j].id {
          assert ps[1..][i] == ps[i + 1] && ps[1..][j] == ps[j + 1];
        }
      }
      GroupFrom(ps[1..], eps, p);
      assert ps[0].id != ps[k].id;
      OtherGroup(eps, ps[0], p.id);
      assert [] + Latest(eps, p) == Latest(eps, p);
    }
  }

  /**
   * The rows of podcast `p` in the desired set are exactly its downloaded,
   * converted rows, newest first, cut to its `episode_limit`.
   */
  lemma DesiredGroup(db: Db, p: Podcast)
    requires UniquePodcastIds(db.podcasts) && p in db.podcasts
    ensures Filter(EpisodesToSync(db), RowsOf(p.id)) == Top(Filter(db.episodes, IsSyncable(p.id)), Download.PubKey, p.episodeLimit)
  {
    GroupFrom(db.podcasts, db.episodes, p);
  }

  /** A syncable row of `p` left out of the desired set is no newer than any of `p`'s rows in it. */
  lemma DesiredIsNewest(db: Db, p: Podcast, x: Episode, y: Episode)
    requires UniquePodcastIds(db.podcasts) && p in db.podcasts
    requires x in EpisodesToSync(db) && x.podcastId == p.id
    requires y in db.episodes && SyncableOf(p.id, y) && y !in EpisodesToSync(db)
    ensures Download.PubKey(x) <= Download.PubKey(y)
  {
    var d := EpisodesToSync(db);
    DesiredGroup(db, p);
    var top := Top(Filter(db.episodes, IsSyncable(p.id)), Download.PubKey, p.episodeLimit);
    assert x in Filter(d, RowsOf(p.id));
    assert y !in Filter(d, RowsOf(p.id));
    TopIsBest(Filter(db.episodes, IsSyncable(p.id)), Download.PubKey, p.episodeLimit, x, y);
  }

  // ---------------------------------------------------------------------
  // What a run may change: the sync columns only
  // ---------------------------------------------------------------------

  /** A row with its sync columns cleared. */
  function Plain(e: Episode): Episode {
    e.(synced := false, syncDate := None)
  }

  /** `b` is `a` with at most `synced_to_watch` and `sync_date` changed, row by row. */
  ghost predicate SyncOnly(a: seq<Episode>, b: seq<Episode>) {
    |a| == |b| && forall i :: 0 <= i < |a| ==> Plain(a[i]) == Plain(b[i])
  }

  /** Selecting the desired set commutes with clearing the sync columns. */
  lemma {:induction false} DesiredPlain(ps: seq<Podcast>, eps: seq<Episode>)
    ensures Map(Plain, DesiredFrom(ps, eps)) == DesiredFrom(ps, Map(Plain, eps))
    decreases |ps|
  {
    if ps != [] {
      var p := ps[0];
      DesiredPlain(ps[1..], eps);
      FilterMap(eps, Plain, IsSyncable(p.id));
      TopMap(Filter(eps, IsSyncable(p.id)), Download.PubKey, p.episodeLimit, Plain);
      MapConcat(Plain, Latest(eps, p), DesiredFrom(ps[1..], eps));
    }
  }

  /** Changing sync columns only does not change which rows are desired, nor their order. */
  lemma SyncOnlyDesired(a: Db, b: Db)
    requires a.podcasts == b.podcasts && SyncOnly(a.episodes, b.episodes)
    ensures SyncOnly(EpisodesToSync(a), EpisodesToSync(b))
  {
    assert Map(Plain, a.episodes) == Map(Plain, b.episodes);
    DesiredPlain(a.podcasts, a.episodes);
    DesiredPlain(b.podcasts, b.episodes);
    var da := EpisodesToSync(a);
    var db := EpisodesToSync(b);
    assert Map(Plain, da) == Map(Plain, db);
    forall i | 0 <= i < |da| ensures Plain(da[i]) == Plain(db[i]) {
      assert Map(Plain, da)[i] == Map(Plain, db)[i];
    }
  }

  // ---------------------------------------------------------------------
  // The copy pass (lines 105-145)
  // ---------------------------------------------------------------------

  /** One `progress_callback(current, total, title)` call. */
  datatype Tick = Tick(current: int, total: int, title: string)

  /** The copy loop's state: store, music folder, counters, and the progress calls so far. */
  datatype Pass = Pass(db: Db, watch: FileMap, added: nat, bytes: nat, ticks: seq<Tick>)

  /** Lines 112-113: the row names a converted file that exists. */
  predicate Present(e: Episode, fs: FileMap) {
    e.convertedPath.Some? && e.convertedPath.value in fs
  }

  /** The music folder holds `e`'s converted file: a file of that name and that size. */
  predicate OnWatch(w: FileMap, fs: FileMap, e: Episode)
    requires Present(e, fs)
  {
    Name(e.convertedPath.value) in w && w[Name(e.convertedPath.value)] == fs[e.convertedPath.value]
  }

  /** Every row with id `id` is marked synced. */
  predicate Stamped(eps: seq<Episode>, id: int) {
    forall i :: 0 <= i < |eps| && eps[i].id == id ==> eps[i].synced
  }

  /** Lines 124-126: mark the row synced, stamping the date only when it was not synced yet. */
  function Touch(eps: seq<Episode>, id: int, now: int): (r: seq<Episode>)
    ensures SyncOnly(eps, r) && Stamped(r, id)
    ensures forall j :: Stamped(eps, j) ==> Stamped(r, j)
    ensures forall i :: 0 <= i < |eps| && (eps[i].id != id || eps[i].synced) ==> r[i] == eps[i]
    ensures forall i :: 0 <= i < |eps| && eps[i].id == id && !eps[i].synced ==> r[i].syncDate == Some(now)
  {
    seq(|eps|, i requires 0 <= i < |eps| =>
      if eps[i].id == id && !eps[i].synced then eps[i].(synced := true, syncDate := Some(now)) else eps[i])
  }

  /** Lines 135-136: mark the row synced as of `now`. */
  function Mark(eps: seq<Episode>, id: int, now: int): (r: seq<Episode>)
    ensures SyncOnly(eps, r) && Stamped(r, id)
    ensures forall j :: Stamped(eps, j) ==> Stamped(r, j)
    ensures forall i :: 0 <= i < |eps| && eps[i].id != id ==> r[i] == eps[i]
    ensures forall i :: 0 <= i < |eps| && eps[i].id == id ==> r[i].syncDate == Some(now)
  {
    seq(|eps|, i requires 0 <= i < |eps| =>
      if eps[i].id == id then eps[i].(synced := true, syncDate := Some(now)) else eps[i])
  }

  /**
   * Lines 106-145 for one episode: the progress call, then skip it (no
   * converted file, or the copy raises), restamp it (a same-named file of
   * the same size is there), or copy it over whatever has its name.
   */
  function CopyOne(p: Pass, fs: FileMap, failing: set<Path>, now: int, e: Episode, tick: Tick): (r: Pass)
    ensures r.ticks == p.ticks + [tick]
    ensures r.db.podcasts == p.db.podcasts && r.db.history == p.db.history
    ensures SyncOnly(p.db.episodes, r.db.episodes)
    ensures forall j :: Stamped(p.db.episodes, j) ==> Stamped(r.db.episodes, j)
    ensures forall n :: n in p.watch ==> n in r.watch
    ensures forall n :: n in r.watch && (n !in p.watch || r.watch[n] != p.watch[n]) ==>
      Present(e, fs) && n == Name(e.convertedPath.value) && r.watch[n] == fs[e.convertedPath.value]
    ensures r.added == p.added + 1 <==> Present(e, fs) && !OnWatch(p.watch, fs, e) && e.convertedPath.value !in failing
    ensures r.added == p.added + 1 ==> r.bytes == p.bytes + fs[e.convertedPath.value]
    ensures r.added != p.added + 1 ==> r.added == p.added && r.bytes == p.bytes
    ensures Present(e, fs) && e.convertedPath.value !in failing ==> OnWatch(r.watch, fs, e) && Stamped(r.db.episodes, e.id)
    ensures !Present(e, fs) || OnWatch(p.watch, fs, e) ==> r.watch == p.watch
  {
    var q := p.(ticks := p.ticks + [tick]);
    if !Present(e, fs) then q
    else
      var cp := e.convertedPath.value;
      var name := Name(cp);
      if name in p.watch && p.watch[name] == fs[cp] then
        q.(db := p.db.(episodes := Touch(p.db.episodes, e.id, now)))
      else if cp in failing then q
      else
        q.(db := p.db.(episodes := Mark(p.db.episodes, e.id, now)),
           watch := p.watch[name := fs[cp]],
           added := p.added + 1,
           bytes := p.bytes + fs[cp])
  }

  /** Lines 105-145: the copy loop over `desired`, whose first element is number `done + 1` of `total`. */
  function Converge(p: Pass, fs: FileMap, failing: set<Path>, now: int, desired: seq<Episode>, done: nat, total: nat): (r: Pass)
    ensures r.db.podcasts == p.db.podcasts && r.db.history == p.db.history
    ensures SyncOnly(p.db.episodes, r.db.episodes)
    ensures forall j :: Stamped(p.db.episodes, j) ==> Stamped(r.db.episodes, j)
    ensures p.added <= r.added <= p.added + |desired|
    ensures p.bytes <= r.bytes
    decreases |desired|
  {
    if desired == [] then p
    else
      var e := desired[0];
      Converge(CopyOne(p, fs, failing, now, e, Tick(done + 1, total, e.title)), fs, failing, now, desired[1..], done + 1, total)
  }

  /** The progress calls for `desired`, whose first element is number `done + 1` of `total`. */
  function Ticks(desired: seq<Episode>, done: nat, total: nat): (t: seq<Tick>)
    ensures |t| == |desired|
    ensures forall k :: 0 <= k < |desired| ==> t[k] == Tick(done + k + 1, total, desired[k].title)
    decreases |desired|
  {
    if desired == [] then []
    else
      var rest := Ticks(desired[1..], done + 1, total);
      assert forall k :: 1 <= k < |desired| ==> desired[k] == desired[1..][k - 1];
      [Tick(done + 1, total, desired[0].title)] + rest
  }

  /** The copy loop makes exactly the progress calls of `Ticks`, after those made before it. */
  lemma {:induction false} ConvergeTickSeq(p: Pass, fs: FileMap, failing: set<Path>, now: int, desired: seq<Episode>, done: nat, total: nat)
    ensures Converge(p, fs, failing, now, desired, done, total).ticks == p.ticks + Ticks(desired, done, total)
    decreases |desired|
  {
    if desired == [] {
      assert p.ticks + [] == p.ticks;
    } else {
      var t := Tick(done + 1, total, desired[0].title);
      var q := CopyOne(p, fs, failing, now, desired[0], t);
      var rest := Ticks(desired[1..], done + 1, total);
      assert Converge(p, fs, failing, now, desired, done, total) == Converge(q, fs, failing, now, desired[1..], done + 1, total);
      ConvergeTickSeq(q, fs, failing, now, desired[1..], done + 1, total);
      assert Ticks(desired, done, total) == [t] + rest;
      AppendAssoc(p.ticks, [t], rest);
    }
  }

  /** The progress callback sees `(i + 1, total, title)` for every desired episode, skipped or not. */
  lemma ConvergeTicks(p: Pass, fs: FileMap, failing: set<Path>, now: int, desired: seq<Episode>, done: nat, total: nat)
    ensures var r := Converge(p, fs, failing, now, desired, done, total);
      && |r.ticks| == |p.ticks| + |desired|
      && r.ticks[..|p.ticks|] == p.ticks
      && forall k :: 0 <= k < |desired| ==> r.ticks[|p.ticks| + k] == Tick(done + k + 1, total, desired[k].title)
  {
    ConvergeTickSeq(p, fs, failing, now, desired, done, total);
    var r := Converge(p, fs, failing, now, desired, done, total);
    var t := Ticks(desired, done, total);
    assert r.ticks[..|p.ticks|] == p.ticks;
    forall k | 0 <= k < |desired| ensures r.ticks[|p.ticks| + k] == Tick(done + k + 1, total, desired[k].title) {
      assert r.ticks[|p.ticks| + k] == t[k];
    }
  }

  /** Desired episode `k` has a converted file named `n` of size `v`. */
  predicate WroteAt(desired: seq<Episode>, fs: FileMap, k: nat, n: Path, v: nat)
    requires k < |desired|
  {
    Present(desired[k], fs) && Name(desired[k].convertedPath.value) == n && fs[desired[k].convertedPath.value] == v
  }

  ghost predicate Wrote(desired: seq<Episode>, fs: FileMap, n: Path, v: nat) {
    exists k :: 0 <= k < |desired| && WroteAt(desired, fs, k, n, v)
  }

  /** The copy pass only adds files, and every file it writes is a desired episode's converted file. */
  lemma {:induction false} ConvergeWrites(p: Pass, fs: FileMap, failing: set<Path>, now: int, desired: seq<Episode>, done: nat, total: nat)
    ensures var r := Converge(p, fs, failing, now, desired, done, total);
      && (forall n :: n in p.watch ==> n in r.watch)
      && (forall n :: n in r.watch && (n !in p.watch || r.watch[n] != p.watch[n]) ==> Wrote(desired, fs, n, r.watch[n]))
    decreases |desired|
  {
    if desired != [] {
      var e := desired[0];
      var q := CopyOne(p, fs, failing, now, e, Tick(done + 1, total, e.title));
      ConvergeWrites(q, fs, failing, now, desired[1..], done + 1, total);
      var r := Converge(q, fs, failing, now, desired[1..], done + 1, total);
      forall n | n in r.watch && (n !in p.watch || r.watch[n] != p.watch[n]) ensures Wrote(desired, fs, n, r.watch[n]) {
        if n in q.watch && r.watch[n] == q.watch[n] {
          assert WroteAt(desired, fs, 0, n, r.watch[n]);
        } else {
          var k :| 0 <= k < |desired[1..]| && WroteAt(desired[1..], fs, k, n, r.watch[n]);
          assert desired[1..][k] == desired[k + 1];
          assert WroteAt(desired, fs, k + 1, n, r.watch[n]);
        }
      }
    }
  }

  /** Desired episodes whose converted files share a name also share a size. */
  ghost predicate NamesAgree(desired: seq<Episode>, fs: FileMap) {
    forall j, k ::
      (0 <= j < |desired| && 0 <= k < |desired| && Present(desired[j], fs) && Present(desired[k], fs)
       && Name(desired[j].convertedPath.value) == Name(desired[k].convertedPath.value))
      ==> fs[desired[j].convertedPath.value] == fs[desired[k].convertedPath.value]
  }

  /** No copy of a present desired episode raises. */
  ghost predicate CopiesSucceed(desired: seq<Episode>, fs: FileMap, failing: set<Path>) {
    forall k :: 0 <= k < |desired| && Present(desired[k], fs) ==> desired[k].convertedPath.value !in failing
  }

  /** After a copy pass without copy errors, every desired episode whose converted file exists is marked synced. */
  lemma {:induction false} ConvergeStamps(p: Pass, fs: FileMap, failing: set<Path>, now: int, desired: seq<Episode>, done: nat, total: nat)
    requires CopiesSucceed(desired, fs, failing)
    ensures var r := Converge(p, fs, failing, now, desired, done, total);
      forall k :: 0 <= k < |desired| && Present(desired[k], fs) ==> Stamped(r.db.episodes, desired[k].id)
    decreases |desired|
  {
    if desired != [] {
      var e := desired[0];
      var tail := desired[1..];
      var q := CopyOne(p, fs, failing, now, e, Tick(done + 1, total, e.title));
      var r := Converge(q, fs, failing, now, tail, done + 1, total);
      assert Converge(p, fs, failing, now, desired, done, total) == r;
      assert CopiesSucceed(tail, fs, failing) by {
        forall k | 0 <= k < |tail| && Present(tail[k], fs) ensures tail[k].convertedPath.value !in failing {
          assert tail[k] == desired[k + 1];
        }
      }
      ConvergeStamps(q, fs, failing, now, tail, done + 1, total);
      forall k | 0 <= k < |desired| && Present(desired[k], fs) ensures Stamped(r.db.episodes, desired[k].id) {
        if k == 0 {
          assert Stamped(q.db.episodes, e.id);
        } else {
          assert desired[k] == tail[k - 1];
        }
      }
    }
  }

  /**
   * After a copy pass without copy errors, every desired episode whose
   * converted file exists is on the watch, provided no two of them put
   * different sizes under one name.
   */
  lemma {:induction false} ConvergeCopies(p: Pass, fs: FileMap, failing: set<Path>, now: int, desired: seq<Episode>, done: nat, total: nat)
    requires NamesAgree(desired, fs) && CopiesSucceed(desired, fs, failing)
    ensures var r := Converge(p, fs, failing, now, desired, done, total);
      forall k :: 0 <= k < |desired| && Present(desired[k], fs) ==> OnWatch(r.watch, fs, desired[k])
    decreases |desired|
  {
    if desired != [] {
      var e := desired[0];
      var tail := desired[1..];
      var q := CopyOne(p, fs, failing, now, e, Tick(done + 1, total, e.title));
      assert forall k :: 0 <= k < |tail| ==> tail[k] == desired[k + 1];
      ConvergeCopies(q, fs, failing, now, tail, done + 1, total);
      ConvergeWrites(q, fs, failing, now, tail, done + 1, total);
    }
  }

  /** A copy pass over episodes that are all on the watch already copies nothing and leaves the folder alone. */
  lemma {:induction false} ConvergeQuiet(p: Pass, fs: FileMap, failing: set<Path>, now: int, desired: seq<Episode>, done: nat, total: nat)
    requires forall k :: 0 <= k < |desired| && Present(desired[k], fs) ==> OnWatch(p.watch, fs, desired[k])
    ensures var r := Converge(p, fs, failing, now, desired, done, total);
      r.watch == p.watch && r.added == p.added && r.bytes == p.bytes
    decreases |desired|
  {
    if desired != [] {
      var e := desired[0];
      var q := CopyOne(p, fs, failing, now, e, Tick(done + 1, total, e.title));
      assert forall k :: 0 <= k < |desired[1..]| ==> desired[1..][k] == desired[k + 1];
      ConvergeQuiet(q, fs, failing, now, desired[1..], done + 1, total);
    }
  }

  // ---------------------------------------------------------------------
  // The evict pass (lines 190-245)
  // ---------------------------------------------------------------------

  /** How the row to unmark is found once a file has been removed from the watch. */
  datatype Rule =
    | Suffix    // line 226 as written: `converted_path LIKE '%<name>'`
    | SameName  // the row whose converted file has exactly that name

  predicate Matches(rule: Rule, e: Episode, n: string) {
    && e.convertedPath.Some?
    && match rule
       case Suffix => EndsWith(e.convertedPath.value, n)
       case SameName => Name(e.convertedPath.value) == n
  }

  /** `.first()` (line 227): the index of the first matching row in table order, or -1. */
  function FirstMatch(eps: seq<Episode>, rule: Rule, n: string): (k: int)
    ensures -1 <= k < |eps|
    ensures k >= 0 ==> Matches(rule, eps[k], n)
    ensures forall j :: 0 <= j < |eps| && (k < 0 || j < k) ==> !Matches(rule, eps[j], n)
  {
    if eps == [] then -1
    else if Matches(rule, eps[0], n) then 0
    else
      var k := FirstMatch(eps[1..], rule, n);
      assert forall j :: 1 <= j < |eps| ==> eps[j] == eps[1..][j - 1];
      if k < 0 then -1 else k + 1
  }

  /** Lines 225-231: the first matching row, if any, is no longer marked synced. */
  function Unmark(eps: seq<Episode>, rule: Rule, n: string): (r: seq<Episode>)
    ensures SyncOnly(eps, r)
    ensures forall i :: 0 <= i < |eps| && i != FirstMatch(eps, rule, n) ==> r[i] == eps[i]
    ensures FirstMatch(eps, rule, n) >= 0 ==>
      !r[FirstMatch(eps, rule, n)].synced && r[FirstMatch(eps, rule, n)].syncDate.None?
  {
    var k := FirstMatch(eps, rule, n);
    if k < 0 then eps else eps[k := eps[k].(synced := false, syncDate := None)]
  }

  /** The evict pass's result: store, music folder, and how many files and bytes went. */
  datatype Evicted = Evicted(db: Db, watch: FileMap, count: nat, bytes: nat)

  /** A name the evict pass deletes: listed, not kept, and neither its stat nor its unlink raises. */
  predicate Evicts(keep: set<string>, stuck: set<Path>, names: seq<Path>, n: Path) {
    n in names && n !in keep && n !in stuck
  }

  /**
   * Lines 215-237 over the listed `names`: delete each one that is not
   * kept, count it and its size, and unmark the row the rule finds.
   */
  function Evict(db: Db, watch: FileMap, keep: set<string>, stuck: set<Path>, rule: Rule, names: seq<Path>): (r: Evicted)
    ensures SumMap(watch) == SumMap(r.watch) + r.bytes
    ensures forall n {:trigger n in r.watch} :: n in r.watch <==> n in watch && !Evicts(keep, stuck, names, n)
    ensures forall n {:trigger n in r.watch} :: n in r.watch ==> r.watch[n] == watch[n]
    ensures r.count + |r.watch| == |watch|
    ensures r.db.podcasts == db.podcasts && r.db.history == db.history
    ensures SyncOnly(db.episodes, r.db.episodes)
    decreases |names|
  {
    if names == [] then Evicted(db, watch, 0, 0)
    else
      var n := names[0];
      assert forall m :: m in names <==> m == n || m in names[1..];
      if n in keep || n !in watch || n in stuck then Evict(db, watch, keep, stuck, rule, names[1..])
      else
        var r := Evict(db.(episodes := Unmark(db.episodes, rule, n)), watch - {n}, keep, stuck, rule, names[1..]);
        SumRemove(watch, n);
        CardRemove(watch, n);
        Evicted(r.db, r.watch, r.count + 1, r.bytes + watch[n])
  }

  /** With exact name matching, a row whose converted file's name is kept is never touched. */
  lemma {:induction false} EvictSparesKept(db: Db, watch: FileMap, keep: set<string>, stuck: set<Path>, names: seq<Path>, i: nat)
    requires i < |db.episodes| && db.episodes[i].convertedPath.Some?
    requires Name(db.episodes[i].convertedPath.value) in keep
    ensures i < |Evict(db, watch, keep, stuck, SameName, names).db.episodes|
    ensures Evict(db, watch, keep, stuck, SameName, names).db.episodes[i] == db.episodes[i]
    decreases |names|
  {
    if names != [] {
      var n := names[0];
      if !(n in keep || n !in watch || n in stuck) {
        var db1 := db.(episodes := Unmark(db.episodes, SameName, n));
        assert db1.episodes[i] == db.episodes[i];
        EvictSparesKept(db1, watch - {n}, keep, stuck, names[1..], i);
      } else {
        EvictSparesKept(db, watch, keep, stuck, names[1..], i);
      }
    }
  }

  /**
   * Line 226 as written: removing a stale file named `n` unmarks a row
   * whose converted file is kept on the watch but whose path merely ends
   * with `n`.
   */
  lemma SuffixUnsyncsKept(row: Episode, watch: FileMap, keep: set<string>, n: Path)
    requires row.synced && row.convertedPath.Some? && EndsWith(row.convertedPath.value, n)
    requires Name(row.convertedPath.value) in keep && n !in keep && n in watch
    ensures !Evict(Db([], [row], []), watch, keep, {}, Suffix, [n]).db.episodes[0].synced
  {
    var db := Db([], [row], []);
    assert FirstMatch(db.episodes, Suffix, n) == 0;
    var db1 := db.(episodes := Unmark(db.episodes, Suffix, n));
    assert Evict(db, watch, keep, {}, Suffix, [n]).db == Evict(db1, watch - {n}, keep, {}, Suffix, []).db;
  }

  /** Such a pair exists: `/c/ab.mp3` is named `ab.mp3` and ends with `b.mp3`. */
  lemma SuffixClash()
    ensures Name("/c/ab.mp3") == "ab.mp3" && EndsWith("/c/ab.mp3", "b.mp3") && "b.mp3" != "ab.mp3"
  {
    var b, d := "ab.mp3", "/c";
    assert b[..1][0] == b[0] == 'a';
    assert d[1..][0] == d[1] == 'c';
    assert !StartsWith(b, "/") && !EndsWith(d, "/");
    assert Join(d, b) == "/c/ab.mp3";
    NameOfJoin(d, b);
    var kept := "/c/ab.mp3";
    assert kept[|kept| - 5..] == "b.mp3";
  }

  // ---------------------------------------------------------------------
  // A whole run (lines 51-188)
  // ---------------------------------------------------------------------

  /** Faults the two passes can meet: copies that raise (by source path), and watch files whose stat or unlink raises. */
  datatype Faults = Faults(copy: set<Path>, unlink: set<Path>)

  /** What `sync_to_watch` returns; there is no byte count on failure, as in the returned dictionary. */
  datatype Report = Report(success: bool, error: Option<string>, added: nat, removed: nat, bytes: Option<nat>)

  datatype Synced = Synced(db: Db, watch: FileMap, report: Report, ticks: seq<Tick>)

  predicate Mp3Name(n: Path) {
    EndsWith(n, ".mp3")
  }

  /** `music_folder.glob('*.mp3')` yields each `.mp3` file of the folder once. */
  ghost predicate Enumerates(glob: FileMap -> seq<Path>) {
    forall w :: Lists(glob(w), Only(w, Mp3Name))
  }

  /** Line 206: the names of the desired set's (truthy) converted paths. */
  function Keep(desired: seq<Episode>): (k: set<string>)
    ensures forall i :: 0 <= i < |desired| && Truthy(desired[i].convertedPath) ==> Name(desired[i].convertedPath.value) in k
    ensures forall n :: n in k ==> exists i :: 0 <= i < |desired| && Truthy(desired[i].convertedPath) && Name(desired[i].convertedPath.value) == n
  {
    set i | 0 <= i < |desired| && Truthy(desired[i].convertedPath) :: Name(desired[i].convertedPath.value)
  }

  /** Lines 85-91: the history row a run opens. */
  function Opened(hs: seq<SyncRecord>, now: int): SyncRecord {
    SyncRecord(NextRecordId(hs), "manual", 0, 0, 0, InProgress, None, now, None, now)
  }

  /** The result of lines 65-82. */
  function Refused(msg: string): Report {
    Report(false, Some(msg), 0, 0, None)
  }

  /** `rec` is the row of a finished run with the given id and time, recording `rep`. */
  predicate Closes(rec: SyncRecord, id: int, now: int, rep: Report) {
    && rec.id == id && rec.syncType == "manual" && rec.startedAt == now && rec.createdAt == now
    && rec.completedAt == Some(now)
    && (rep.success ==> rec.status == Succeeded && rec.error.None? && rec.added == rep.added
                        && rec.removed == rep.removed && rep.bytes == Some(rec.bytes))
    && (!rep.success ==> rec.status == RunFailed && rec.error == rep.error && rec.added == 0
                         && rec.removed == 0 && rec.bytes == 0)
  }

  /**
   * `sync_to_watch`. The watch's presence and music folder come from the
   * host snapshot, `watch` is what the music folder holds, `glob` yields
   * the `.mp3` names of a folder state, `queryError` is an exception
   * raised while the desired set is read, and `rule` picks the row the
   * evict pass unmarks (`Suffix` is the code as written). An error raised
   * while detecting the watch (lines 65 and 74 sit outside the `try`)
   * escapes before any history row is written.
   */
  function SyncToWatch(db: Db, fs: FileMap, h: Device.Host, c: Device.Config, watch: FileMap,
                       glob: FileMap -> seq<Path>, faults: Faults, queryError: Option<string>,
                       rule: Rule, now: int): (r: Result<Synced>)
    ensures r.Err? <==> Device.IsWatchConnected(h, c).Err?
    ensures r.Err? ==> r.error == Device.GetWatchMountPoint(h, c).error
    ensures Device.IsWatchConnected(h, c) == Ok(false) ==> r == Ok(Synced(db, watch, Refused("Watch is not connected"), []))
    ensures Device.GetWatchMusicFolder(h, c) == Ok(None) ==> r.Ok? && r.value.db == db && r.value.watch == watch && !r.value.report.success
    ensures Device.HasMusicFolder(h, c) ==>
      && r.Ok?
      && |r.value.db.history| == |db.history| + 1
      && r.value.db.history[..|db.history|] == db.history
      && Closes(r.value.db.history[|db.history|], NextRecordId(db.history), now, r.value.report)
    ensures r.Ok? && !r.value.report.success ==>
      r.value.report.error.Some? && r.value.report.added == 0 && r.value.report.removed == 0 && r.value.report.bytes.None?
    ensures r.Ok? && !r.value.report.success ==> r.value.db.episodes == db.episodes && r.value.watch == watch && r.value.ticks == []
    ensures r.Ok? ==> r.value.db.podcasts == db.podcasts && SyncOnly(db.episodes, r.value.db.episodes)
  {
    Device.MusicFolderIffConnected(h, c);
    var connected := Device.IsWatchConnected(h, c);
    if connected.Err? then Err(connected.error)
    else if !connected.value then Ok(Synced(db, watch, Refused("Watch is not connected"), []))
    // The second detection sees the same host as the first, so it finds the folder or nothing and does not raise.
    else if !Device.HasMusicFolder(h, c) then Ok(Synced(db, watch, Refused("Could not find Music folder on watch"), []))
    else if queryError.Some? then
      var failed := Opened(db.history, now).(status := RunFailed, error := queryError, completedAt := Some(now));
      Ok(Synced(db.(history := db.history + [failed]), watch, Report(false, queryError, 0, 0, None), []))
    else Ok(Run(db, fs, watch, glob, faults, rule, now))
  }

  /**
   * Lines 85-188 once the watch and its music folder are found and the
   * desired set is read: open the history row, run the copy pass and the
   * evict pass, and close the row with their counts.
   */
  function Run(db: Db, fs: FileMap, watch: FileMap, glob: FileMap -> seq<Path>, faults: Faults, rule: Rule, now: int): (r: Synced)
    ensures r.report.success && r.report.error.None?
    ensures |r.db.history| == |db.history| + 1 && r.db.history[..|db.history|] == db.history
    ensures Closes(r.db.history[|db.history|], NextRecordId(db.history), now, r.report)
    ensures r.db.podcasts == db.podcasts && SyncOnly(db.episodes, r.db.episodes)
  {
    var rec := Opened(db.history, now);
    var db1 := db.(history := db.history + [rec]);
    var desired := EpisodesToSync(db1);
    var p := Converge(Pass(db1, watch, 0, 0, []), fs, faults.copy, now, desired, 0, |desired|);
    var ev := Evict(p.db, p.watch, Keep(desired), faults.unlink, rule, glob(p.watch));
    var bytes := p.bytes + ev.bytes;
    var done := rec.(added := p.added, removed := ev.count, bytes := bytes, status := Succeeded, completedAt := Some(now));
    assert (db.history + [done])[..|db.history|] == db.history;
    Synced(ev.db.(history := db.history + [done]), ev.watch, Report(true, None, p.added, ev.count, Some(bytes)), p.ticks)
  }

  /** With the watch found and the query succeeding, `sync_to_watch` is `Run`. */
  lemma FoundRuns(db: Db, fs: FileMap, h: Device.Host, c: Device.Config, watch: FileMap,
                  glob: FileMap -> seq<Path>, faults: Faults, rule: Rule, now: int)
    requires Device.HasMusicFolder(h, c)
    ensures SyncToWatch(db, fs, h, c, watch, glob, faults, None, rule, now) == Ok(Run(db, fs, watch, glob, faults, rule, now))
  {
    Device.MusicFolderIffConnected(h, c);
  }

  /** A run is the copy pass over the desired set followed by the evict pass. */
  lemma RunShape(db: Db, fs: FileMap, watch: FileMap, glob: FileMap -> seq<Path>, faults: Faults, rule: Rule, now: int)
    ensures var d := EpisodesToSync(db);
      var p := Converge(Pass(db.(history := db.history + [Opened(db.history, now)]), watch, 0, 0, []), fs, faults.copy, now, d, 0, |d|);
      var ev := Evict(p.db, p.watch, Keep(d), faults.unlink, rule, glob(p.watch));
      var r := Run(db, fs, watch, glob, faults, rule, now);
      && r.report.success && r.report.added == p.added && r.report.removed == ev.count
      && r.report.bytes.Some? && r.report.bytes.value == p.bytes + ev.bytes
      && r.watch == ev.watch && r.ticks == p.ticks && r.db.episodes == ev.db.episodes
  {
    var db1 := db.(history := db.history + [Opened(db.history, now)]);
    assert db1.podcasts == db.podcasts && db1.episodes == db.episodes;
    assert EpisodesToSync(db1) == EpisodesToSync(db);
  }

  /** With the watch found and the query succeeding, the progress calls cover the desired set in order. */
  lemma SyncTicks(db: Db, fs: FileMap, h: Device.Host, c: Device.Config, watch: FileMap,
                  glob: FileMap -> seq<Path>, faults: Faults, rule: Rule, now: int)
    requires Device.HasMusicFolder(h, c)
    ensures var r := SyncToWatch(db, fs, h, c, watch, glob, faults, None, rule, now).value;
      var d := EpisodesToSync(db);
      && r.report.success
      && |r.ticks| == |d|
      && forall k :: 0 <= k < |d| ==> r.ticks[k] == Tick(k + 1, |d|, d[k].title)
  {
    FoundRuns(db, fs, h, c, watch, glob, faults, rule, now);
    RunShape(db, fs, watch, glob, faults, rule, now);
    var db1 := db.(history := db.history + [Opened(db.history, now)]);
    var d := EpisodesToSync(db);
    ConvergeTicks(Pass(db1, watch, 0, 0, []), fs, faults.copy, now, d, 0, |d|);
  }

  /** `Name("")` is empty, so an empty converted path is never one of the listed `.mp3` names. */
  lemma NameOfEmpty()
    ensures Name("") == "" && !Mp3Name("")
  {
  }

  /**
   * The evict pass without unlink errors over a listing of the folder's
   * `.mp3` files: the `.mp3` files left are kept ones, and every kept or
   * non-`.mp3` file stays, with its size.
   */
  lemma EvictCleans(db: Db, w: FileMap, keep: set<string>, rule: Rule, names: seq<Path>)
    requires Lists(names, Only(w, Mp3Name))
    ensures var ev := Evict(db, w, keep, {}, rule, names);
      && (forall n :: n in ev.watch && Mp3Name(n) ==> n in keep)
      && (forall n :: n in w && (n in keep || !Mp3Name(n)) ==> n in ev.watch && ev.watch[n] == w[n])
  {
    var ev := Evict(db, w, keep, {}, rule, names);
    forall n | n in ev.watch && Mp3Name(n) ensures n in keep {
      assert n in Only(w, Mp3Name);
    }
    forall n | n in w && (n in keep || !Mp3Name(n)) ensures n in ev.watch && ev.watch[n] == w[n] {
      assert n !in Only(w, Mp3Name) || n in keep;
    }
  }

  /**
   * A run without I/O errors reconciles the folder: every desired episode
   * whose converted file exists is on the watch, every `.mp3` left on the
   * watch is one of the desired set's file names, and no other file that
   * was there is removed.
   */
  lemma SyncReconciles(db: Db, fs: FileMap, h: Device.Host, c: Device.Config, watch: FileMap,
                       glob: FileMap -> seq<Path>, rule: Rule, now: int)
    requires Device.HasMusicFolder(h, c) && Enumerates(glob)
    requires NamesAgree(EpisodesToSync(db), fs)
    ensures var r := SyncToWatch(db, fs, h, c, watch, glob, Faults({}, {}), None, rule, now).value;
      var d := EpisodesToSync(db);
      && r.report.success
      && (forall k :: 0 <= k < |d| && Present(d[k], fs) ==> OnWatch(r.watch, fs, d[k]))
      && (forall n :: n in r.watch && Mp3Name(n) ==> n in Keep(d))
      && (forall n :: n in watch && !Mp3Name(n) ==> n in r.watch)
  {
    FoundRuns(db, fs, h, c, watch, glob, Faults({}, {}), rule, now);
    RunShape(db, fs, watch, glob, Faults({}, {}), rule, now);
    NameOfEmpty();
    var db1 := db.(history := db.history + [Opened(db.history, now)]);
    var d := EpisodesToSync(db);
    var p0 := Pass(db1, watch, 0, 0, []);
    ConvergeCopies(p0, fs, {}, now, d, 0, |d|);
    ConvergeWrites(p0, fs, {}, now, d, 0, |d|);
    var p := Converge(p0, fs, {}, now, d, 0, |d|);
    var keep := Keep(d);
    EvictCleans(p.db, p.watch, keep, rule, glob(p.watch));
    var ev := Evict(p.db, p.watch, keep, {}, rule, glob(p.watch));
    forall k | 0 <= k < |d| && Present(d[k], fs) ensures OnWatch(ev.watch, fs, d[k]) {
      var n := Name(d[k].convertedPath.value);
      assert OnWatch(p.watch, fs, d[k]);
      assert n in keep || !Mp3Name(n);
    }
    forall n | n in watch && !Mp3Name(n) ensures n in ev.watch {
      assert n in p.watch;
    }
  }

  /**
   * With exact name matching, a run without copy errors leaves every
   * desired row whose converted file exists marked synced.
   */
  lemma KeptStaySynced(db: Db, fs: FileMap, h: Device.Host, c: Device.Config, watch: FileMap,
                       glob: FileMap -> seq<Path>, unlink: set<Path>, now: int)
    requires Device.HasMusicFolder(h, c)
    ensures var r := SyncToWatch(db, fs, h, c, watch, glob, Faults({}, unlink), None, SameName, now).value;
      var d := EpisodesToSync(db);
      forall i, k ::
        (0 <= i < |db.episodes| && 0 <= k < |d| && db.episodes[i] == d[k] && Truthy(d[k].convertedPath) && Present(d[k], fs))
        ==> r.db.episodes[i].synced
  {
    FoundRuns(db, fs, h, c, watch, glob, Faults({}, unlink), SameName, now);
    RunShape(db, fs, watch, glob, Faults({}, unlink), SameName, now);
    var db1 := db.(history := db.history + [Opened(db.history, now)]);
    var d := EpisodesToSync(db);
    var p0 := Pass(db1, watch, 0, 0, []);
    ConvergeStamps(p0, fs, {}, now, d, 0, |d|);
    var p := Converge(p0, fs, {}, now, d, 0, |d|);
    var names := glob(p.watch);
    var keep := Keep(d);
    var ev := Evict(p.db, p.watch, keep, unlink, SameName, names);
    forall i, k | (0 <= i < |db.episodes| && 0 <= k < |d| && db.episodes[i] == d[k] && Truthy(d[k].convertedPath) && Present(d[k], fs))
      ensures ev.db.episodes[i].synced
    {
      assert Plain(p.db.episodes[i]) == Plain(d[k]);
      assert Stamped(p.db.episodes, d[k].id);
      assert p.db.episodes[i].synced;
      assert Name(d[k].convertedPath.value) in keep;
      EvictSparesKept(p.db, p.watch, keep, unlink, names, i);
    }
  }

  /** Two selections with the same converted paths, position by position, keep the same names. */
  lemma KeepSame(a: seq<Episode>, b: seq<Episode>)
    requires |a| == |b| && forall k :: 0 <= k < |a| ==> a[k].convertedPath == b[k].convertedPath
    ensures Keep(a) == Keep(b)
  {
    forall n | n in Keep(a) ensures n in Keep(b) {
      var i :| 0 <= i < |a| && Truthy(a[i].convertedPath) && Name(a[i].convertedPath.value) == n;
      assert Truthy(b[i].convertedPath);
    }
    forall n | n in Keep(b) ensures n in Keep(a) {
      var i :| 0 <= i < |b| && Truthy(b[i].convertedPath) && Name(b[i].convertedPath.value) == n;
      assert Truthy(a[i].convertedPath);
    }
  }

  /** A run without I/O errors on an already reconciled watch copies nothing, removes nothing, and leaves the folder as it was. */
  lemma QuietRun(db: Db, fs: FileMap, h: Device.Host, c: Device.Config, watch: FileMap,
                 glob: FileMap -> seq<Path>, rule: Rule, now: int)
    requires Device.HasMusicFolder(h, c) && Enumerates(glob)
    requires forall k :: 0 <= k < |EpisodesToSync(db)| && Present(EpisodesToSync(db)[k], fs) ==>
      OnWatch(watch, fs, EpisodesToSync(db)[k])
    requires forall n :: n in watch && Mp3Name(n) ==> n in Keep(EpisodesToSync(db))
    ensures var r := SyncToWatch(db, fs, h, c, watch, glob, Faults({}, {}), None, rule, now).value;
      r.report.success && r.report.added == 0 && r.report.removed == 0 && r.watch == watch
  {
    FoundRuns(db, fs, h, c, watch, glob, Faults({}, {}), rule, now);
    RunShape(db, fs, watch, glob, Faults({}, {}), rule, now);
    var db1 := db.(history := db.history + [Opened(db.history, now)]);
    var d := EpisodesToSync(db);
    var p0 := Pass(db1, watch, 0, 0, []);
    ConvergeQuiet(p0, fs, {}, now, d, 0, |d|);
    var p := Converge(p0, fs, {}, now, d, 0, |d|);
    var names := glob(p.watch);
    assert Lists(names, Only(watch, Mp3Name));
    EvictNothing(p.db, watch, Keep(d), rule, names);
  }

  /** The evict pass over a folder whose `.mp3` files are all kept removes nothing. */
  lemma EvictNothing(db: Db, w: FileMap, keep: set<string>, rule: Rule, names: seq<Path>)
    requires Lists(names, Only(w, Mp3Name))
    requires forall n :: n in w && Mp3Name(n) ==> n in keep
    ensures var ev := Evict(db, w, keep, {}, rule, names);
      ev.watch == w && ev.count == 0
  {
    var ev := Evict(db, w, keep, {}, rule, names);
    forall n | n in names ensures n in keep {
      assert n in Only(w, Mp3Name);
    }
    forall n | n in w ensures n in ev.watch {
      assert !Evicts(keep, {}, names, n);
    }
    assert ev.watch.Keys == w.Keys;
  }

  /**
   * A second run straight after a run without I/O errors copies nothing
   * and removes nothing.
   */
  lemma RerunIsQuiet(db: Db, fs: FileMap, h: Device.Host, c: Device.Config, watch: FileMap,
                     glob: FileMap -> seq<Path>, rule: Rule, now1: int, now2: int)
    requires Device.HasMusicFolder(h, c) && Enumerates(glob)
    requires NamesAgree(EpisodesToSync(db), fs)
    ensures var r1 := SyncToWatch(db, fs, h, c, watch, glob, Faults({}, {}), None, rule, now1).value;
      var r2 := SyncToWatch(r1.db, fs, h, c, r1.watch, glob, Faults({}, {}), None, rule, now2).value;
      r2.report.success && r2.report.added == 0 && r2.report.removed == 0 && r2.watch == r1.watch
  {
    SyncReconciles(db, fs, h, c, watch, glob, rule, now1);
    var r1 := SyncToWatch(db, fs, h, c, watch, glob, Faults({}, {}), None, rule, now1).value;
    var d1 := EpisodesToSync(db);
    var d2 := EpisodesToSync(r1.db);
    SyncOnlyDesired(db, r1.db);
    forall k | 0 <= k < |d1| ensures d1[k].convertedPath == d2[k].convertedPath {
      assert Plain(d1[k]) == Plain(d2[k]);
    }
    KeepSame(d1, d2);
    QuietRun(r1.db, fs, h, c, r1.watch, glob, rule, now2);
  }

  /**
   * Without `NamesAgree` a re-run is not quiet: two desired episodes whose
   * converted files share a name but not a size are copied over each
   * other on every run.
   */
  lemma NameClashRecopies(p: Pass, fs: FileMap, now1: int, now2: int, e1: Episode, e2: Episode)
    requires Present(e1, fs) && Present(e2, fs)
    requires Name(e1.convertedPath.value) == Name(e2.convertedPath.value)
    requires fs[e1.convertedPath.value] != fs[e2.convertedPath.value]
    ensures var r1 := Converge(p, fs, {}, now1, [e1, e2], 0, 2);
      var r2 := Converge(Pass(r1.db, r1.watch, 0, 0, []), fs, {}, now2, [e1, e2], 0, 2);
      r2.added == 2
  {
    var q1 := CopyOne(p, fs, {}, now1, e1, Tick(1, 2, e1.title));
    var q2 := CopyOne(q1, fs, {}, now1, e2, Tick(2, 2, e2.title));
    assert [e1, e2][1..] == [e2] && [e2][1..] == [];
    assert Converge(q1, fs, {}, now1, [e2], 1, 2) == q2;
    assert Converge(p, fs, {}, now1, [e1, e2], 0, 2) == q2;
    var s0 := Pass(q2.db, q2.watch, 0, 0, []);
    var s1 := CopyOne(s0, fs, {}, now2, e1, Tick(1, 2, e1.title));
    var s2 := CopyOne(s1, fs, {}, now2, e2, Tick(2, 2, e2.title));
    assert Converge(s1, fs, {}, now2, [e2], 1, 2) == s2;
    assert Converge(s0, fs, {}, now2, [e1, e2], 0, 2) == s2;
  }

  // ---------------------------------------------------------------------
  // Statistics and history (lines 247-290)
  // ---------------------------------------------------------------------

  /** Lines 274-277: a downloaded row with a converted path, of any podcast. */
  predicate Converted(e: Episode) {
    e.status == Downloaded && e.convertedPath.Some?
  }

  /** What `get_sync_stats` returns. */
  datatype Stats = Stats(total: int, synced: int, pending: int, connected: bool)

  /**
   * `get_sync_stats` as written: `pending_sync` is the difference of two
   * unrelated counts. An error raised while detecting the watch escapes.
   */
  function GetSyncStats(db: Db, h: Device.Host, c: Device.Config): (r: Result<Stats>)
    ensures r.Err? <==> Device.GetWatchMountPoint(h, c).Err?
    ensures r.Ok? ==> var s := r.value;
      && 0 <= s.total <= |db.episodes| && 0 <= s.synced <= |db.episodes|
      && s.total == Count(db.episodes, Converted) && s.synced == Count(db.episodes, IsSynced)
      && s.pending == s.total - s.synced
      && (s.connected <==> Device.GetWatchMountPoint(h, c).value.Some?)
  {
    Device.ConnectedIffMounted(h, c);
    var total := Count(db.episodes, Converted);
    var synced := Count(db.episodes, IsSynced);
    var connected := Device.IsWatchConnected(h, c);
    if connected.Err? then Err(connected.error)
    else Ok(Stats(total, synced, total - synced, connected.value))
  }

  /**
   * Line 283 as written: `delete_episode_file` leaves `synced_to_watch` set,
   * so deleting the files of the only episode, a synced one, takes the
   * pending count from 0 to -1.
   */
  lemma PendingGoesNegative(e: Episode, fs: FileMap, h: Device.Host, c: Device.Config)
    requires e.status == Downloaded && e.synced && Truthy(e.localPath) && Truthy(e.convertedPath)
    requires Device.GetWatchMountPoint(h, c).Ok?
    ensures var db := Db([], [e], []);
      && GetSyncStats(db, h, c).value.pending == 0
      && GetSyncStats(Download.DeleteEpisodeFile(db, fs, {}, e.id).0, h, c).value.pending == -1
  {
    var db := Db([], [e], []);
    var e' := e.(localPath := None, status := Pending, progress := 0, convertedPath := None);
    assert Download.DeleteEpisodeFile(db, fs, {}, e.id).0.episodes == [e'];
    assert Count([e'], Converted) == 0 && Count([e'], IsSynced) == 1;
  }

  /** A converted row that is not on the watch yet. */
  predicate Awaiting(e: Episode) {
    Converted(e) && !e.synced
  }

  /** The pending count as intended: converted episodes not yet synced. */
  function PendingSync(eps: seq<Episode>): (n: nat)
    ensures n <= Count(eps, Converted)
    decreases |eps|
  {
    if eps == [] then 0
    else (if Awaiting(eps[0]) then 1 else 0) + PendingSync(eps[1..])
  }

  /** Where every synced row is a converted one, the intended count is the difference the code computes. */
  lemma {:induction false} PendingAgrees(eps: seq<Episode>)
    requires forall i :: 0 <= i < |eps| && eps[i].synced ==> Converted(eps[i])
    ensures PendingSync(eps) == Count(eps, Converted) - Count(eps, IsSynced)
    decreases |eps|
  {
    if eps != [] {
      PendingAgrees(eps[1..]);
    }
  }

  /** Sorting by this key ascending is sorting by `created_at` descending. */
  function NewestFirst(rec: SyncRecord): int {
    0 - rec.createdAt
  }

  /** `get_sync_history(limit)` (the default limit is 20): newest runs first, at most `limit` of them. */
  function GetSyncHistory(db: Db, limit: int): (r: seq<SyncRecord>)
    ensures forall i, j :: 0 <= i < j < |r| ==> r[i].createdAt >= r[j].createdAt
    ensures multiset(r) <= multiset(db.history)
    ensures limit >= 0 ==> |r| == if limit < |db.history| then limit else |db.history|
    ensures limit < 0 ==> |r| == |db.history|
  {
    var r := Top(db.history, NewestFirst, limit);
    assert forall i, j :: 0 <= i < j < |r| ==> NewestFirst(r[i]) <= NewestFirst(r[j]);
    r
  }

  /** A run left out of the history page is no newer than any run on it. */
  lemma HistoryIsNewest(db: Db, limit: int, x: SyncRecord, y: SyncRecord)
    requires x in GetSyncHistory(db, limit) && y in db.history && y !in GetSyncHistory(db, limit)
    ensures y.createdAt <= x.createdAt
  {
    TopIsBest(db.history, NewestFirst, limit, x, y);
  }
}

=== FILE: text.dfy ===
/**
 * The Python string operations the services rely on, written out over
 * `seq<char>`: `lower`, `strip`, `split`, `' '.join(s.split())`, `in`,
 * `endswith` and `int()`. Whitespace is what `str.isspace` accepts.
 */
module Text {

  import opened Model

  /** `str.isspace` for one character: the characters `str.split()` and `str.strip()` treat as blank. */
  predicate IsSpace(c: char) {
    || c == ' '
    || ('\t' <= c <= '\r')
    || ('\U{1C}' <= c <= '\U{1F}')
    || c == '\U{85}' || c == '\U{A0}' || c == '\U{1680}'
    || ('\U{2000}' <= c <= '\U{200A}')
    || c == '\U{2028}' || c == '\U{2029}' || c == '\U{202F}' || c == '\U{205F}' || c == '\U{3000}'
  }

  predicate IsDigit(c: char) {
    '0' <= c <= '9'
  }

  /** ASCII case folding, the part of `str.lower` the model covers. */
  function LowerChar(c: char): (d: char)
    ensures 'A' <= c <= 'Z' ==> 'a' <= d <= 'z'
    ensures !('A' <= c <= 'Z') ==> d == c
  {
    if 'A' <= c <= 'Z' then (c as int + 32) as char else c
  }

  function Lower(s: string): (r: string)
    ensures |r| == |s|
    ensures forall i :: 0 <= i < |s| ==> r[i] == LowerChar(s[i])
  {
    if s == [] then [] else [LowerChar(s[0])] + Lower(s[1..])
  }

  /** `c` does not occur in `s`. */
  predicate Free(s: string, c: char) {
    forall k :: 0 <= k < |s| ==> s[k] != c
  }

  /** No character of `s` is in `bad`. */
  predicate Avoids(s: string, bad: set<char>) {
    forall k :: 0 <= k < |s| ==> s[k] !in bad
  }

  predicate StartsWith(s: string, prefix: string) {
    |prefix| <= |s| && s[..|prefix|] == prefix
  }

  predicate EndsWith(s: string, suffix: string) {
    |suffix| <= |s| && s[|s| - |suffix|..] == suffix
  }

  /** `needle in hay` for strings. */
  predicate Contains(hay: string, needle: string)
    decreases |hay|
  {
    StartsWith(hay, needle) || (hay != [] && Contains(hay[1..], needle))
  }

  /** Every occurrence of a character of `bad` removed, the rest kept in order (`str.replace(c, '')`). */
  function RemoveChars(s: string, bad: set<char>): (r: string)
    ensures forall k :: 0 <= k < |r| ==> r[k] !in bad
    ensures |r| <= |s|
    ensures (forall k :: 0 <= k < |s| ==> s[k] !in bad) ==> r == s
  {
    if s == [] then []
    else (if s[0] in bad then [] else [s[0]]) + RemoveChars(s[1..], bad)
  }

  /** Removal works character by character: a kept character stays, a bad one goes. */
  lemma {:induction false} RemoveCharsConcat(x: string, y: string, bad: set<char>)
    ensures RemoveChars(x + y, bad) == RemoveChars(x, bad) + RemoveChars(y, bad)
    decreases |x|
  {
    if x == [] {
      assert x + y == y;
    } else {
      assert x == [x[0]] + x[1..];
      assert x + y == [x[0]] + (x[1..] + y);
      RemoveCharsCons(x[0], x[1..], bad);
      RemoveCharsCons(x[0], x[1..] + y, bad);
      RemoveCharsConcat(x[1..], y, bad);
    }
  }

  lemma RemoveCharsCons(c: char, s: string, bad: set<char>)
    ensures RemoveChars([c] + s, bad) == (if c in bad then [] else [c]) + RemoveChars(s, bad)
  {
    assert ([c] + s)[1..] == s;
  }

  lemma RemoveCharsOne(c: char, bad: set<char>)
    ensures c in bad ==> RemoveChars([c], bad) == []
    ensures c !in bad ==> RemoveChars([c], bad) == [c]
  {
    assert [c][1..] == [];
  }

  /** Removing characters never brings in one that was not there. */
  lemma {:induction false} RemoveCharsAvoids(s: string, bad: set<char>, other: set<char>)
    requires Avoids(s, other)
    ensures Avoids(RemoveChars(s, bad), other)
  {
    if s != [] {
      RemoveCharsAvoids(s[1..], bad, other);
    }
  }

  /** How many leading characters of `s` are dropped. */
  function Lead(s: string, drop: char -> bool): (n: nat)
    ensures n <= |s|
    ensures forall k :: 0 <= k < n ==> drop(s[k])
    ensures n < |s| ==> !drop(s[n])
  {
    if s != [] && drop(s[0]) then 1 + Lead(s[1..], drop) else 0
  }

  /** How many trailing characters of `s` are dropped. */
  function Trail(s: string, drop: char -> bool): (n: nat)
    ensures n <= |s|
    ensures forall k :: |s| - n <= k < |s| ==> drop(s[k])
    ensures n < |s| ==> !drop(s[|s| - 1 - n])
  {
    if s != [] && drop(s[|s| - 1]) then 1 + Trail(s[..|s| - 1], drop) else 0
  }

  /** `s.strip(chars)`: the longest middle slice whose ends are not dropped characters. */
  function Strip(s: string, drop: char -> bool): (r: string)
    ensures |r| <= |s|
    ensures r != [] ==> !drop(r[0]) && !drop(r[|r| - 1])
    ensures s != [] && !drop(s[0]) && !drop(s[|s| - 1]) ==> r == s
  {
    var t := s[Lead(s, drop)..];
    t[..|t| - Trail(t, drop)]
  }

  /** What `strip` keeps is a middle slice, and everything it cuts from either end is a dropped character. */
  lemma StripIsSlice(s: string, drop: char -> bool)
    ensures exists a, b ::
      && 0 <= a <= b <= |s| && Strip(s, drop) == s[a..b]
      && (forall k :: 0 <= k < a ==> drop(s[k]))
      && (forall k :: b <= k < |s| ==> drop(s[k]))
  {
    var a := Lead(s, drop);
    var t := s[a..];
    var n := Trail(t, drop);
    var b := |s| - n;
    assert Strip(s, drop) == s[a..b];
    forall k | b <= k < |s| ensures drop(s[k]) {
      assert s[k] == t[k - a];
    }
  }

  /** Stripping blank padding around a middle that starts and ends with a kept character gives the middle. */
  lemma StripPadded(lead: string, mid: string, trail: string, drop: char -> bool)
    requires forall k :: 0 <= k < |lead| ==> drop(lead[k])
    requires forall k :: 0 <= k < |trail| ==> drop(trail[k])
    requires mid != [] && !drop(mid[0]) && !drop(mid[|mid| - 1])
    ensures Strip(lead + mid + trail, drop) == mid
  {
    var s := lead + mid + trail;
    assert forall k :: 0 <= k < |lead| ==> s[k] == lead[k];
    assert s[|lead|] == mid[0];
    var a := Lead(s, drop);
    assert a == |lead|;
    var t := s[a..];
    assert t == mid + trail;
    assert forall k :: |mid| <= k < |t| ==> t[k] == trail[k - |mid|];
    assert t[|t| - 1 - |trail|] == mid[|mid| - 1];
    var b := Trail(t, drop);
    assert b == |trail|;
    assert t[..|t| - b] == mid;
  }

  // ---------------------------------------------------------------------
  // str.split(sep) and sep.join(parts)

  /** `sep.join(parts)` */
  function JoinOn(parts: seq<string>, sep: char): string
  {
    if |parts| == 0 then ""
    else if |parts| == 1 then parts[0]
    else parts[0] + [sep] + JoinOn(parts[1..], sep)
  }

  /** The index of the first `c` in `s`, or `|s|` when there is none. */
  function IndexOf(s: string, c: char): (i: nat)
    ensures i <= |s|
    ensures i < |s| ==> s[i] == c
    ensures Free(s[..i], c)
  {
    if s == [] then 0
    else if s[0] == c then 0
    else 1 + IndexOf(s[1..], c)
  }

  /** `s.split(sep)`: the pieces between the separators, at least one of them. */
  function Split(s: string, sep: char): (parts: seq<string>)
    ensures |parts| >= 1
    ensures forall i :: 0 <= i < |parts| ==> Free(parts[i], sep)
    ensures JoinOn(parts, sep) == s
    ensures Free(s, sep) ==> parts == [s]
    decreases |s|
  {
    var i := IndexOf(s, sep);
    if i == |s| then
      assert s[..i] == s;
      [s]
    else
      var rest := Split(s[i + 1..], sep);
      var parts := [s[..i]] + rest;
      assert parts[1..] == rest;
      assert s == s[..i] + [sep] + s[i + 1..];
      parts
  }

  /** Splitting a joined list gives the list back when no piece holds the separator. */
  lemma {:induction false} SplitJoin(parts: seq<string>, sep: char)
    requires |parts| >= 1
    requires forall i :: 0 <= i < |parts| ==> Free(parts[i], sep)
    ensures Split(JoinOn(parts, sep), sep) == parts
  {
    var s := JoinOn(parts, sep);
    if |parts| == 1 {
      assert Free(s, sep);
    } else {
      var head := parts[0];
      var tail := JoinOn(parts[1..], sep);
      assert s == head + [sep] + tail;
      var i := IndexOf(s, sep);
      assert s[..|head|] == head;
      assert s[|head|] == sep;
      assert i == |head|;
      assert s[i + 1..] == tail;
      SplitJoin(parts[1..], sep);
      assert Split(s, sep) == [head] + Split(tail, sep);
    }
  }

  // ---------------------------------------------------------------------
  // str.split() with no separator, and ' '.join of its words

  predicate NoSpace(w: string) {
    forall i :: 0 <= i < |w| ==> !IsSpace(w[i])
  }

  /** The number of leading blanks. */
  function SkipSpaces(s: string): (k: nat)
    ensures k <= |s|
    ensures forall i :: 0 <= i < k ==> IsSpace(s[i])
    ensures k < |s| ==> !IsSpace(s[k])
  {
    if s != [] && IsSpace(s[0]) then 1 + SkipSpaces(s[1..]) else 0
  }

  /** The length of the leading run of non-blanks. */
  function WordEnd(s: string): (k: nat)
    ensures k <= |s|
    ensures forall i :: 0 <= i < k ==> !IsSpace(s[i])
    ensures k < |s| ==> IsSpace(s[k])
  {
    if s != [] && !IsSpace(s[0]) then 1 + WordEnd(s[1..]) else 0
  }

  /** `s.split()`: the maximal runs of non-blank characters, in order. */
  function Words(s: string): (ws: seq<string>)
    ensures forall i :: 0 <= i < |ws| ==> ws[i] != "" && NoSpace(ws[i])
    ensures ws == [] <==> (forall i :: 0 <= i < |s| ==> IsSpace(s[i]))
    decreases |s|, 1
  {
    var a := SkipSpaces(s);
    WordsFrom(s[a..])
  }

  /** The words of a string that does not start with a blank. */
  function WordsFrom(t: string): (ws: seq<string>)
    requires t == [] || !IsSpace(t[0])
    ensures forall i :: 0 <= i < |ws| ==> ws[i] != "" && NoSpace(ws[i])
    ensures ws == [] <==> t == []
    decreases |t|, 0
  {
    if t == [] then []
    else
      var b := WordEnd(t);
      [t[..b]] + Words(t[b..])
  }

  /** The words of `s` hold only characters of `s`. */
  lemma {:induction false} WordsAvoid(s: string, bad: set<char>)
    requires Avoids(s, bad)
    ensures forall i :: 0 <= i < |Words(s)| ==> Avoids(Words(s)[i], bad)
    decreases |s|
  {
    var a := SkipSpaces(s);
    if a < |s| {
      var t := s[a..];
      var b := WordEnd(t);
      assert Avoids(t[b..], bad) by {
        forall k | 0 <= k < |t[b..]| ensures t[b..][k] !in bad {
          assert t[b..][k] == s[a + b + k];
        }
      }
      assert Avoids(t[..b], bad) by {
        forall k | 0 <= k < b ensures t[..b][k] !in bad {
          assert t[..b][k] == s[a + k];
        }
      }
      WordsAvoid(t[b..], bad);
      assert Words(s) == WordsFrom(t) == [t[..b]] + Words(t[b..]);
    }
  }

  /** Leading blanks do not move the first non-blank. */
  lemma {:induction false} SkipShift(s: string, k: nat)
    requires k <= |s|
    requires forall i :: 0 <= i < k ==> IsSpace(s[i])
    ensures SkipSpaces(s) == k + SkipSpaces(s[k..])
  {
    var a' := SkipSpaces(s[k..]);
    forall i | k <= i < k + a' ensures IsSpace(s[i]) {
      assert s[k..][i - k] == s[i];
    }
    if k + a' < |s| {
      assert s[k..][a'] == s[k + a'];
    }
  }

  /** Leading blanks do not change the words. */
  lemma {:induction false} WordsAfterSpaces(s: string, k: nat)
    requires k <= |s|
    requires forall i :: 0 <= i < k ==> IsSpace(s[i])
    ensures Words(s[k..]) == Words(s)
  {
    SkipShift(s, k);
    assert s[k..][SkipSpaces(s[k..])..] == s[SkipSpaces(s)..];
  }

  /** A tidy string: its only blank is ' ', never at either end and never twice in a row. */
  predicate Tidy(s: string) {
    forall k :: 0 <= k < |s| && IsSpace(s[k]) ==> s[k] == ' ' && 0 < k < |s| - 1 && s[k + 1] != ' '
  }

  lemma TidyCons(w: string, rest: string)
    requires w != "" && NoSpace(w)
    requires rest != "" && Tidy(rest)
    ensures Tidy(w + " " + rest)
  {
    var s := w + " " + rest;
    forall k | 0 <= k < |s| && IsSpace(s[k])
      ensures s[k] == ' ' && 0 < k < |s| - 1 && s[k + 1] != ' '
    {
      if k < |w| {
        assert false;
      } else if k > |w| {
        assert s[k] == rest[k - |w| - 1];
        if k < |s| - 1 {
          assert s[k + 1] == rest[k - |w|];
        }
      } else {
        assert s[k + 1] == rest[0];
      }
    }
  }

  /** Joining non-empty blank-free words with single spaces gives a tidy string. */
  lemma {:induction false} JoinWordsTidy(ws: seq<string>)
    requires forall i :: 0 <= i < |ws| ==> ws[i] != "" && NoSpace(ws[i])
    ensures Tidy(JoinOn(ws, ' '))
    ensures JoinOn(ws, ' ') == "" <==> ws == []
  {
    if |ws| == 0 {
    } else if |ws| == 1 {
    } else {
      JoinWordsTidy(ws[1..]);
      TidyCons(ws[0], JoinOn(ws[1..], ' '));
    }
  }

  /** Joining pieces that avoid `bad` with a separator outside `bad` avoids `bad`. */
  lemma {:induction false} JoinAvoids(ws: seq<string>, sep: char, bad: set<char>)
    requires sep !in bad
    requires forall i :: 0 <= i < |ws| ==> Avoids(ws[i], bad)
    ensures Avoids(JoinOn(ws, sep), bad)
  {
    if |ws| >= 2 {
      JoinAvoids(ws[1..], sep, bad);
      var rest := JoinOn(ws[1..], sep);
      var s := ws[0] + [sep] + rest;
      forall k | 0 <= k < |s| ensures s[k] !in bad {
        if k < |ws[0]| {
          assert s[k] == ws[0][k];
        } else if k > |ws[0]| {
          assert s[k] == rest[k - |ws[0]| - 1];
        }
      }
    }
  }

  /** A blank-free prefix followed by a blank or the end is exactly the leading run of non-blanks. */
  lemma {:induction false} WordEndPrefix(w: string, rest: string)
    requires NoSpace(w)
    requires rest == [] || IsSpace(rest[0])
    ensures WordEnd(w + rest) == |w|
  {
    if w == [] {
      assert w + rest == rest;
    } else {
      assert (w + rest)[1..] == w[1..] + rest;
      WordEndPrefix(w[1..], rest);
    }
  }

  /** A word followed by a space: the word comes first, then the words of the rest. */
  lemma WordsCons(w: string, rest: string)
    requires w != "" && NoSpace(w)
    ensures Words(w + [' '] + rest) == [w] + Words(rest)
  {
    var s := w + [' '] + rest;
    assert s[0] == w[0];
    assert SkipSpaces(s) == 0;
    assert s[0..] == s;
    assert Words(s) == WordsFrom(s);
    assert s == w + ([' '] + rest);
    WordEndPrefix(w, [' '] + rest);
    var b := WordEnd(s);
    assert s[..b] == w;
    assert s[b..][1..] == rest;
    WordsAfterSpaces(s[b..], 1);
  }

  /** A single blank-free word is its own split. */
  lemma WordsSingle(w: string)
    requires w != "" && NoSpace(w)
    ensures Words(w) == [w]
  {
    assert w[0..] == w;
    assert SkipSpaces(w) == 0;
    assert Words(w) == WordsFrom(w);
    WordEndPrefix(w, []);
    assert w + [] == w;
    var b := WordEnd(w);
    assert w[b..] == [];
    assert Words([]) == [];
  }

  lemma JoinOnCons(w: string, rest: seq<string>, sep: char)
    requires |rest| >= 1
    ensures JoinOn([w] + rest, sep) == w + [sep] + JoinOn(rest, sep)
  {
    assert ([w] + rest)[1..] == rest;
  }

  /** Round trip: the words of `' '.join(ws)` are `ws`. */
  lemma {:induction false} WordsOfJoin(ws: seq<string>)
    requires forall i :: 0 <= i < |ws| ==> ws[i] != "" && NoSpace(ws[i])
    ensures Words(JoinOn(ws, ' ')) == ws
  {
    if |ws| == 1 {
      WordsSingle(ws[0]);
    } else if |ws| > 1 {
      WordsOfJoin(ws[1..]);
      WordsCons(ws[0], JoinOn(ws[1..], ' '));
      assert [ws[0]] + ws[1..] == ws;
    }
  }

  /** What follows a space of a tidy string is tidy again. */
  lemma TidyAfter(s: string, j: nat)
    requires Tidy(s) && j <= |s|
    requires j < |s| ==> !IsSpace(s[j])
    ensures Tidy(s[j..])
  {
    var t := s[j..];
    forall k | 0 <= k < |t| && IsSpace(t[k])
      ensures t[k] == ' ' && 0 < k < |t| - 1 && t[k + 1] != ' '
    {
      assert t[k] == s[j + k];
      if k + 1 < |t| { assert t[k + 1] == s[j + k + 1]; }
    }
  }

  /** Round trip the other way: a tidy string is the single-space join of its words. */
  lemma {:induction false} JoinOfWords(s: string)
    requires Tidy(s)
    ensures JoinOn(Words(s), ' ') == s
    decreases |s|
  {
    if s != "" {
      var b := WordEnd(s);
      var w := s[..b];
      assert b > 0;
      if b == |s| {
        assert w == s;
        WordsSingle(s);
      } else {
        assert s[b] == ' ' && b < |s| - 1 && s[b + 1] != ' ';
        var rest := s[b + 1..];
        assert NoSpace(w);
        assert s == w + [' '] + rest;
        TidyAfter(s, b + 1);
        WordsCons(w, rest);
        JoinOfWords(rest);
        JoinOnCons(w, Words(rest), ' ');
      }
    }
  }

  /** `' '.join(s.split())`: every run of blanks becomes one space, none at the ends. */
  function Collapse(s: string): (r: string)
    ensures Tidy(r)
    ensures r == "" <==> (forall k :: 0 <= k < |s| ==> IsSpace(s[k]))
  {
    JoinWordsTidy(Words(s));
    JoinOn(Words(s), ' ')
  }

  /** Collapsing keeps out every character the input kept out, other than the space it inserts. */
  lemma CollapseAvoids(s: string, bad: set<char>)
    requires Avoids(s, bad) && ' ' !in bad
    ensures Avoids(Collapse(s), bad)
  {
    WordsAvoid(s, bad);
    JoinAvoids(Words(s), ' ', bad);
  }

  /** A tidy string is already collapsed. */
  lemma CollapseTidy(s: string)
    requires Tidy(s)
    ensures Collapse(s) == s
  {
    JoinOfWords(s);
  }

  // ---------------------------------------------------------------------
  // Decimal numerals and int()

  function DigitValue(c: char): nat
    requires IsDigit(c)
  {
    c as int - '0' as int
  }

  function DigitChar(d: nat): (c: char)
    requires d < 10
    ensures IsDigit(c) && DigitValue(c) == d
  {
    ('0' as int + d) as char
  }

  predicate AllDigits(s: string) {
    forall i :: 0 <= i < |s| ==> IsDigit(s[i])
  }

  /** The value of a string of decimal digits, most significant first. */
  function DigitsValue(s: string): nat
    requires AllDigits(s)
  {
    if s == [] then 0 else DigitsValue(s[..|s| - 1]) * 10 + DigitValue(s[|s| - 1])
  }

  /** `str(n)` for a natural number. */
  function ShowNat(n: nat): (s: string)
    ensures s != [] && AllDigits(s)
    ensures Free(s, ':')
  {
    if n < 10 then [DigitChar(n)] else ShowNat(n / 10) + [DigitChar(n % 10)]
  }

  /** `str(i)` for any integer. */
  function ShowInt(i: int): (s: string)
    ensures s != []
  {
    if i < 0 then "-" + ShowNat(-i) else ShowNat(i)
  }

  /** Reading back what `ShowNat` wrote gives the number. */
  lemma {:induction false} ShowNatValue(n: nat)
    ensures DigitsValue(ShowNat(n)) == n
  {
    var s := ShowNat(n);
    if n >= 10 {
      ShowNatValue(n / 10);
      assert s[..|s| - 1] == ShowNat(n / 10);
    }
  }

  /** The body `int()` accepts after the sign: digits, with single underscores only between digits. */
  predicate Numeral(s: string) {
    && s != []
    && IsDigit(s[0]) && IsDigit(s[|s| - 1])
    && (forall i :: 0 <= i < |s| ==> IsDigit(s[i]) || s[i] == '_')
    && (forall i :: 0 <= i < |s| - 1 ==> !(s[i] == '_' && s[i + 1] == '_'))
  }

  /** Dropping the underscores of a numeral leaves only digits. */
  lemma {:induction false} NumeralDigits(s: string)
    requires forall i :: 0 <= i < |s| ==> IsDigit(s[i]) || s[i] == '_'
    ensures AllDigits(RemoveChars(s, {'_'}))
  {
    if s != [] {
      NumeralDigits(s[1..]);
    }
  }

  /** `int(s)` for a string, or None where Python raises ValueError. */
  function ParseInt(s: string): (r: Option<int>)
    ensures r.Some? ==> exists k :: 0 <= k < |s| && IsDigit(s[k])
  {
    var t := Strip(s, IsSpace);
    var r := ParseTrimmed(t);
    assert r.Some? ==> exists k :: 0 <= k < |s| && IsDigit(s[k]) by {
      if r.Some? {
        var j :| 0 <= j < |t| && IsDigit(t[j]);
        StripKeeps(s, IsSpace, j);
      }
    }
    r
  }

  /** Every character `strip` keeps is a character of its input. */
  lemma StripKeeps(s: string, drop: char -> bool, j: nat)
    requires j < |Strip(s, drop)|
    ensures exists k :: 0 <= k < |s| && s[k] == Strip(s, drop)[j]
  {
    var a := Lead(s, drop);
    assert Strip(s, drop)[j] == s[a + j];
  }

  /** `int()` once the blanks are stripped: an optional sign, then a numeral. */
  function ParseTrimmed(t: string): (r: Option<int>)
    ensures r.Some? ==> exists k :: 0 <= k < |t| && IsDigit(t[k])
  {
    var negative := t != [] && t[0] == '-';
    var body := if t != [] && (t[0] == '-' || t[0] == '+') then t[1..] else t;
    if !Numeral(body) then None
    else
      var off := if body == t then 0 else 1;
      assert IsDigit(t[off]) by {
        assert body[0] == t[off];
      }
      NumeralDigits(body);
      var v: int := DigitsValue(RemoveChars(body, {'_'}));
      Some(if negative then -v else v)
  }

  /** `int()` of a plain run of digits is their decimal value. */
  lemma ParseDigits(s: string)
    requires s != [] && AllDigits(s)
    ensures ParseInt(s) == Some(DigitsValue(s))
  {
    assert !IsSpace(s[0]) && !IsSpace(s[|s| - 1]);
    assert Strip(s, IsSpace) == s;
    assert ParseInt(s) == ParseTrimmed(s);
    assert s[0] != '-' && s[0] != '+';
    assert Numeral(s);
    assert forall k :: 0 <= k < |s| ==> s[k] !in {'_'};
  }

  /** `int()` of a run of digits with an optional sign and blank padding on both sides. */
  lemma ParsePadded(lead: string, sign: string, digits: string, trail: string)
    requires forall k :: 0 <= k < |lead| ==> IsSpace(lead[k])
    requires forall k :: 0 <= k < |trail| ==> IsSpace(trail[k])
    requires sign == "" || sign == "-" || sign == "+"
    requires digits != [] && AllDigits(digits)
    ensures var v: int := DigitsValue(digits);
      ParseInt(lead + sign + digits + trail) == Some(if sign == "-" then -v else v)
  {
    var mid := sign + digits;
    assert mid[|mid| - 1] == digits[|digits| - 1];
    assert lead + sign + digits + trail == lead + mid + trail;
    StripPadded(lead, mid, trail, IsSpace);
    ParseStripped(lead + mid + trail, sign, digits);
  }

  /** `int()` of a string whose stripped form is a sign and a run of digits. */
  lemma ParseStripped(s: string, sign: string, digits: string)
    requires sign == "" || sign == "-" || sign == "+"
    requires digits != [] && AllDigits(digits)
    requires Strip(s, IsSpace) == sign + digits
    ensures var v: int := DigitsValue(digits);
      ParseInt(s) == Some(if sign == "-" then -v else v)
  {
    ParseSigned(sign, digits);
    ParseUnfold(s, sign + digits, digits);
    SignedValue(sign, digits);
  }

  /** The value `ParseInt` computes for `sign + digits`, in terms of the sign. */
  lemma SignedValue(sign: string, digits: string)
    requires sign == "" || sign == "-" || sign == "+"
    requires digits != [] && AllDigits(digits)
    ensures AllDigits(RemoveChars(digits, {'_'}))
    ensures var t := sign + digits;
      var v: int := DigitsValue(RemoveChars(digits, {'_'}));
      var w: int := DigitsValue(digits);
      (if t != [] && t[0] == '-' then -v else v) == (if sign == "-" then -w else w)
  {
    ParseSigned(sign, digits);
  }

  /** `ParseInt` read off its definition, for a string that strips to `t` with a numeral after the sign. */
  lemma ParseUnfold(s: string, t: string, body: string)
    requires Strip(s, IsSpace) == t
    requires body == (if t != [] && (t[0] == '-' || t[0] == '+') then t[1..] else t)
    requires Numeral(body)
    ensures AllDigits(RemoveChars(body, {'_'}))
    ensures var v: int := DigitsValue(RemoveChars(body, {'_'}));
      ParseInt(s) == Some(if t != [] && t[0] == '-' then -v else v)
  {
    NumeralDigits(body);
    assert ParseInt(s) == ParseTrimmed(t);
  }

  /** `int()` of a sign and a run of digits, once the padding is gone. */
  lemma ParseSigned(sign: string, digits: string)
    requires sign == "" || sign == "-" || sign == "+"
    requires digits != [] && AllDigits(digits)
    ensures var t := sign + digits;
      var body := if t != [] && (t[0] == '-' || t[0] == '+') then t[1..] else t;
      && body == digits && Numeral(body)
      && (t != [] && t[0] == '-' <==> sign == "-")
      && RemoveChars(body, {'_'}) == digits
  {
    var t := sign + digits;
    if sign != "" {
      assert t[0] == sign[0];
      assert t[1..] == digits;
    } else {
      assert t == digits;
    }
    assert forall k :: 0 <= k < |digits| ==> digits[k] !in {'_'};
  }

  /** A character `int()` accepts nowhere in its argument: not a digit, an underscore, a blank or a sign. */
  predicate Foreign(c: char) {
    !IsDigit(c) && c != '_' && !IsSpace(c) && c != '+' && c != '-'
  }

  /** `int()` refuses any string that holds a foreign character: the ValueError path. */
  lemma ParseRejects(a: string, c: char, b: string)
    requires Foreign(c)
    ensures ParseInt(a + [c] + b).None?
  {
    var s := a + [c] + b;
    assert s[|a|] == c;
    var j := StripKeepsSolid(s, IsSpace, |a|);
    TrimmedRejects(Strip(s, IsSpace), j);
    ParseIsTrimmed(s);
  }

  lemma ParseIsTrimmed(s: string)
    ensures ParseInt(s) == ParseTrimmed(Strip(s, IsSpace))
  {
  }

  /** A character `strip` would not drop survives it. */
  lemma StripKeepsSolid(s: string, drop: char -> bool, p: nat) returns (j: nat)
    requires p < |s| && !drop(s[p])
    ensures j < |Strip(s, drop)| && Strip(s, drop)[j] == s[p]
  {
    StripIsSlice(s, drop);
    var a, b :| && 0 <= a <= b <= |s| && Strip(s, drop) == s[a..b]
      && (forall k :: 0 <= k < a ==> drop(s[k]))
      && (forall k :: b <= k < |s| ==> drop(s[k]));
    j := p - a;
  }

  /** Once the blanks are gone, a foreign character anywhere leaves no numeral after the sign. */
  lemma TrimmedRejects(t: string, j: nat)
    requires j < |t| && Foreign(t[j])
    ensures ParseTrimmed(t).None?
  {
    if t[0] == '-' || t[0] == '+' {
      assert !Numeral(t[1..]) by { assert t[1..][j - 1] == t[j]; }
    } else {
      assert !Numeral(t) by { assert t[j] == t[j]; }
    }
  }

  /** Reading a number written by `ShowNat` gives it back. */
  lemma ParseShowNat(n: nat)
    ensures ParseInt(ShowNat(n)) == Some(n)
  {
    ParseDigits(ShowNat(n));
    ShowNatValue(n);
  }
}
